=== FILE: README.md ===
# MAUI CodeMirror control — a Dafny model

This project models the core of a .NET MAUI control that hosts the CodeMirror code editor in a WebView:

- **Language service.** It holds a table of 19 language descriptions and provides lookup by id, alias, file extension or file name, feature queries, and the CodeMirror mode for a language.
- **Theme service.** It holds a table of 13 themes and provides lookup, an existence check, dark and light lists, name lists, and a recommended theme per language.
- **Completion service.** It stores per-language completion lists and provider delegates. It finds the word before the caret, filters entries by that prefix, orders them by relevance, and supplies fixed snippet lists.
- **Editor view.** It polls the page until the editor reports ready, with exponential backoff. It caches property changes that arrive before initialisation and pushes the value through a three-step fallback (`SetValueSafely`). It maps language and theme names to CodeMirror modes and themes.
- **Page script.** The script inside the page defers operations in a queue until the editor is ready, and provides idempotent mode and theme setters plus the two value setters.
- **Editor control.** It keeps editor options, decorations and commands. It guards every page-facing operation with the initialised flag, and includes `GotoLine`, `GetLineCount` and `Destroy`.

Everything is immutable data plus pure transition functions. A loop appears only where the source has one: the queue drain and the readiness polling.

The WebView is an abstract oracle (`Bridge.Oracle`). Every script sent is recorded in a `Script` value. The n-th evaluation's reply is `reply(n)`, and whether it raises is `throws(n)`. The same oracle supplies the code cleaner and the JSON decoding of id lists, which are outside the model.

Culture-dependent operations are a `Culture` parameter: `char.IsLetterOrDigit` and the default string comparison used by `ThenBy`.

Modules:

- `Common`: Option, ASCII case folding, prefix tests.
- `Numbers`: `int.TryParse` and printing.
- `Sorting`: stable insertion sort.
- `Languages`, `Themes`, `Completion`: the three services.
- `Bridge`: the script vocabulary and the oracle.
- `Page`: the in-page queue.
- `View`: `CodeMirrorEditorView`.
- `Editor`: `CodeMirrorEditor`.

## Model

| member | source | states |
|---|---|---|
| Languages.KeysDistinct | src/MAUI.CodeMirror/Services/CodeMirrorLanguageService.cs:13-482 | the 19 dictionary keys are pairwise distinct |
| Languages.KeysLowerCase | src/MAUI.CodeMirror/Services/CodeMirrorLanguageService.cs:13-482 | every key is lower case, so a lower-cased id can hit it |
| Languages.AliasesDisjoint | src/MAUI.CodeMirror/Services/CodeMirrorLanguageService.cs:13-482 | no alias is listed by two languages, so the first-match alias search has one candidate |
| Languages.ExtensionsDisjoint | src/MAUI.CodeMirror/Services/CodeMirrorLanguageService.cs:13-482 | no extension is listed by two languages |
| Languages.AliasNamesOnlyOwnKey | src/MAUI.CodeMirror/Services/CodeMirrorLanguageService.cs:13-482 | an alias equal to some key belongs to that key's own entry |
| Languages.SupportLanguageIsKey | src/MAUI.CodeMirror/Services/CodeMirrorLanguageService.cs:13-482 | each entry's engine language string equals its key |
| Languages.Resolve | src/MAUI.CodeMirror/Services/CodeMirrorLanguageService.cs:487-501 | empty ids resolve to nothing; a lower-cased key wins; otherwise the first entry whose aliases hold the lower-cased id, and nothing exactly when none does |
| Languages.GetLanguage | src/MAUI.CodeMirror/Services/CodeMirrorLanguageService.cs:487-501 | null for an empty id; otherwise the description of the entry whose key or alias equals the lower-cased id, and null exactly when no entry names it |
| Languages.ResolveNamed | src/MAUI.CodeMirror/Services/CodeMirrorLanguageService.cs:487-501 | a non-empty id resolves to every entry it names by key or alias, and to nothing exactly when it names none |
| Languages.ResolveByKey | src/MAUI.CodeMirror/Services/CodeMirrorLanguageService.cs:487-501 | any id whose lower case is a key resolves to that key's entry |
| Languages.ResolveByAlias | src/MAUI.CodeMirror/Services/CodeMirrorLanguageService.cs:487-501 | an id whose lower case is an alias (and not a key) resolves to the entry listing that alias |
| Languages.UnknownId | src/MAUI.CodeMirror/Services/CodeMirrorLanguageService.cs:487-501 | ids that are neither key nor alias in any case return null |
| Languages.GetAllLanguages | src/MAUI.CodeMirror/Services/CodeMirrorLanguageService.cs:550-553 | every description, in table order |
| Languages.AllLanguagesFoundByKey | src/MAUI.CodeMirror/Services/CodeMirrorLanguageService.cs:550-553 | each listed description is what GetLanguage returns for its key |
| Languages.NormalizeExtension | src/MAUI.CodeMirror/Services/CodeMirrorLanguageService.cs:511-514 | the lower-cased extension, with a dot prefixed exactly when it does not start with one |
| Languages.ExtensionResolve | src/MAUI.CodeMirror/Services/CodeMirrorLanguageService.cs:506-517 | empty extensions resolve to nothing; otherwise the entry listing the normalised extension, nothing when none does |
| Languages.GetLanguageByExtension | src/MAUI.CodeMirror/Services/CodeMirrorLanguageService.cs:506-517 | null for an empty extension; otherwise the description of the entry listing the normalised extension, null exactly when none does |
| Languages.GetLanguageByExtensionUnique | src/MAUI.CodeMirror/Services/CodeMirrorLanguageService.cs:506-517 | the entry listing the normalised extension is the one returned |
| Languages.NormalizeCaseInsensitive | src/MAUI.CodeMirror/Services/CodeMirrorLanguageService.cs:511-514 | normalisation ignores letter case |
| Languages.ExtensionCaseInsensitive | src/MAUI.CodeMirror/Services/CodeMirrorLanguageService.cs:506-517 | the extension lookup ignores letter case |
| Languages.ExtensionDotOptional | src/MAUI.CodeMirror/Services/CodeMirrorLanguageService.cs:506-517 | "x" and ".x" look up the same language |
| Languages.JavaScriptExtensionSpellings | src/MAUI.CodeMirror/Services/CodeMirrorLanguageService.cs:506-517 | "js", ".js" and ".JS" all find JavaScript |
| Languages.GetExtension | src/MAUI.CodeMirror/Services/CodeMirrorLanguageService.cs:527 | the suffix starting at a dot that is not last and has no dot or '/' after it, and "" exactly when the name has no such dot |
| Languages.GetLanguageByFileName | src/MAUI.CodeMirror/Services/CodeMirrorLanguageService.cs:522-545 | null for an empty name; a name whose extension has a language gets that language; without an extension only a special name can yield a result, the lookup of its mapped id |
| Languages.FileNameResolvesOnlyByExtension | src/MAUI.CodeMirror/Services/CodeMirrorLanguageService.cs:522-545 | the file-name lookup equals the extension lookup when there is an extension and is null otherwise, because the special names ask for ids the table lacks |
| Languages.SpecialIdsUnresolved | src/MAUI.CodeMirror/Services/CodeMirrorLanguageService.cs:536-543 | "makefile", "dockerfile" and "groovy" are neither keys nor aliases |
| Languages.SpecialFileNamesUnresolved | src/MAUI.CodeMirror/Services/CodeMirrorLanguageService.cs:536-543 | Makefile, GNUmakefile, Dockerfile and Jenkinsfile, in any case, return null |
| Languages.NoDotNoExtension | src/MAUI.CodeMirror/Services/CodeMirrorLanguageService.cs:527-533 | a name without a dot has no extension to try |
| Languages.SupportsFeature | src/MAUI.CodeMirror/Services/CodeMirrorLanguageService.cs:558-562 | false for an id that does not resolve; a null feature on a resolved id raises (None), and only then |
| Languages.SupportsFeatureOfEntry | src/MAUI.CodeMirror/Services/CodeMirrorLanguageService.cs:558-562 | for an id naming an entry by key or alias, the answer is whether that entry's features hold the lower-cased feature, and a null feature raises |
| Languages.TypeScriptSupportsTypes | src/MAUI.CodeMirror/Services/CodeMirrorLanguageService.cs:41-66 | TypeScript, by key or alias "ts", supports "types" in any case |
| Languages.JavaScriptLacksTypes | src/MAUI.CodeMirror/Services/CodeMirrorLanguageService.cs:15-40 | JavaScript does not support "types" |
| Languages.GetCodeMirrorMode | src/MAUI.CodeMirror/Services/CodeMirrorLanguageService.cs:567-571 | "text" exactly when the id resolves to nothing; otherwise the key of the entry it resolves to |
| Languages.ModeOfKey | src/MAUI.CodeMirror/Services/CodeMirrorLanguageService.cs:567-571 | the mode for a key is the key itself |
| Languages.ModeOfAlias | src/MAUI.CodeMirror/Services/CodeMirrorLanguageService.cs:567-571 | the alias "ts" yields the mode "typescript" |
| Themes.KeysDistinctIgnoringCase | src/MAUI.CodeMirror/Services/CodeMirrorThemeService.cs:12-326 | no two theme keys differ only in letter case |
| Themes.CamelCaseKeys | src/MAUI.CodeMirror/Services/CodeMirrorThemeService.cs:12-326 | eight keys hold upper-case letters, so a lower-cased id never equals them |
| Themes.LowerImageKeys | src/MAUI.CodeMirror/Services/CodeMirrorThemeService.cs:12-326 | the lower case of any string is a key only for the five lower-case keys |
| Themes.GetThemeAsWritten | src/MAUI.CodeMirror/Services/CodeMirrorThemeService.cs:331-338 | the lookup as written, with fuel: a found theme is the entry for the lower-cased id, and the default branch recurses on "oneDark" |
| Themes.GetThemeAsWrittenDiverges | src/MAUI.CodeMirror/Services/CodeMirrorThemeService.cs:331-338 | for every id whose lower case is not a key, the lookup as written runs out of any fuel |
| Themes.DefaultThemeDiverges | src/MAUI.CodeMirror/Services/CodeMirrorThemeService.cs:333-334 | the null/empty branch never returns |
| Themes.GetThemeAsWrittenFinds | src/MAUI.CodeMirror/Services/CodeMirrorThemeService.cs:336-337 | a lower-case key is found with one unit of fuel |
| Themes.GetTheme | src/MAUI.CodeMirror/Services/CodeMirrorThemeService.cs:331-338 | corrected lookup: the entry whose key equals the id ignoring case, else the "oneDark" theme |
| Themes.GetThemeOfKey | src/MAUI.CodeMirror/Services/CodeMirrorThemeService.cs:331-338 | every key, in any case, yields its own theme |
| Themes.ThemeExistsAsWritten | src/MAUI.CodeMirror/Services/CodeMirrorThemeService.cs:367-373 | the check as written never reports a theme the corrected check rejects |
| Themes.ThemeExistsAsWrittenOnlyLowerCase | src/MAUI.CodeMirror/Services/CodeMirrorThemeService.cs:367-373 | the check as written is true only for ids that lower-case to one of the five lower-case keys |
| Themes.OneDarkReportedMissing | src/MAUI.CodeMirror/Services/CodeMirrorThemeService.cs:367-373 | the check as written reports the default theme "oneDark" as missing |
| Themes.ThemeExists | src/MAUI.CodeMirror/Services/CodeMirrorThemeService.cs:367-373 | corrected check: true exactly when some key equals the id ignoring case |
| Themes.ThemeExistsForKeys | src/MAUI.CodeMirror/Services/CodeMirrorThemeService.cs:367-373 | every key, in any case, is reported as existing |
| Themes.AllThemes | src/MAUI.CodeMirror/Services/CodeMirrorThemeService.cs:343-346 | all 13 themes in table order |
| Themes.GetDarkThemes | src/MAUI.CodeMirror/Services/CodeMirrorThemeService.cs:351-354 | every returned theme is dark |
| Themes.GetLightThemes | src/MAUI.CodeMirror/Services/CodeMirrorThemeService.cs:359-362 | every returned theme is light |
| Themes.WithDark | src/MAUI.CodeMirror/Services/CodeMirrorThemeService.cs:351-362 | the filter keeps exactly the entries with the requested flag, with their multiplicities |
| Themes.WithDarkSubsequence | src/MAUI.CodeMirror/Services/CodeMirrorThemeService.cs:351-362 | the filter keeps the original order |
| Themes.DarkLightPartition | src/MAUI.CodeMirror/Services/CodeMirrorThemeService.cs:351-362 | the dark and light lists are disjoint, ordered, and together hold every theme |
| Themes.WithDarkPartition | src/MAUI.CodeMirror/Services/CodeMirrorThemeService.cs:351-362 | for any list, the dark and light selections share no entry and together hold every entry as often as the list does |
| Themes.LightKeys | src/MAUI.CodeMirror/Services/CodeMirrorThemeService.cs:359-362 | the light themes are githubLight and solarizedLight |
| Themes.GetThemeNames | src/MAUI.CodeMirror/Services/CodeMirrorThemeService.cs:378-381 | the keys in table order |
| Themes.GetThemeDisplayNames | src/MAUI.CodeMirror/Services/CodeMirrorThemeService.cs:386-389 | the map's keys are exactly the theme keys, each mapped to its theme's name |
| Themes.NameLooksUpItsTheme | src/MAUI.CodeMirror/Services/CodeMirrorThemeService.cs:378-389 | each listed name looks up its own entry, and the map gives that entry's display name |
| Themes.DisplayNamesCount | src/MAUI.CodeMirror/Services/CodeMirrorThemeService.cs:386-389 | the display-name map has one entry per theme |
| Themes.RecommendationsFor | src/MAUI.CodeMirror/Services/CodeMirrorThemeService.cs:397-407 | the candidate list recorded for the lower-cased language, none for the other languages |
| Themes.FirstFitting | src/MAUI.CodeMirror/Services/CodeMirrorThemeService.cs:412-422 | the position of the first candidate that passes the test (a key with the preferred darkness, in the service), none when no candidate passes |
| Themes.GetRecommendedTheme | src/MAUI.CodeMirror/Services/CodeMirrorThemeService.cs:394-427 | the result always fits the preference; it is the first fitting recommendation, else "oneDark" or "githubLight" |
| Themes.DefaultFits | src/MAUI.CodeMirror/Services/CodeMirrorThemeService.cs:426 | "oneDark" is dark and "githubLight" is light |
| Themes.RecommendationsAreKeys | src/MAUI.CodeMirror/Services/CodeMirrorThemeService.cs:397-407 | every recommended name is a theme key |
| Themes.UnknownLanguageDefault | src/MAUI.CodeMirror/Services/CodeMirrorThemeService.cs:409-426 | null or unlisted languages get the default for the preference |
| Sorting.SortPermutes | src/MAUI.CodeMirror/Services/CodeMirrorCompletionService.cs:213-216 | the ordering step rearranges the entries without loss or duplication |
| Sorting.SortSorted | src/MAUI.CodeMirror/Services/CodeMirrorCompletionService.cs:213-216 | under a total preorder the result is ordered |
| Sorting.SortStable | src/MAUI.CodeMirror/Services/CodeMirrorCompletionService.cs:213-216 | equivalent entries keep their relative order, as OrderBy/ThenBy promise |
| Sorting.SortOfSorted | src/MAUI.CodeMirror/Services/CodeMirrorCompletionService.cs:213-216 | an ordered list is left unchanged |
| Completion.Initial | src/MAUI.CodeMirror/Services/CodeMirrorCompletionService.cs:17-146 | javascript and typescript share one list object; python and csharp have their own lists; nothing else is bound; no providers |
| Completion.RegisterCompletions | src/MAUI.CodeMirror/Services/CodeMirrorCompletionService.cs:151-164 | no effect for an empty language or null list; appends to a bound list and so to every language sharing it; else binds the caller's list, so a list registered for two languages is shared; providers untouched |
| Completion.SharedCallerList | src/MAUI.CodeMirror/Services/CodeMirrorCompletionService.cs:151-164 | one list registered for two languages and then extended through the first is seen extended by the second |
| Completion.JavaScriptTypeScriptAliasing | src/MAUI.CodeMirror/Services/CodeMirrorCompletionService.cs:63-64 | entries registered for javascript also appear for typescript and the other way round, and not for python |
| Completion.RegisterCompletionProvider | src/MAUI.CodeMirror/Services/CodeMirrorCompletionService.cs:169-175 | no effect for an empty language or null delegate; otherwise insert or replace that one provider |
| Completion.GetPrefixAtPosition | src/MAUI.CodeMirror/Services/CodeMirrorCompletionService.cs:222-234 | "" for empty text or an out-of-range position; else the longest run of letters, digits, '_' and '.' ending at the position |
| Completion.WordBeforeUnique | src/MAUI.CodeMirror/Services/CodeMirrorCompletionService.cs:222-234 | that description determines the prefix uniquely |
| Completion.WordBeforeLongest | src/MAUI.CodeMirror/Services/CodeMirrorCompletionService.cs:226-230 | no word before the caret is longer than another, since the character before the shorter one would be a word character |
| Completion.KeepPrefixed | src/MAUI.CodeMirror/Services/CodeMirrorCompletionService.cs:202-208 | keeps exactly the entries whose label starts with the prefix ignoring case, with multiplicities |
| Completion.KeepPrefixedAll | src/MAUI.CodeMirror/Services/CodeMirrorCompletionService.cs:202-208 | when every label matches, the list is unchanged |
| Completion.RelevanceTotalPreorder | src/MAUI.CodeMirror/Services/CodeMirrorCompletionService.cs:213-216 | boost (null as 0) then label is a total preorder whenever the label order is |
| Completion.Candidates | src/MAUI.CodeMirror/Services/CodeMirrorCompletionService.cs:184-198 | the static list for the exact key, then the provider's non-null result |
| Completion.GetCompletions | src/MAUI.CodeMirror/Services/CodeMirrorCompletionService.cs:180-217 | raises (None) exactly when a filter is active and some candidate has a null label; otherwise exactly the candidates that match the prefix (all when it is empty), ordered by relevance |
| Completion.GetCompletionsStable | src/MAUI.CodeMirror/Services/CodeMirrorCompletionService.cs:213-216 | equally relevant entries keep their candidate order |
| Completion.NoContextNoFilter | src/MAUI.CodeMirror/Services/CodeMirrorCompletionService.cs:201-210 | an empty context filters nothing |
| Completion.UnknownLanguageNoCompletions | src/MAUI.CodeMirror/Services/CodeMirrorCompletionService.cs:184-198 | a language with neither list nor provider gets an empty list |
| Completion.GetSnippets | src/MAUI.CodeMirror/Services/CodeMirrorCompletionService.cs:239-261 | null gives an empty list; otherwise the switch applied to the lower-cased name, non-empty exactly for javascript, typescript, python, csharp and html in any case; every entry is a snippet without boost |
| Completion.SnippetsFor | src/MAUI.CodeMirror/Services/CodeMirrorCompletionService.cs:243-258 | javascript and typescript get the JavaScript list, python, csharp and html their own lists, every other name none; all of snippet kind without boost |
| Completion.SnippetsIgnoreCase | src/MAUI.CodeMirror/Services/CodeMirrorCompletionService.cs:243 | snippets depend on the language only up to case |
| Completion.TypeScriptSnippetsAreJavaScript | src/MAUI.CodeMirror/Services/CodeMirrorCompletionService.cs:245-248 | typescript gets the JavaScript snippets |
| Numbers.ParseInt32 | src/MAUI.CodeMirror/CodeMirrorEditor.cs:371 | null parses to nothing; any parsed value is a 32-bit integer |
| Numbers.ParsedShape | src/MAUI.CodeMirror/CodeMirrorEditor.cs:371 | only text that is an optional sign followed by digits, once trimmed of white space, parses |
| Numbers.TrailingLetterRejected | src/MAUI.CodeMirror/CodeMirrorEditor.cs:371 | "12a" does not parse |
| Numbers.ParseShow | src/MAUI.CodeMirror/CodeMirrorEditor.cs:371 | every 32-bit integer printed in decimal parses back to itself |
| Numbers.ParseIgnoresPadding | src/MAUI.CodeMirror/CodeMirrorEditor.cs:371 | white space around the number is ignored |
| Numbers.ParseRejectsOverflow | src/MAUI.CodeMirror/CodeMirrorEditor.cs:371 | printed values outside the 32-bit range are rejected |
| Numbers.NoDigitsNoNumber | src/MAUI.CodeMirror/CodeMirrorEditor.cs:371 | text without a single decimal digit never parses |
| Page.Loaded | src/MAUI.CodeMirror/CodeMirrorEditorView.cs:593-596 | the page starts not ready, with an empty queue and an editor in javascript mode with the dracula theme |
| Page.Apply | src/MAUI.CodeMirror/CodeMirrorEditorView.cs:494-524 | every operation does nothing without an editor; otherwise it sets the option it names and leaves the other options alone; the current language and theme change only on a real change, to the new value |
| Page.SettersSkipEqualValues | src/MAUI.CodeMirror/CodeMirrorEditorView.cs:494-524 | the mode and theme setters leave everything alone when the value is already set |
| Page.ApplyIdempotent | src/MAUI.CodeMirror/CodeMirrorEditorView.cs:494-524 | running any operation twice equals running it once |
| Page.QueueOrExecute | src/MAUI.CodeMirror/CodeMirrorEditorView.cs:480-492 | runs the operation when ready, else appends it to the queue |
| Page.ProcessQueue | src/MAUI.CodeMirror/CodeMirrorEditorView.cs:459-477 | a no-op while processing, not ready or empty; otherwise runs every queued operation oldest first and empties the queue |
| Page.MarkReady | src/MAUI.CodeMirror/CodeMirrorEditorView.cs:627-644 | the ready signal drains the queue in order |
| Page.SubmitBeforeReady | src/MAUI.CodeMirror/CodeMirrorEditorView.cs:480-492 | before readiness, submissions only queue, in order |
| Page.SubmitAfterReady | src/MAUI.CodeMirror/CodeMirrorEditorView.cs:480-492 | after readiness, submissions run at once |
| Page.DeferredEqualsImmediate | src/MAUI.CodeMirror/CodeMirrorEditorView.cs:459-492 | operations submitted before the ready signal end up exactly as if submitted after it |
| Page.SetEditorValue | src/MAUI.CodeMirror/CodeMirrorEditorView.cs:526-563 | when ready, sets the value ("success") or reports "not-ready" without an editor; otherwise queues the setter and reports "queued" |
| Page.SetEditorValueDirect | src/MAUI.CodeMirror/CodeMirrorEditorView.cs:565-583 | sets the value whenever an editor exists ("success"), else records it as pending |
| Page.QueuedValueLands | src/MAUI.CodeMirror/CodeMirrorEditorView.cs:526-563 | a value queued before readiness is the editor's value after the ready signal |
| View.ModeOfLower | src/MAUI.CodeMirror/CodeMirrorEditorView.cs:352-369 | "text/plain" exactly for names outside the 17 recognised ones; the result is one of 12 modes |
| View.ModeFor | src/MAUI.CodeMirror/CodeMirrorEditorView.cs:352-369 | "text/plain" exactly for null or unrecognised names in any case |
| View.ShortNamesMapLikeFullNames | src/MAUI.CodeMirror/CodeMirrorEditorView.cs:354-365 | js, ts, cs, py, md and yml map like their full names |
| View.ModeDeterminesLanguage | src/MAUI.CodeMirror/CodeMirrorEditorView.cs:352-369 | the mode of a recognised name determines the full language name |
| View.ModeIgnoresCase | src/MAUI.CodeMirror/CodeMirrorEditorView.cs:354 | the mode ignores letter case |
| View.ThemeFor | src/MAUI.CodeMirror/CodeMirrorEditorView.cs:371-381 | "default" exactly for "light", "monokai" and "material-darker" exactly for their names, "dracula" otherwise (null included) |
| View.NewView | src/MAUI.CodeMirror/CodeMirrorEditorView.cs:12-38 | defaults: empty code, javascript, dracula, writable, not initialised, nothing cached |
| View.SetValueSafely | src/MAUI.CodeMirror/CodeMirrorEditorView.cs:298-350 | sleeps 1000 ms only before initialisation; sends the base64 setter, then the direct setter, then the log fetch, stopping after the first evaluation that throws or reports success; succeeds exactly when one reply contains "success" before any exception; the code is touched only when both setters fail without throwing, and then holds the cleaned code, which before initialisation also lands in the code cache |
| View.ValueSentFirst | src/MAUI.CodeMirror/CodeMirrorEditorView.cs:312-315 | whatever the replies, the base64 setter is the first script sent and nothing sent earlier changes |
| View.FirstAttemptSuffices | src/MAUI.CodeMirror/CodeMirrorEditorView.cs:317-321 | a successful base64 attempt sends nothing else |
| View.FallbackStoresCode | src/MAUI.CodeMirror/CodeMirrorEditorView.cs:332-341 | when neither setter succeeds, the cleaned code becomes the Code property after three scripts, and is cached when the view is not yet initialised |
| View.SetCode | src/MAUI.CodeMirror/CodeMirrorEditorView.cs:222-240 | no effect for an unchanged value; before initialisation the code is cached, after it sent |
| View.SetLanguage | src/MAUI.CodeMirror/CodeMirrorEditorView.cs:242-259 | null is ignored; before initialisation the name is cached, after it the mode is sent |
| View.SetTheme | src/MAUI.CodeMirror/CodeMirrorEditorView.cs:261-278 | null is ignored; before initialisation the name is cached, after it the theme is sent |
| View.SetReadOnly | src/MAUI.CodeMirror/CodeMirrorEditorView.cs:280-286 | forwarded only when initialised |
| View.InitializedBypassesCache | src/MAUI.CodeMirror/CodeMirrorEditorView.cs:242-278 | after initialisation no language or theme change touches the caches |
| View.NothingSentBeforeInit | src/MAUI.CodeMirror/CodeMirrorEditorView.cs:222-286 | before initialisation no property change sends anything |
| View.GetEditorValue | src/MAUI.CodeMirror/CodeMirrorEditorView.cs:288-296 | the page's value (null read as "") once initialised, the Code property before |
| View.InitializeEditor | src/MAUI.CodeMirror/CodeMirrorEditorView.cs:194-220 | theme, then mode, then read-only when set; then, for a non-empty Code, the value setter run on that code, whose first script is the base64 setter of the cleaned code; nothing more for an empty Code; theme, language, read-only flag and the language and theme caches unchanged |
| View.ApplyCachedContent | src/MAUI.CodeMirror/CodeMirrorEditorView.cs:165-192 | cached theme, then language, then code, each only when not empty; only the code cache is cleared |
| View.DelayStep | src/MAUI.CodeMirror/CodeMirrorEditorView.cs:142 | doubling and capping the current delay gives the next one |
| View.DelayBounds | src/MAUI.CodeMirror/CodeMirrorEditorView.cs:124-142 | delays start at 100 ms, never decrease, never exceed 2000 ms |
| View.PollReadiness | src/MAUI.CodeMirror/CodeMirrorEditorView.cs:124-143 | ready exactly when one of 15 probe replies reads "true" in any case; stops at the first; sleeps after each failed probe with the backoff delays |
| View.PollingBudget | src/MAUI.CodeMirror/CodeMirrorEditorView.cs:124-143 | a page that never becomes ready costs 23100 ms of backoff sleeps |
| View.OnNavigated | src/MAUI.CodeMirror/CodeMirrorEditorView.cs:109-163 | only the first successful navigation acts: it marks the view initialised, waits 500 ms and polls; when a probe succeeds after some failed ones, the result is the initialisation then the cached content then the overlay hidden and the log fetch; else the error overlay; always ends with the log fetch |
| View.ReadyPath | src/MAUI.CodeMirror/CodeMirrorEditorView.cs:145-158 | after a successful poll, the view is initialised, the overlay hidden, the code cache cleared, and the log fetch sent last |
| View.NavigateTwice | src/MAUI.CodeMirror/CodeMirrorEditorView.cs:111 | a second navigation changes nothing |
| Editor.NewEditor | src/MAUI.CodeMirror/CodeMirrorEditor.cs:100-110 | options default when null; all collections start empty |
| Editor.UpdateOptions | src/MAUI.CodeMirror/CodeMirrorEditor.cs:280-291 | once initialised sends the options, with the rest of the state (view, options, decorations, commands) unchanged; a no-op before |
| Editor.SetOptions | src/MAUI.CodeMirror/CodeMirrorEditor.cs:81-92 | always stores the options; once initialised also sends them, with the rest of the state unchanged |
| Editor.OptionsBeforeInitStayLocal | src/MAUI.CodeMirror/CodeMirrorEditor.cs:81-92 | options set before initialisation are kept but never sent |
| Editor.GetValue | src/MAUI.CodeMirror/CodeMirrorEditor.cs:296-299 | the Code property before initialisation; after it the page value (null read as ""), with only the value query sent and nothing else changed |
| Editor.SetValue | src/MAUI.CodeMirror/CodeMirrorEditor.cs:304-307 | delegates to SetValueSafely: the first script is the base64 setter, editor state untouched |
| Editor.GetLineCount | src/MAUI.CodeMirror/CodeMirrorEditor.cs:365-376 | 0 before initialisation or for an unparsable reply; the parsed reply otherwise; always a 32-bit integer |
| Editor.LineCountRoundTrip | src/MAUI.CodeMirror/CodeMirrorEditor.cs:365-376 | a reply printing a 32-bit count reads back as that count |
| Editor.LineCountDefaults | src/MAUI.CodeMirror/CodeMirrorEditor.cs:371-375 | a null reply or one without any digit counts as zero |
| Editor.SetCursorPosition | src/MAUI.CodeMirror/CodeMirrorEditor.cs:412-425 | once initialised sends the cursor move, with the rest of the state (view, options, decorations, commands) unchanged; a no-op before |
| Editor.ScrollToLine | src/MAUI.CodeMirror/CodeMirrorEditor.cs:510-523 | once initialised sends the scroll, with the rest of the state (view, options, decorations, commands) unchanged; a no-op before |
| Editor.GotoLine | src/MAUI.CodeMirror/CodeMirrorEditor.cs:544-548 | once initialised sends the cursor move to column 0 then the scroll, with the rest of the state (view, options, decorations, commands) unchanged; a no-op before |
| Editor.GotoLineIsCursorThenScroll | src/MAUI.CodeMirror/CodeMirrorEditor.cs:544-548 | as a call, going to a line has the effect of the cursor call at column 0 followed by the scroll call, initialised or not |
| Editor.AddDecorations | src/MAUI.CodeMirror/CodeMirrorEditor.cs:557-576 | no ids before initialisation; otherwise sends the decorations and returns no ids for a null reply and the decoded ids for one that decodes; the list grows by the decorations exactly when the reply decodes, and a decoding failure raises before recording; nothing else changes |
| Editor.RemoveDecorations | src/MAUI.CodeMirror/CodeMirrorEditor.cs:581-591 | once initialised sends the ids to drop, with the rest of the state (view, options, decorations, commands) unchanged, the local list included; a no-op before |
| Editor.ClearDecorations | src/MAUI.CodeMirror/CodeMirrorEditor.cs:596-606 | once initialised sends the clear and empties the local list, nothing else changing; a no-op before |
| Editor.ClearThenAdd | src/MAUI.CodeMirror/CodeMirrorEditor.cs:557-606 | after a clear, a successful add leaves exactly the added decorations |
| Editor.RegisterCommand | src/MAUI.CodeMirror/CodeMirrorEditor.cs:615-627 | once initialised upserts the command under its name, other commands unchanged, and sends it, nothing else changing; a no-op before |
| Editor.RegisterCommandReplaces | src/MAUI.CodeMirror/CodeMirrorEditor.cs:619 | registering the same name twice keeps the later command |
| Editor.ExecuteCommand | src/MAUI.CodeMirror/CodeMirrorEditor.cs:632-645 | true exactly when initialised and the reply is "true" |
| Editor.Undo | src/MAUI.CodeMirror/CodeMirrorEditor.cs:708-711 | once initialised sends the "undo" command, with the rest of the state (view, options, decorations, commands) unchanged; a no-op before |
| Editor.Redo | src/MAUI.CodeMirror/CodeMirrorEditor.cs:716-719 | once initialised sends the "redo" command, with the rest of the state (view, options, decorations, commands) unchanged; a no-op before |
| Editor.Format | src/MAUI.CodeMirror/CodeMirrorEditor.cs:755-758 | once initialised sends the "format" command, with the rest of the state (view, options, decorations, commands) unchanged; a no-op before |
| Editor.ToggleComment | src/MAUI.CodeMirror/CodeMirrorEditor.cs:763-766 | once initialised sends the "toggleComment" command, with the rest of the state (view, options, decorations, commands) unchanged; a no-op before |
| Editor.ShortcutsAreNamedCommands | src/MAUI.CodeMirror/CodeMirrorEditor.cs:708-766 | as calls, Undo, Redo, Format and ToggleComment are the command call with "undo", "redo", "format" and "toggleComment" |
| Editor.HasFocus | src/MAUI.CodeMirror/CodeMirrorEditor.cs:696-703 | true exactly when initialised and the reply is "true"; once initialised sends the focus query, with the rest of the state (view, options, decorations, commands) unchanged |
| Editor.Destroy | src/MAUI.CodeMirror/CodeMirrorEditor.cs:800-817 | once initialised sends the teardown and empties every collection, options and the view otherwise unchanged; a no-op before |
| Editor.GuardedBeforeInit | src/MAUI.CodeMirror/CodeMirrorEditor.cs:280-817 | before initialisation every call except the value setter and the options setter leaves the editor unchanged |
| Editor.StepKeepsHistory | src/MAUI.CodeMirror/CodeMirrorEditor.cs:280-817 | no call changes the initialised flag or removes a sent script |
| Editor.RunKeepsClean | src/MAUI.CodeMirror/CodeMirrorEditor.cs:73-79 | key bindings, extensions, panels and tooltips stay empty under any sequence of calls |
| Editor.NothingSentBeforeInit | src/MAUI.CodeMirror/CodeMirrorEditor.cs:280-817 | before initialisation no sequence of calls without SetValue reaches the page |

## Left out

- I/O, timing and concurrency. Delays are recorded as numbers, not awaited. Because the handlers are `async void`, they can interleave; the model runs each handler to completion.
- The WebView bridge is modelled as an oracle. That covers the base64 and JSON encoding of the scripts, `CodeEditorHelper.CleanLambdaCode`, and the JSON decoding of decoration ids. `CodeEditorHelper` and `WebViewEditorHelper` are not part of this model.
- Overlay text and progress labels are left out (`UpdateLoadingProgress`, the loading strings). Only hidden versus failed is kept.
- Culture: `char.IsLetterOrDigit` and the label comparison of `ThenBy` are parameters. `ToLower` is ASCII case folding, and so is the `OrdinalIgnoreCase` prefix test of the completion filter (`Completion.Matches`). The source folds every Unicode letter there, so a prefix "é" matches a label "Émile" in the source and not in the model.
- View.SetValueSafely: the fallback assigns `Code`, which re-enters the code property handler. Before initialisation that handler caches the code, and the model does so too. After initialisation it calls `SetValueSafely` again; the model stores the code without that re-entry.
- View.SetCode: a null Code is read as "". The source's change notification distinguishes null from "", the model does not.
- Exceptions are modelled inside `SetValueSafely`, where the source catches them, in the decoding step of `AddDecorations`, and as `None` results for the two null dereferences of the services: a null completion label under an active filter and a null feature name. Elsewhere script evaluation is assumed not to raise.
- `CodeMirrorEditor.InitializeEditor` hides the base method rather than overriding it, so navigation runs the view's version. Only that version is modelled.
- Editor operations that only forward a script whose JSON result is not interpreted by the model are left out: `GetRange`, `ReplaceRange`, `GetDocument`, `GetLine`, `GetCursorPosition`, `GetSelection`, `SetSelection`, `SelectAll`, `ClearSelection`, `ScrollToCursor`, `Find`, `Replace`, `Focus`, `LoadExtension`, `UnloadExtension` and `GetStatistics`. They follow the same initialised-flag guard.
- `ExecuteCommand` arguments travel opaquely in the script. They are not modelled.
- Event declarations and event forwarding in `CodeMirrorEditor` are left out.
- Completion.GetPrefixAtPosition: strings are sequences of Unicode scalar values, while the source indexes UTF-16 code units. Positions, lengths and the character test agree with the source only for text without characters above U+FFFF; for such a character the source sees two surrogate halves, which are never letters or digits.
- Editor.AddDecorations: a reply that is the JSON text "null" deserialises to a null list in the source, which records the decorations and returns null. The model's decoder yields either ids or a failure, so that reply is modelled as one of the two.
- Completion.GetCompletions: a null language throws `ArgumentNullException` in the dictionary lookup. The model takes a string.
- Completion.GetCompletions: provider results come from an `invoke` parameter, and async providers are modelled as returning at once.
- Completion.RegisterCompletions: a caller list has an identity only through the store. A caller that changes its own list object after registering it is not modelled.
- Themes.GetDarkThemes: the contract states only that every returned theme is dark. That the list holds every dark theme, in table order, is stated by Themes.DarkLightPartition.
- Themes.GetLightThemes: the contract states only that every returned theme is light. Completeness and order are stated by Themes.DarkLightPartition.
- Completion.CompletionOption: only the fields the service reads or sets are kept. The built-in keyword lists are parameters of `Initial`. The snippet lists are transcribed in full.
- The source's dictionary iteration order is taken to be declaration order. `FirstOrDefault`, `Values` and `Keys` are modelled as table-order searches and lists.
- Languages.GetExtension: `Path.GetExtension` is simplified to the suffix from the last dot after the last '/'. The Windows separators `\` and `:` and invalid path characters are not modelled.
- Languages: only the fields the lookups read are kept (name, aliases, extensions, engine language, features). Brackets, comments and indentation are dropped.
- Themes: only the name and the dark flag of each theme are kept. Colours and styles are dropped.
- Numbers.ParseInt32: trailing NUL characters, which `int.TryParse` also accepts, are not modelled.
- Page: the base64 decoding inside `setEditorValue` and its error reply are not modelled. The page script's debug log is not modelled. `pendingValueDirect` is recorded but never read, as in the source.
- The page HTML, the external script URLs and the resize handler are not modelled.

## Findings

| source | as written | input that shows it | evidently intended | confidence | as-written member | corrected member |
|---|---|---|---|---|---|---|
| src/MAUI.CodeMirror/Services/CodeMirrorThemeService.cs:331-338 | the id is lower-cased before the key lookup, and the fallback calls `GetTheme("oneDark")`, whose lower case "onedark" is no key either | `GetTheme(null)` or `GetTheme("vsCode")` recurses forever (stack overflow) | look the key up ignoring case and fall back to the "oneDark" entry directly | high (not executed) | Themes.GetThemeAsWritten, Themes.GetThemeAsWrittenDiverges | Themes.GetTheme, Themes.GetThemeOfKey |
| src/MAUI.CodeMirror/Services/CodeMirrorThemeService.cs:367-373 | `Themes.ContainsKey(themeId.ToLower())` against camel-case keys | `ThemeExists("oneDark")` is false | true for every key in any letter case | high (not executed) | Themes.ThemeExistsAsWritten, Themes.OneDarkReportedMissing | Themes.ThemeExists, Themes.ThemeExistsForKeys |

=== FILE: bridge.dfy ===
/**
  What the native side sends to the web page, and what comes back.

  Every script the view or the editor evaluates is a `Script` value; the page
  is an abstract oracle. Replies are looked up by the number of scripts sent
  before (so the n-th evaluation gets `reply(n)`), None stands for a null
  result, and `throws(n)` says whether the n-th evaluation raises.
 */
module Bridge {
  import opened Common

  /** The decoration fields the model keeps; the rest travel opaquely inside the script. */
  datatype Decoration = Decoration(from: int, to: int, cssClass: string)

  datatype Command = Command(name: string, key: string)

  datatype KeyBinding = KeyBinding(key: string, command: string)

  datatype Extension = Extension(name: string)

  datatype Panel = Panel(id: string)

  datatype Tooltip = Tooltip(pos: int, text: string)

  /** The editor options, represented by their JSON form. */
  datatype EditorOptions = EditorOptions(json: string)

  /** The scripts the native side evaluates in the page. */
  datatype Script =
    | ProbeReady                              // window.editorReady === true
    | DebugLog                                // JSON.stringify(window.debugLog || [])
    | SetEditorTheme(theme: string)           // window.setEditorTheme('theme')
    | SetEditorMode(mode: string)             // window.setEditorMode('mode')
    | QueueReadOnly                           // queueOrExecute(setOption('readOnly', true))
    | SetReadOnly(on: bool)                   // setOption('readOnly', on) if the editor exists
    | SetEditorValue(text: string)            // window.setEditorValue(base64 of text)
    | SetEditorValueDirect(text: string)      // window.setEditorValueDirect(JSON of text)
    | GetEditorValue                          // editor.getValue()
    | UpdateOptions(options: EditorOptions)
    | SetCursor(line: int, column: int)
    | ScrollToLine(line: int)
    | AddDecorations(decorations: seq<Decoration>)
    | RemoveDecorations(ids: seq<string>)
    | ClearDecorations
    | RegisterCommand(command: Command)
    | ExecuteCommand(name: string)
    | HasFocus
    | GetLineCount
    | DestroyEditor

  /**
    The page seen from the native side. `clean` is `CodeEditorHelper.CleanLambdaCode`
    and `decodeIds` the JSON decoding of a list of strings (None when it throws);
    neither is part of this model.
   */
  datatype Oracle = Oracle(
    reply: nat -> Option<string>,
    throws: nat -> bool,
    clean: string -> string,
    decodeIds: string -> Option<seq<string>>)

  /** `result?.ToString()?.Contains("success") == true`. */
  predicate ReportsSuccess(reply: Option<string>)
  {
    reply.Some? && Contains(reply.value, "success")
  }

  /** `result?.ToString() == "true"`. */
  predicate IsTrue(reply: Option<string>)
  {
    reply == Some("true")
  }
}

=== FILE: common.dfy ===
/**
  Shared vocabulary: a nullable-value wrapper and the string operations the
  services rely on (lower-casing, prefix tests, substring search).

  Case mapping is the ordinal ASCII mapping: 'A'..'Z' become 'a'..'z' and every
  other character is left alone.
 */
module Common {

  /** A value that may be absent; stands for a C# reference that may be null. */
  datatype Option<+T> = None | Some(value: T) {

    /** The wrapped value, or `default` when absent (C#'s `??`). */
    function GetOr(default: T): T
    {
      match this
      case Some(v) => v
      case None => default
    }
  }

  predicate IsUpper(c: char)
  {
    'A' <= c <= 'Z'
  }

  /** Lower-cases one character (ASCII letters only). */
  function LowerChar(c: char): (r: char)
    ensures !IsUpper(r)
    ensures !IsUpper(c) ==> r == c
  {
    if IsUpper(c) then (c as int + 32) as char else c
  }

  /** True when the string has no upper-case letter, i.e. lower-casing leaves it alone. */
  predicate IsLowerCase(s: string)
  {
    forall i :: 0 <= i < |s| ==> !IsUpper(s[i])
  }

  /** `s.ToLower()`. */
  function Lower(s: string): (r: string)
    ensures |r| == |s|
    ensures forall i :: 0 <= i < |s| ==> r[i] == LowerChar(s[i])
    ensures IsLowerCase(r)
  {
    seq(|s|, i requires 0 <= i < |s| => LowerChar(s[i]))
  }

  /** Lower-casing a string without upper-case letters returns it unchanged. */
  lemma LowerOfLowerCase(s: string)
    requires IsLowerCase(s)
    ensures Lower(s) == s
  {
  }

  /** Lower-casing is idempotent. */
  lemma LowerIdempotent(s: string)
    ensures Lower(Lower(s)) == Lower(s)
  {
    LowerOfLowerCase(Lower(s));
  }

  /** A string that contains an upper-case letter is never the result of lower-casing. */
  lemma NotALowerImage(s: string, k: string, i: nat)
    requires i < |k| && IsUpper(k[i])
    ensures Lower(s) != k
  {
  }

  /** Lower-casing commutes with taking a prefix. */
  lemma LowerPrefix(s: string, n: nat)
    requires n <= |s|
    ensures Lower(s[..n]) == Lower(s)[..n]
  {
  }

  /** Lower-casing distributes over concatenation. */
  lemma LowerAppend(a: string, b: string)
    ensures Lower(a + b) == Lower(a) + Lower(b)
  {
  }

  /** `s.StartsWith(p)` with ordinal comparison. */
  predicate StartsWith(s: string, p: string)
  {
    |p| <= |s| && s[..|p|] == p
  }

  /** `s.StartsWith(p, StringComparison.OrdinalIgnoreCase)`. */
  predicate StartsWithIgnoreCase(s: string, p: string)
  {
    |p| <= |s| && Lower(s[..|p|]) == Lower(p)
  }

  /** `s.Contains(sub)` with ordinal comparison. */
  predicate Contains(s: string, sub: string)
    decreases |s|
  {
    StartsWith(s, sub) || (|s| > 0 && Contains(s[1..], sub))
  }

  /** `Contains` finds exactly the occurrences of `sub` at some offset of `s`. */
  lemma {:induction false} ContainsAt(s: string, sub: string, i: nat)
    requires i + |sub| <= |s| && s[i..i + |sub|] == sub
    ensures Contains(s, sub)
    decreases i
  {
    if i == 0 {
      assert s[..|sub|] == s[0..0 + |sub|];
    } else {
      assert s[1..][i - 1..i - 1 + |sub|] == s[i..i + |sub|];
      ContainsAt(s[1..], sub, i - 1);
    }
  }

  /** Conversely, a containment always has a witness offset. */
  lemma {:induction false} ContainsWitness(s: string, sub: string) returns (i: nat)
    requires Contains(s, sub)
    ensures i + |sub| <= |s| && s[i..i + |sub|] == sub
    decreases |s|
  {
    if StartsWith(s, sub) {
      i := 0;
    } else {
      var j := ContainsWitness(s[1..], sub);
      assert s[1..][j..j + |sub|] == s[j + 1..j + 1 + |sub|];
      i := j + 1;
    }
  }
}

=== FILE: completion.dfy ===
/**
  The completion engine: a per-language store of completion lists that callers
  can extend, a registry of dynamic providers, the scanner that finds the word
  being typed, and the pipeline that merges, filters and orders candidates.

  The store keeps lists behind identifiers so that two languages can be bound
  to one list object, as "javascript" and "typescript" are.
 */
module Completion {
  import opened Common
  import opened Sorting

  /**
    The fields of a completion entry (`Label` is spelled `caption` and `Type`
    `kind`). The label may be null (`None`); for the other text fields ""
    stands for null.
   */
  datatype CompletionOption = CompletionOption(
    caption: Option<string>,
    kind: string,
    apply: string,
    detail: string,
    info: string,
    boost: Option<int>)

  /**
    The culture-dependent pieces: `char.IsLetterOrDigit` and the default string
    ordering `ThenBy(c => c.Label)` uses.
   */
  datatype Culture = Culture(isLetterOrDigit: char -> bool, labelLeq: (Option<string>, Option<string>) -> bool)

  /** Identifies a list object of the store. */
  type ListId = nat

  /** Identifies a registered provider delegate. */
  type ProviderHandle = nat

  /**
    `binding` maps each language key to the list object it uses, `lists` holds
    the list objects, and `next` is an identifier no list has yet.
   */
  datatype StoreState = StoreState(
    binding: map<string, ListId>,
    lists: map<ListId, seq<CompletionOption>>,
    providers: map<string, ProviderHandle>,
    next: ListId)

  predicate Valid(s: StoreState)
  {
    (forall l :: l in s.binding ==> s.binding[l] in s.lists) &&
    (forall id :: id in s.lists ==> id < s.next)
  }

  type Store = s: StoreState | Valid(s) witness StoreState(map[], map[], map[], 0)

  /** The languages `a` and `b` are bound to the same list object. */
  predicate Shares(s: Store, a: string, b: string)
  {
    a in s.binding && b in s.binding && s.binding[a] == s.binding[b]
  }

  /** The static list for the exact (case-sensitive) language key; empty when unbound. */
  function StaticList(s: Store, language: string): seq<CompletionOption>
  {
    if language in s.binding then s.lists[s.binding[language]] else []
  }

  /**
    The store after construction: the three built-in lists, with "javascript"
    and "typescript" bound to one list.
   */
  function Initial(js: seq<CompletionOption>, py: seq<CompletionOption>, cs: seq<CompletionOption>): (r: Store)
    ensures Shares(r, "javascript", "typescript")
    ensures !Shares(r, "javascript", "python") && !Shares(r, "javascript", "csharp")
    ensures !Shares(r, "python", "csharp")
    ensures StaticList(r, "javascript") == js && StaticList(r, "typescript") == js
    ensures StaticList(r, "python") == py && StaticList(r, "csharp") == cs
    ensures forall l :: l !in {"javascript", "typescript", "python", "csharp"} ==> StaticList(r, l) == []
    ensures r.providers == map[]
  {
    StoreState(
      map["javascript" := 0, "typescript" := 0, "python" := 1, "csharp" := 2],
      map[0 := js, 1 := py, 2 := cs],
      map[],
      3)
  }

  /**
    The list object a caller passes: one the store already holds (because the
    caller registered it before), or a new one with the given entries.
   */
  datatype CallerList = Registered(id: ListId) | Fresh(items: seq<CompletionOption>)

  /** A caller can only hand back list objects the store holds. */
  predicate Known(s: Store, l: CallerList)
  {
    l.Registered? ==> l.id in s.lists
  }

  /** The entries of the caller's list object. */
  function Items(s: Store, l: CallerList): seq<CompletionOption>
    requires Known(s, l)
  {
    match l
    case Registered(id) => s.lists[id]
    case Fresh(items) => items
  }

  /**
    `RegisterCompletions`: nothing for an empty language or a null list. For a
    bound language the entries are appended to its list object, and so show
    for every language sharing it. Otherwise the caller's list object itself
    becomes the language's list, shared with every language already bound to
    that object.
   */
  function RegisterCompletions(s: Store, language: string, completions: Option<CallerList>): (r: Store)
    requires completions.Some? ==> Known(s, completions.value)
    ensures language == "" || completions.None? ==> r == s
    ensures language != "" && completions.Some? && language in s.binding ==>
      StaticList(r, language) == StaticList(s, language) + Items(s, completions.value) &&
      forall l :: l != language ==>
        StaticList(r, l) == if Shares(s, l, language) then StaticList(s, l) + Items(s, completions.value) else StaticList(s, l)
    ensures language != "" && completions.Some? && language !in s.binding ==>
      StaticList(r, language) == Items(s, completions.value) &&
      forall l :: l != language ==> StaticList(r, l) == StaticList(s, l)
    ensures language != "" && completions.Some? && language !in s.binding ==>
      forall l :: l != language && l in s.binding ==>
        (Shares(r, l, language) <==> completions.value.Registered? && s.binding[l] == completions.value.id)
    ensures forall a, b :: Shares(s, a, b) ==> Shares(r, a, b)
    ensures r.providers == s.providers
  {
    if language == "" || completions.None? then s
    else if language in s.binding then
      var id := s.binding[language];
      s.(lists := s.lists[id := s.lists[id] + Items(s, completions.value)])
    else
      match completions.value
      case Registered(id) => s.(binding := s.binding[language := id])
      case Fresh(items) =>
        StoreState(
          s.binding[language := s.next],
          s.lists[s.next := items],
          s.providers,
          s.next + 1)
  }

  /**
    One list object registered for two languages stays one object: entries
    later registered for the first language show for the second.
   */
  lemma SharedCallerList(s: Store, xs: seq<CompletionOption>, ys: seq<CompletionOption>)
    requires "a" !in s.binding && "b" !in s.binding
    ensures var s1 := RegisterCompletions(s, "a", Some(Fresh(xs)));
      var s2 := RegisterCompletions(s1, "b", Some(Registered(s1.binding["a"])));
      var s3 := RegisterCompletions(s2, "a", Some(Fresh(ys)));
      Shares(s2, "a", "b") && StaticList(s3, "b") == xs + ys
  {
    var s1 := RegisterCompletions(s, "a", Some(Fresh(xs)));
    assert "a" in s1.binding;
    var s2 := RegisterCompletions(s1, "b", Some(Registered(s1.binding["a"])));
    assert Shares(s2, "b", "a");
  }

  /** `RegisterCompletionProvider`: nothing for an empty language or a null delegate; otherwise insert or replace. */
  function RegisterCompletionProvider(s: Store, language: string, provider: Option<ProviderHandle>): (r: Store)
    ensures language == "" || provider.None? ==> r == s
    ensures language != "" && provider.Some? ==>
      language in r.providers && r.providers[language] == provider.value
    ensures forall l :: l != language ==> (l in r.providers <==> l in s.providers)
    ensures forall l :: l != language && l in s.providers ==> r.providers[l] == s.providers[l]
    ensures forall l :: StaticList(r, l) == StaticList(s, l)
  {
    if language == "" || provider.None? then s
    else s.(providers := s.providers[language := provider.value])
  }

  /** Registering for JavaScript shows the entries for TypeScript too (and the other way round). */
  lemma JavaScriptTypeScriptAliasing(js: seq<CompletionOption>, py: seq<CompletionOption>, cs: seq<CompletionOption>,
                                     xs: seq<CompletionOption>)
    ensures StaticList(RegisterCompletions(Initial(js, py, cs), "javascript", Some(Fresh(xs))), "typescript") == js + xs
    ensures StaticList(RegisterCompletions(Initial(js, py, cs), "typescript", Some(Fresh(xs))), "javascript") == js + xs
    ensures StaticList(RegisterCompletions(Initial(js, py, cs), "javascript", Some(Fresh(xs))), "python") == py
  {
    var s := Initial(js, py, cs);
    assert Shares(s, "typescript", "javascript");
    assert !Shares(s, "python", "javascript");
  }

  /* ---------- The word before the caret ---------- */

  /** The characters a completion prefix may contain. */
  predicate WordChar(c: Culture, ch: char)
  {
    c.isLetterOrDigit(ch) || ch == '_' || ch == '.'
  }

  /** `p` is the longest run of word characters ending at `position` in `text`. */
  predicate IsWordBefore(c: Culture, text: string, position: nat, p: string)
    requires position <= |text|
  {
    |p| <= position && text[position - |p|..position] == p &&
    (forall i :: 0 <= i < |p| ==> WordChar(c, p[i])) &&
    (|p| == position || !WordChar(c, text[position - |p| - 1]))
  }

  /** Where the backward scan from `k` stops. */
  function ScanStart(c: Culture, text: string, k: nat): (start: nat)
    requires k <= |text|
    ensures start <= k
    ensures forall i :: start <= i < k ==> WordChar(c, text[i])
    ensures start == 0 || !WordChar(c, text[start - 1])
    decreases k
  {
    if k == 0 then 0
    else if WordChar(c, text[k - 1]) then ScanStart(c, text, k - 1)
    else k
  }

  /**
    `GetPrefixAtPosition`: "" for an empty text or a position outside
    1..|text|; otherwise the word characters immediately before `position`.
   */
  function GetPrefixAtPosition(c: Culture, text: string, position: int): (r: string)
    ensures text == "" || position <= 0 || position > |text| ==> r == ""
    ensures 0 < position <= |text| ==> IsWordBefore(c, text, position, r)
  {
    if text == "" || position <= 0 || position > |text| then ""
    else text[ScanStart(c, text, position)..position]
  }

  /** The word before the caret is the only string with that description. */
  lemma WordBeforeUnique(c: Culture, text: string, position: nat, p: string, q: string)
    requires position <= |text|
    requires IsWordBefore(c, text, position, p) && IsWordBefore(c, text, position, q)
    ensures p == q
  {
    WordBeforeLongest(c, text, position, p, q);
    WordBeforeLongest(c, text, position, q, p);
  }

  /** No word before the caret is longer than another: the character before the shorter one is not a word character. */
  lemma WordBeforeLongest(c: Culture, text: string, position: nat, p: string, q: string)
    requires position <= |text|
    requires IsWordBefore(c, text, position, p) && IsWordBefore(c, text, position, q)
    ensures |q| <= |p|
  {
    WordCharsBefore(c, text, position, q);
  }

  /** Every character the word before the caret covers is a word character of the text. */
  lemma WordCharsBefore(c: Culture, text: string, position: nat, q: string)
    requires position <= |text| && IsWordBefore(c, text, position, q)
    ensures forall j :: position - |q| <= j < position ==> WordChar(c, text[j])
  {
    forall j | position - |q| <= j < position
      ensures WordChar(c, text[j])
    {
      assert text[j] == q[j - (position - |q|)];
    }
  }

  /* ---------- Filtering and ordering ---------- */

  /** The entry has a label, and it starts with `prefix` ignoring case. */
  predicate Matches(o: CompletionOption, prefix: string)
  {
    o.caption.Some? && StartsWithIgnoreCase(o.caption.value, prefix)
  }

  /** No entry has a null label. */
  predicate Labelled(cs: seq<CompletionOption>)
  {
    forall i :: 0 <= i < |cs| ==> cs[i].caption.Some?
  }

  /**
    The `Where` step: the entries whose label starts with `prefix`, ignoring
    case, in order. The source reads every label, so it is applied only to
    lists without a null label.
   */
  function KeepPrefixed(cs: seq<CompletionOption>, prefix: string): (r: seq<CompletionOption>)
    ensures forall i :: 0 <= i < |r| ==> Matches(r[i], prefix)
    ensures forall o :: multiset(r)[o] == if Matches(o, prefix) then multiset(cs)[o] else 0
    decreases |cs|
  {
    if |cs| == 0 then []
    else
      assert cs == [cs[0]] + cs[1..];
      (if Matches(cs[0], prefix) then [cs[0]] else []) + KeepPrefixed(cs[1..], prefix)
  }

  /** When every entry matches, filtering keeps the list as it is. */
  lemma {:induction false} KeepPrefixedAll(cs: seq<CompletionOption>, prefix: string)
    requires forall i :: 0 <= i < |cs| ==> Matches(cs[i], prefix)
    ensures KeepPrefixed(cs, prefix) == cs
    decreases |cs|
  {
    if |cs| > 0 {
      var rest := cs[1..];
      forall i | 0 <= i < |rest|
        ensures Matches(rest[i], prefix)
      {
        assert rest[i] == cs[i + 1];
      }
      KeepPrefixedAll(rest, prefix);
      var head := if Matches(cs[0], prefix) then [cs[0]] else [];
      assert head == [cs[0]];
      assert KeepPrefixed(cs, prefix) == head + KeepPrefixed(rest, prefix);
      assert cs == [cs[0]] + rest;
    }
  }

  /** `OrderBy(c => c.Boost ?? 0).ThenBy(c => c.Label)` as one comparison. */
  predicate RelevanceLeq(c: Culture, a: CompletionOption, b: CompletionOption)
  {
    a.boost.GetOr(0) < b.boost.GetOr(0) ||
    (a.boost.GetOr(0) == b.boost.GetOr(0) && c.labelLeq(a.caption, b.caption))
  }

  function RelevanceOrder(c: Culture): (CompletionOption, CompletionOption) -> bool
  {
    (a, b) => RelevanceLeq(c, a, b)
  }

  /** The combined order is a total preorder whenever the label order is. */
  lemma RelevanceTotalPreorder(c: Culture)
    requires TotalPreorder(c.labelLeq)
    ensures TotalPreorder(RelevanceOrder(c))
  {
    var leq := RelevanceOrder(c);
    forall a, b, d | leq(a, b) && leq(b, d)
      ensures leq(a, d)
    {
      if a.boost.GetOr(0) == b.boost.GetOr(0) == d.boost.GetOr(0) {
        assert c.labelLeq(a.caption, b.caption) && c.labelLeq(b.caption, d.caption);
      }
    }
    forall a, b
      ensures leq(a, b) || leq(b, a)
    {
      assert c.labelLeq(a.caption, b.caption) || c.labelLeq(b.caption, a.caption);
    }
  }

  /** Provider results are computed by `invoke`; None stands for a null list. */
  type Invoke = (ProviderHandle, string, int) -> Option<seq<CompletionOption>>

  /** The static list for the language followed by the provider's non-null result. */
  function Candidates(s: Store, invoke: Invoke, language: string, context: string, position: int): (r: seq<CompletionOption>)
    ensures language !in s.providers ==> r == StaticList(s, language)
    ensures language in s.providers ==>
      r == StaticList(s, language) + invoke(s.providers[language], context, position).GetOr([])
  {
    StaticList(s, language) +
      (if language in s.providers then invoke(s.providers[language], context, position).GetOr([]) else [])
  }

  /** The prefix `GetCompletions` filters by; "" means no filtering. */
  function FilterPrefix(c: Culture, context: string, position: int): string
  {
    if context == "" then "" else GetPrefixAtPosition(c, context, position)
  }

  /**
    `GetCompletions`: merge, filter by the word before the caret, order by
    relevance. `None` stands for the exception the filter throws on an entry
    with a null label; without a prefix no label is read.
   */
  function GetCompletions(s: Store, c: Culture, invoke: Invoke, language: string, context: string, position: int)
    : (r: Option<seq<CompletionOption>>)
    ensures var prefix := FilterPrefix(c, context, position);
      r.None? <==> prefix != "" && !Labelled(Candidates(s, invoke, language, context, position))
    ensures var prefix := FilterPrefix(c, context, position);
      r.Some? ==>
        forall o :: multiset(r.value)[o] ==
          if prefix == "" || Matches(o, prefix) then multiset(Candidates(s, invoke, language, context, position))[o] else 0
    ensures r.Some? && TotalPreorder(c.labelLeq) ==> Sorted(r.value, RelevanceOrder(c))
  {
    var candidates := Candidates(s, invoke, language, context, position);
    var prefix := FilterPrefix(c, context, position);
    if prefix != "" && !Labelled(candidates) then None
    else
      var kept := if prefix != "" then KeepPrefixed(candidates, prefix) else candidates;
      RelevanceSortFacts(c, kept);
      Some(Sort(kept, RelevanceOrder(c)))
  }

  /** Ordering by relevance rearranges the entries, and orders them when the label order is a total preorder. */
  lemma RelevanceSortFacts(c: Culture, s: seq<CompletionOption>)
    ensures multiset(Sort(s, RelevanceOrder(c))) == multiset(s)
    ensures TotalPreorder(c.labelLeq) ==> Sorted(Sort(s, RelevanceOrder(c)), RelevanceOrder(c))
  {
    SortPermutes(s, RelevanceOrder(c));
    if TotalPreorder(c.labelLeq) {
      RelevanceTotalPreorder(c);
      SortSorted(s, RelevanceOrder(c));
    }
  }

  /**
    Entries of equal relevance (same boost, labels the culture cannot tell
    apart) appear in candidate order: the ordering is stable.
   */
  lemma GetCompletionsStable(s: Store, c: Culture, invoke: Invoke, language: string, context: string, position: int,
                             k: CompletionOption)
    requires TotalPreorder(c.labelLeq)
    ensures var candidates := Candidates(s, invoke, language, context, position);
      var prefix := FilterPrefix(c, context, position);
      var r := GetCompletions(s, c, invoke, language, context, position);
      r.Some? ==>
        Class(r.value, RelevanceOrder(c), k) ==
          Class(if prefix != "" then KeepPrefixed(candidates, prefix) else candidates, RelevanceOrder(c), k)
  {
    RelevanceTotalPreorder(c);
    var candidates := Candidates(s, invoke, language, context, position);
    var prefix := FilterPrefix(c, context, position);
    SortStable(if prefix != "" then KeepPrefixed(candidates, prefix) else candidates, RelevanceOrder(c), k);
  }

  /** Without a context nothing is filtered: every candidate is returned. */
  lemma NoContextNoFilter(s: Store, c: Culture, invoke: Invoke, language: string, position: int)
    ensures GetCompletions(s, c, invoke, language, "", position).Some?
    ensures multiset(GetCompletions(s, c, invoke, language, "", position).value) ==
      multiset(Candidates(s, invoke, language, "", position))
  {
  }

  /** A language with neither a list nor a provider has no completions. */
  lemma UnknownLanguageNoCompletions(s: Store, c: Culture, invoke: Invoke, language: string, context: string,
                                     position: int)
    requires language !in s.binding && language !in s.providers
    ensures GetCompletions(s, c, invoke, language, context, position) == Some([])
  {
  }

  /* ---------- Snippets ---------- */

  function Snippet(caption: string, detail: string, apply: string): CompletionOption
  {
    CompletionOption(Some(caption), "snippet", apply, detail, "", None)
  }

  /** Every entry is a snippet without a boost. */
  predicate SnippetShaped(s: seq<CompletionOption>)
  {
    forall i :: 0 <= i < |s| ==> s[i].kind == "snippet" && s[i].boost == None
  }

  const JavaScriptSnippets: seq<CompletionOption> := [
      Snippet("log", "Console log", "console.log($0);"),
      Snippet("func", "Function", "function $1($2) {\n  $0\n}"),
      Snippet("arrow", "Arrow function", "($1) => {\n  $0\n}"),
      Snippet("promise", "Promise", "new Promise((resolve, reject) => {\n  $0\n});"),
      Snippet("fetch", "Fetch request", "fetch('$1')\n  .then(response => response.json())\n  .then(data => {\n    $0\n  });"),
      Snippet("timeout", "setTimeout", "setTimeout(() => {\n  $0\n}, $1);"),
      Snippet("interval", "setInterval", "setInterval(() => {\n  $0\n}, $1);"),
      Snippet("map", "Array map", "$1.map(($2) => {\n  return $0;\n});"),
      Snippet("filter", "Array filter", "$1.filter(($2) => {\n  return $0;\n});"),
      Snippet("reduce", "Array reduce", "$1.reduce(($2, $3) => {\n  return $0;\n}, $4);")
    ]

  const PythonSnippets: seq<CompletionOption> := [
      Snippet("main", "Main block", "if __name__ == '__main__':\n    $0"),
      Snippet("init", "Constructor", "def __init__(self$1):\n    $0"),
      Snippet("prop", "Property", "@property\ndef $1(self):\n    return self._$1"),
      Snippet("deco", "Decorator", "def $1(func):\n    def wrapper(*args, **kwargs):\n        $0\n        return func(*args, **kwargs)\n    return wrapper"),
      Snippet("comp", "List comprehension", "[$2 for $1 in $3 if $0]"),
      Snippet("gen", "Generator", "def $1():\n    for $2 in $3:\n        yield $0"),
      Snippet("context", "Context manager", "class $1:\n    def __enter__(self):\n        $0\n        return self\n    def __exit__(self, exc_type, exc_val, exc_tb):\n        pass"),
      Snippet("dataclass", "Data class", "@dataclass\nclass $1:\n    $0: $2")
    ]

  const CSharpSnippets: seq<CompletionOption> := [
      Snippet("prop", "Property", "public $1 $2 { get; set; }"),
      Snippet("propfull", "Full property", "private $1 _$2;\npublic $1 $2\n{\n    get { return _$2; }\n    set { _$2 = value; }\n}"),
      Snippet("ctor", "Constructor", "public $1()\n{\n    $0\n}"),
      Snippet("method", "Method", "public $1 $2($3)\n{\n    $0\n}"),
      Snippet("asyncmethod", "Async method", "public async Task<$1> $2Async($3)\n{\n    $0\n}"),
      Snippet("region", "Region", "#region $1\n$0\n#endregion"),
      Snippet("test", "Test method", "[Test]\npublic void $1_Should$2_When$3()\n{\n    // Arrange\n    $0\n    // Act\n    \n    // Assert\n}"),
      Snippet("singleton", "Singleton pattern", "public class $1\n{\n    private static $1 _instance;\n    private $1() { }\n    public static $1 Instance => _instance ??= new $1();\n    $0\n}")
    ]

  const HtmlSnippets: seq<CompletionOption> := [
      Snippet("html5", "HTML5 template", "<!DOCTYPE html>\n<html lang=\"en\">\n<head>\n    <meta charset=\"UTF-8\">\n    <meta name=\"viewport\" content=\"width=device-width, initial-scale=1.0\">\n    <title>$1</title>\n</head>\n<body>\n    $0\n</body>\n</html>"),
      Snippet("div", "Div element", "<div class=\"$1\">\n    $0\n</div>"),
      Snippet("link", "Link tag", "<link rel=\"stylesheet\" href=\"$0\">"),
      Snippet("script", "Script tag", "<script src=\"$1\"></script>"),
      Snippet("form", "Form element", "<form action=\"$1\" method=\"$2\">\n    $0\n</form>"),
      Snippet("input", "Input element", "<input type=\"$1\" name=\"$2\" id=\"$3\" value=\"$0\">")
    ]

  lemma JavaScriptSnippetsShaped()
    ensures JavaScriptSnippets != [] && SnippetShaped(JavaScriptSnippets)
  {
  }

  lemma PythonSnippetsShaped()
    ensures PythonSnippets != [] && SnippetShaped(PythonSnippets)
  {
  }

  lemma CSharpSnippetsShaped()
    ensures CSharpSnippets != [] && SnippetShaped(CSharpSnippets)
  {
  }

  lemma HtmlSnippetsShaped()
    ensures HtmlSnippets != [] && SnippetShaped(HtmlSnippets)
  {
  }

  /** No two of the language names the snippet switch tests are equal. */
  lemma SnippetLanguagesDistinct()
    ensures "javascript" != "python" && "javascript" != "csharp" && "javascript" != "html"
    ensures "typescript" != "python" && "typescript" != "csharp" && "typescript" != "html"
    ensures "python" != "csharp" && "python" != "html" && "csharp" != "html"
  {
    assert |"javascript"| == |"typescript"| == 10 && |"python"| == |"csharp"| == 6 && |"html"| == 4;
    assert "python"[0] != "csharp"[0];
  }

  /** The lower-cased language names that have snippets. */
  predicate HasSnippets(lower: string)
  {
    lower in {"javascript", "typescript", "python", "csharp", "html"}
  }

  /** The switch inside `GetSnippets`, on an already lower-cased name. */
  function SnippetsFor(lower: string): (r: seq<CompletionOption>)
    ensures r != [] <==> HasSnippets(lower)
    ensures SnippetShaped(r)
    ensures lower == "javascript" || lower == "typescript" ==> r == JavaScriptSnippets
    ensures lower == "python" ==> r == PythonSnippets
    ensures lower == "csharp" ==> r == CSharpSnippets
    ensures lower == "html" ==> r == HtmlSnippets
  {
    JavaScriptSnippetsShaped();
    PythonSnippetsShaped();
    CSharpSnippetsShaped();
    HtmlSnippetsShaped();
    SnippetLanguagesDistinct();
    if lower == "javascript" || lower == "typescript" then JavaScriptSnippets
    else if lower == "python" then PythonSnippets
    else if lower == "csharp" then CSharpSnippets
    else if lower == "html" then HtmlSnippets
    else []
  }

  /** `GetSnippets`: switch on the lower-cased language; null and unknown give an empty list. */
  function GetSnippets(language: Option<string>): (r: seq<CompletionOption>)
    ensures r != [] <==> language.Some? && HasSnippets(Lower(language.value))
    ensures language.Some? ==> r == SnippetsFor(Lower(language.value))
    ensures forall i :: 0 <= i < |r| ==> r[i].kind == "snippet" && r[i].boost == None
  {
    match language
    case None => []
    case Some(l) => SnippetsFor(Lower(l))
  }

  /** Snippets depend on the language only up to letter case. */
  lemma SnippetsIgnoreCase(a: string, b: string)
    requires Lower(a) == Lower(b)
    ensures GetSnippets(Some(a)) == GetSnippets(Some(b))
  {
  }

  /** TypeScript gets the JavaScript snippets. */
  lemma TypeScriptSnippetsAreJavaScript(a: string, b: string)
    requires Lower(a) == "javascript" && Lower(b) == "typescript"
    ensures GetSnippets(Some(a)) == GetSnippets(Some(b)) == JavaScriptSnippets
  {
  }
}

=== FILE: editor.dfy ===
/**
  The full editor control: the view plus options, decorations, commands and
  the bookkeeping collections. Every page-facing operation is guarded by the
  view's `initialized` flag and returns its default without effect before it.
 */
module Editor {
  import opened Common
  import opened Bridge
  import Numbers
  import View

  /**
    The editor's private state. Key bindings, extensions, panels and tooltips
    are only ever cleared by the control, never filled.
   */
  datatype EditorState = EditorState(
    view: View.ViewState,
    options: EditorOptions,
    decorations: seq<Decoration>,
    commands: map<string, Command>,
    keyBindings: map<string, KeyBinding>,
    extensions: map<string, Extension>,
    panels: seq<Panel>,
    tooltips: seq<Tooltip>)

  /** `new CodeMirrorOptions()` in its JSON form. */
  const DefaultOptions := EditorOptions("{}")

  /** The constructor: the given options, or the defaults for null. */
  function NewEditor(options: Option<EditorOptions>): (e: EditorState)
    ensures e.options == options.GetOr(DefaultOptions)
    ensures !e.view.initialized && e.view.sent == []
    ensures Clean(e) && e.decorations == [] && e.commands == map[]
  {
    EditorState(View.NewView(), options.GetOr(DefaultOptions), [], map[], map[], map[], [], [])
  }

  /** The collections no operation fills are empty. */
  predicate Clean(e: EditorState)
  {
    e.keyBindings == map[] && e.extensions == map[] && e.panels == [] && e.tooltips == []
  }

  predicate Ready(e: EditorState)
  {
    e.view.initialized
  }

  /** Evaluates one script. */
  function Send(e: EditorState, s: Script): EditorState
  {
    e.(view := View.Send(e.view, s))
  }

  /**
    `r` is `e` with the scripts appended to the page history and nothing
    else changed: not the view's code, caches or flags, not the options, the
    decorations or the commands.
   */
  predicate Forwarded(e: EditorState, r: EditorState, scripts: seq<Script>)
  {
    r == e.(view := e.view.(sent := e.view.sent + scripts))
  }

  /** The number the next script will have. */
  function Next(e: EditorState): nat
  {
    |e.view.sent|
  }

  /* ---------- Options ---------- */

  /** `UpdateOptions`: pushes the options to the page when initialised. */
  function UpdateOptions(e: EditorState, o: EditorOptions): (r: EditorState)
    ensures !Ready(e) ==> r == e
    ensures Ready(e) ==> Forwarded(e, r, [Script.UpdateOptions(o)])
    ensures r.options == e.options
  {
    if Ready(e) then Send(e, Script.UpdateOptions(o)) else e
  }

  /** The `Options` setter: always stores, and pushes only when initialised. */
  function SetOptions(e: EditorState, o: EditorOptions): (r: EditorState)
    ensures r.options == o
    ensures !Ready(e) ==> r == e.(options := o)
    ensures Ready(e) ==> Forwarded(e.(options := o), r, [Script.UpdateOptions(o)])
    ensures r.decorations == e.decorations && r.commands == e.commands
  {
    UpdateOptions(e.(options := o), o)
  }

  /** Options set before initialisation are stored but never sent. */
  lemma OptionsBeforeInitStayLocal(e: EditorState, o1: EditorOptions, o2: EditorOptions)
    requires !Ready(e)
    ensures SetOptions(SetOptions(e, o1), o2) == e.(options := o2)
  {
  }

  /* ---------- Value ---------- */

  /** `GetValue`, delegating to the view. */
  function GetValue(e: EditorState, b: Oracle): (r: (EditorState, string))
    ensures !Ready(e) ==> r == (e, e.view.code)
    ensures Ready(e) ==> r.1 == b.reply(Next(e)).GetOr("") && Forwarded(e, r.0, [Script.GetEditorValue])
  {
    var (v, s) := View.GetEditorValue(e.view, b);
    (e.(view := v), s)
  }

  /** `SetValue`, delegating to `SetValueSafely` (whose result it discards). */
  function SetValue(e: EditorState, value: string, b: Oracle): (r: EditorState)
    ensures |r.view.sent| > Next(e) && r.view.sent[..Next(e)] == e.view.sent
    ensures r.view.sent[Next(e)] == Script.SetEditorValue(b.clean(value))
    ensures r.decorations == e.decorations && r.commands == e.commands && r.options == e.options
    ensures Ready(r) == Ready(e)
  {
    var r := e.(view := View.SetValueSafely(e.view, value, b).0);
    assert r.view.sent[..Next(e)] == e.view.sent;
    r
  }

  /* ---------- Line count and navigation ---------- */

  /** `GetLineCount`: the page's number when it parses as a 32-bit integer, else 0. */
  function GetLineCount(e: EditorState, b: Oracle): (r: (EditorState, int))
    ensures !Ready(e) ==> r == (e, 0)
    ensures Ready(e) ==> r.0 == Send(e, Script.GetLineCount)
    ensures Numbers.IsInt32(r.1)
    ensures Ready(e) && Numbers.ParseInt32(b.reply(Next(e))).None? ==> r.1 == 0
    ensures Ready(e) && Numbers.ParseInt32(b.reply(Next(e))).Some? ==> r.1 == Numbers.ParseInt32(b.reply(Next(e))).value
  {
    if !Ready(e) then (e, 0)
    else (Send(e, Script.GetLineCount), Numbers.ParseInt32(b.reply(Next(e))).GetOr(0))
  }

  /** A page answering with the printed form of a line count has that count read back. */
  lemma LineCountRoundTrip(e: EditorState, b: Oracle, n: int)
    requires Ready(e) && Numbers.IsInt32(n) && b.reply(Next(e)) == Some(Numbers.Show(n))
    ensures GetLineCount(e, b).1 == n
  {
    Numbers.ParseShow(n);
  }

  /** A null reply, or one without a single digit, counts as zero lines. */
  lemma LineCountDefaults(e: EditorState, b: Oracle)
    requires Ready(e)
    requires b.reply(Next(e)).None? || forall i :: 0 <= i < |b.reply(Next(e)).value| ==> !Numbers.IsDigit(b.reply(Next(e)).value[i])
    ensures GetLineCount(e, b).1 == 0
  {
    if b.reply(Next(e)).Some? {
      Numbers.NoDigitsNoNumber(b.reply(Next(e)).value);
    }
  }

  /** `SetCursorPosition`: moves the page's cursor, once initialised. */
  function SetCursorPosition(e: EditorState, line: int, column: int): (r: EditorState)
    ensures !Ready(e) ==> r == e
    ensures Ready(e) ==> Forwarded(e, r, [SetCursor(line, column)])
  {
    if Ready(e) then Send(e, SetCursor(line, column)) else e
  }

  /** `ScrollToLine`: scrolls the line into view, once initialised. */
  function ScrollToLine(e: EditorState, line: int): (r: EditorState)
    ensures !Ready(e) ==> r == e
    ensures Ready(e) ==> Forwarded(e, r, [Script.ScrollToLine(line)])
  {
    if Ready(e) then Send(e, Script.ScrollToLine(line)) else e
  }

  /** `GotoLine`: the cursor to column 0 of the line, then the line scrolled into view. */
  function GotoLine(e: EditorState, line: int): (r: EditorState)
    ensures !Ready(e) ==> r == e
    ensures Ready(e) ==> Forwarded(e, r, [SetCursor(line, 0), Script.ScrollToLine(line)])
  {
    ScrollToLine(SetCursorPosition(e, line, 0), line)
  }

  /** One `GotoLine` call has the effect of the two calls it awaits, in either state. */
  lemma GotoLineIsCursorThenScroll(e: EditorState, line: int, b: Oracle)
    ensures Run(e, [CallGotoLine(line)], b) == Run(e, [CallSetCursorPosition(line, 0), CallScrollToLine(line)], b)
  {
    var moved := Step(e, CallSetCursorPosition(line, 0), b);
    assert moved == SetCursorPosition(e, line, 0);
    assert Step(moved, CallScrollToLine(line), b) == ScrollToLine(moved, line);
    assert Step(e, CallGotoLine(line), b) == GotoLine(e, line);
    assert [CallSetCursorPosition(line, 0), CallScrollToLine(line)][1..] == [CallScrollToLine(line)];
    assert Run(e, [CallSetCursorPosition(line, 0), CallScrollToLine(line)], b) == Run(moved, [CallScrollToLine(line)], b);
    assert Run(moved, [CallScrollToLine(line)], b) == Run(ScrollToLine(moved, line), [], b);
    assert Run(e, [CallGotoLine(line)], b) == Run(GotoLine(e, line), [], b);
  }

  /* ---------- Decorations ---------- */

  /**
    `AddDecorations`: nothing before initialisation. Otherwise a null reply
    yields no ids; a reply that decodes yields its ids and records the
    decorations; one that does not decode raises (None) before recording.
   */
  function AddDecorations(e: EditorState, ds: seq<Decoration>, b: Oracle): (r: (EditorState, Option<seq<string>>))
    ensures !Ready(e) ==> r == (e, Some([]))
    ensures Ready(e) ==> Forwarded(e, r.0.(decorations := e.decorations), [Script.AddDecorations(ds)])
    ensures Ready(e) && b.reply(Next(e)).None? ==> r.1 == Some([])
    ensures Ready(e) && b.reply(Next(e)).Some? && b.decodeIds(b.reply(Next(e)).value).Some? ==>
      r.1 == b.decodeIds(b.reply(Next(e)).value)
    ensures r.0.decorations == e.decorations || r.0.decorations == e.decorations + ds
    ensures r.0.decorations == e.decorations + ds <==>
      (ds == [] || (Ready(e) && b.reply(Next(e)).Some? && b.decodeIds(b.reply(Next(e)).value).Some?))
    ensures r.1.None? <==> Ready(e) && b.reply(Next(e)).Some? && b.decodeIds(b.reply(Next(e)).value).None?
    ensures r.0.commands == e.commands && r.0.options == e.options
  {
    if !Ready(e) then (e, Some([]))
    else
      var e1 := Send(e, Script.AddDecorations(ds));
      match b.reply(Next(e))
      case None => (e1, Some([]))
      case Some(text) =>
        match b.decodeIds(text)
        case None => (e1, None)
        case Some(ids) => (e1.(decorations := e.decorations + ds), Some(ids))
  }

  /** `RemoveDecorations`: the page drops the ids; the local list is left as it is. */
  function RemoveDecorations(e: EditorState, ids: seq<string>): (r: EditorState)
    ensures r.decorations == e.decorations
    ensures !Ready(e) ==> r == e
    ensures Ready(e) ==> Forwarded(e, r, [Script.RemoveDecorations(ids)])
  {
    if Ready(e) then Send(e, Script.RemoveDecorations(ids)) else e
  }

  /** `ClearDecorations`: the page and the local list are both cleared, once initialised. */
  function ClearDecorations(e: EditorState): (r: EditorState)
    ensures !Ready(e) ==> r == e
    ensures Ready(e) ==> r.decorations == [] && Forwarded(e.(decorations := []), r, [Script.ClearDecorations])
    ensures r.commands == e.commands && r.options == e.options
  {
    if Ready(e) then Send(e, Script.ClearDecorations).(decorations := []) else e
  }

  /** Decorations added after a clear are exactly the ones recorded. */
  lemma ClearThenAdd(e: EditorState, ds: seq<Decoration>, b: Oracle)
    requires Ready(e)
    requires b.reply(Next(e) + 1).Some? && b.decodeIds(b.reply(Next(e) + 1).value).Some?
    ensures AddDecorations(ClearDecorations(e), ds, b).0.decorations == ds
  {
  }

  /* ---------- Commands ---------- */

  /** `RegisterCommand`: records the command under its name, replacing any earlier one. */
  function RegisterCommand(e: EditorState, c: Command): (r: EditorState)
    ensures !Ready(e) ==> r == e
    ensures Ready(e) ==> r.commands.Keys == e.commands.Keys + {c.name} && r.commands[c.name] == c
    ensures Ready(e) ==> forall n :: n in e.commands && n != c.name ==> r.commands[n] == e.commands[n]
    ensures Ready(e) ==> Forwarded(e.(commands := r.commands), r, [Script.RegisterCommand(c)])
    ensures r.decorations == e.decorations
  {
    if Ready(e) then Send(e.(commands := e.commands[c.name := c]), Script.RegisterCommand(c)) else e
  }

  /** Registering under the same name twice keeps only the later command. */
  lemma RegisterCommandReplaces(e: EditorState, c1: Command, c2: Command)
    requires Ready(e) && c1.name == c2.name
    ensures RegisterCommand(RegisterCommand(e, c1), c2).commands == RegisterCommand(e, c2).commands
  {
  }

  /** `ExecuteCommand`: true exactly when the page answers "true". */
  function ExecuteCommand(e: EditorState, name: string, b: Oracle): (r: (EditorState, bool))
    ensures r.1 <==> Ready(e) && IsTrue(b.reply(Next(e)))
    ensures !Ready(e) ==> r.0 == e
    ensures Ready(e) ==> r.0 == Send(e, Script.ExecuteCommand(name))
  {
    if !Ready(e) then (e, false)
    else (Send(e, Script.ExecuteCommand(name)), IsTrue(b.reply(Next(e))))
  }

  /** `Undo`: the built-in "undo" command, once initialised; the page's answer is dropped. */
  function Undo(e: EditorState, b: Oracle): (r: EditorState)
    ensures !Ready(e) ==> r == e
    ensures Ready(e) ==> Forwarded(e, r, [Script.ExecuteCommand("undo")])
  {
    ExecuteCommand(e, "undo", b).0
  }

  /** `Redo`: the built-in "redo" command, once initialised; the page's answer is dropped. */
  function Redo(e: EditorState, b: Oracle): (r: EditorState)
    ensures !Ready(e) ==> r == e
    ensures Ready(e) ==> Forwarded(e, r, [Script.ExecuteCommand("redo")])
  {
    ExecuteCommand(e, "redo", b).0
  }

  /** `Format`: the built-in "format" command, once initialised; the page's answer is dropped. */
  function Format(e: EditorState, b: Oracle): (r: EditorState)
    ensures !Ready(e) ==> r == e
    ensures Ready(e) ==> Forwarded(e, r, [Script.ExecuteCommand("format")])
  {
    ExecuteCommand(e, "format", b).0
  }

  /** `ToggleComment`: the built-in "toggleComment" command, once initialised; the page's answer is dropped. */
  function ToggleComment(e: EditorState, b: Oracle): (r: EditorState)
    ensures !Ready(e) ==> r == e
    ensures Ready(e) ==> Forwarded(e, r, [Script.ExecuteCommand("toggleComment")])
  {
    ExecuteCommand(e, "toggleComment", b).0
  }

  /** Each editing shortcut is, as a call, the general command call with its built-in name. */
  lemma ShortcutsAreNamedCommands(e: EditorState, b: Oracle)
    ensures Step(e, CallUndo, b) == Step(e, CallExecuteCommand("undo"), b)
    ensures Step(e, CallRedo, b) == Step(e, CallExecuteCommand("redo"), b)
    ensures Step(e, CallFormat, b) == Step(e, CallExecuteCommand("format"), b)
    ensures Step(e, CallToggleComment, b) == Step(e, CallExecuteCommand("toggleComment"), b)
  {
    UndoIsNamedCommand(e, b);
    RedoIsNamedCommand(e, b);
    FormatIsNamedCommand(e, b);
    ToggleCommentIsNamedCommand(e, b);
  }

  lemma UndoIsNamedCommand(e: EditorState, b: Oracle)
    ensures Step(e, CallUndo, b) == Step(e, CallExecuteCommand("undo"), b)
  {
  }

  lemma RedoIsNamedCommand(e: EditorState, b: Oracle)
    ensures Step(e, CallRedo, b) == Step(e, CallExecuteCommand("redo"), b)
  {
  }

  lemma FormatIsNamedCommand(e: EditorState, b: Oracle)
    ensures Step(e, CallFormat, b) == Step(e, CallExecuteCommand("format"), b)
  {
  }

  lemma ToggleCommentIsNamedCommand(e: EditorState, b: Oracle)
    ensures Step(e, CallToggleComment, b) == Step(e, CallExecuteCommand("toggleComment"), b)
  {
  }

  /** `HasFocus`: true exactly when the page answers "true". */
  function HasFocus(e: EditorState, b: Oracle): (r: (EditorState, bool))
    ensures r.1 <==> Ready(e) && IsTrue(b.reply(Next(e)))
    ensures !Ready(e) ==> r.0 == e
    ensures Ready(e) ==> Forwarded(e, r.0, [Script.HasFocus])
  {
    if !Ready(e) then (e, false)
    else (Send(e, Script.HasFocus), IsTrue(b.reply(Next(e))))
  }

  /* ---------- Destroy ---------- */

  /** `Destroy`: once initialised, tears the page editor down and empties every collection. */
  function Destroy(e: EditorState): (r: EditorState)
    ensures !Ready(e) ==> r == e
    ensures Ready(e) ==> r.decorations == [] && r.commands == map[] && Clean(r)
    ensures Ready(e) ==> Forwarded(e.(decorations := [], commands := map[], keyBindings := map[],
                                      extensions := map[], panels := [], tooltips := []), r, [DestroyEditor])
    ensures r.options == e.options
  {
    if !Ready(e) then e
    else
      Send(e, DestroyEditor).(decorations := [], commands := map[], keyBindings := map[],
                              extensions := map[], panels := [], tooltips := [])
  }

  /* ---------- All operations ---------- */

  /** One call on the control. */
  datatype Call =
    | CallSetOptions(options: EditorOptions)
    | CallUpdateOptions(options: EditorOptions)
    | CallGetValue
    | CallSetValue(value: string)
    | CallGetLineCount
    | CallSetCursorPosition(line: int, column: int)
    | CallScrollToLine(line: int)
    | CallGotoLine(line: int)
    | CallAddDecorations(decorations: seq<Decoration>)
    | CallRemoveDecorations(ids: seq<string>)
    | CallClearDecorations
    | CallRegisterCommand(command: Command)
    | CallExecuteCommand(name: string)
    | CallUndo
    | CallRedo
    | CallFormat
    | CallToggleComment
    | CallHasFocus
    | CallDestroy

  /** The state after one call (results dropped). */
  function Step(e: EditorState, c: Call, b: Oracle): EditorState
  {
    match c
    case CallSetOptions(o) => SetOptions(e, o)
    case CallUpdateOptions(o) => UpdateOptions(e, o)
    case CallGetValue => GetValue(e, b).0
    case CallSetValue(value) => SetValue(e, value, b)
    case CallGetLineCount => GetLineCount(e, b).0
    case CallSetCursorPosition(l, col) => SetCursorPosition(e, l, col)
    case CallScrollToLine(l) => ScrollToLine(e, l)
    case CallGotoLine(l) => GotoLine(e, l)
    case CallAddDecorations(ds) => AddDecorations(e, ds, b).0
    case CallRemoveDecorations(ids) => RemoveDecorations(e, ids)
    case CallClearDecorations => ClearDecorations(e)
    case CallRegisterCommand(cmd) => RegisterCommand(e, cmd)
    case CallExecuteCommand(n) => ExecuteCommand(e, n, b).0
    case CallUndo => Undo(e, b)
    case CallRedo => Redo(e, b)
    case CallFormat => Format(e, b)
    case CallToggleComment => ToggleComment(e, b)
    case CallHasFocus => HasFocus(e, b).0
    case CallDestroy => Destroy(e)
  }

  /** Only `SetValue` and `SetOptions` act before initialisation; every other call is a no-op. */
  lemma GuardedBeforeInit(e: EditorState, c: Call, b: Oracle)
    requires !Ready(e) && !c.CallSetValue? && !c.CallSetOptions?
    ensures Step(e, c, b) == e
  {
  }

  /** No call changes the initialised flag or un-sends a script. */
  lemma StepKeepsHistory(e: EditorState, c: Call, b: Oracle)
    ensures Ready(Step(e, c, b)) == Ready(e)
    ensures |Step(e, c, b).view.sent| >= Next(e) && Step(e, c, b).view.sent[..Next(e)] == e.view.sent
  {
    if c.CallSetOptions? || c.CallUpdateOptions? || c.CallGetValue? || c.CallSetValue? || c.CallGetLineCount? {
      StepKeepsHistoryOptions(e, c, b);
    } else if c.CallSetCursorPosition? || c.CallScrollToLine? || c.CallGotoLine? || c.CallAddDecorations? || c.CallRemoveDecorations? || c.CallClearDecorations? {
      StepKeepsHistoryNavigation(e, c, b);
    } else {
      StepKeepsHistoryCommands(e, c, b);
    }
  }

  lemma StepKeepsHistoryOptions(e: EditorState, c: Call, b: Oracle)
    requires c.CallSetOptions? || c.CallUpdateOptions? || c.CallGetValue? || c.CallSetValue? || c.CallGetLineCount?
    ensures Ready(Step(e, c, b)) == Ready(e)
    ensures |Step(e, c, b).view.sent| >= Next(e) && Step(e, c, b).view.sent[..Next(e)] == e.view.sent
  {
    var r := Step(e, c, b);
    assert r.view.sent[..Next(e)] == e.view.sent;
  }

  lemma StepKeepsHistoryNavigation(e: EditorState, c: Call, b: Oracle)
    requires c.CallSetCursorPosition? || c.CallScrollToLine? || c.CallGotoLine? || c.CallAddDecorations? || c.CallRemoveDecorations? || c.CallClearDecorations?
    ensures Ready(Step(e, c, b)) == Ready(e)
    ensures |Step(e, c, b).view.sent| >= Next(e) && Step(e, c, b).view.sent[..Next(e)] == e.view.sent
  {
    var r := Step(e, c, b);
    assert r.view.sent[..Next(e)] == e.view.sent;
  }

  lemma StepKeepsHistoryCommands(e: EditorState, c: Call, b: Oracle)
    requires c.CallRegisterCommand? || c.CallExecuteCommand? || c.CallUndo? || c.CallRedo? || c.CallFormat? || c.CallToggleComment? || c.CallHasFocus? || c.CallDestroy?
    ensures Ready(Step(e, c, b)) == Ready(e)
    ensures |Step(e, c, b).view.sent| >= Next(e) && Step(e, c, b).view.sent[..Next(e)] == e.view.sent
  {
    var r := Step(e, c, b);
    assert r.view.sent[..Next(e)] == e.view.sent;
  }

  /** Every call keeps the never-filled collections empty. */
  lemma StepKeepsClean(e: EditorState, c: Call, b: Oracle)
    requires Clean(e)
    ensures Clean(Step(e, c, b))
  {
    if c.CallSetOptions? || c.CallUpdateOptions? || c.CallGetValue? || c.CallSetValue? || c.CallGetLineCount? {
      StepKeepsCleanOptions(e, c, b);
    } else if c.CallSetCursorPosition? || c.CallScrollToLine? || c.CallGotoLine? || c.CallAddDecorations? || c.CallRemoveDecorations? || c.CallClearDecorations? {
      StepKeepsCleanNavigation(e, c, b);
    } else {
      StepKeepsCleanCommands(e, c, b);
    }
  }

  lemma StepKeepsCleanOptions(e: EditorState, c: Call, b: Oracle)
    requires Clean(e) && (c.CallSetOptions? || c.CallUpdateOptions? || c.CallGetValue? || c.CallSetValue? || c.CallGetLineCount?)
    ensures Clean(Step(e, c, b))
  {
  }

  lemma StepKeepsCleanNavigation(e: EditorState, c: Call, b: Oracle)
    requires Clean(e) && (c.CallSetCursorPosition? || c.CallScrollToLine? || c.CallGotoLine? || c.CallAddDecorations? || c.CallRemoveDecorations? || c.CallClearDecorations?)
    ensures Clean(Step(e, c, b))
  {
  }

  lemma StepKeepsCleanCommands(e: EditorState, c: Call, b: Oracle)
    requires Clean(e) && (c.CallRegisterCommand? || c.CallExecuteCommand? || c.CallUndo? || c.CallRedo? || c.CallFormat? || c.CallToggleComment? || c.CallHasFocus? || c.CallDestroy?)
    ensures Clean(Step(e, c, b))
  {
  }

  /** Runs a sequence of calls. */
  function Run(e: EditorState, cs: seq<Call>, b: Oracle): EditorState
    decreases |cs|
  {
    if |cs| == 0 then e else Run(Step(e, cs[0], b), cs[1..], b)
  }

  /** From construction on, key bindings, extensions, panels and tooltips stay empty. */
  lemma {:induction false} RunKeepsClean(e: EditorState, cs: seq<Call>, b: Oracle)
    requires Clean(e)
    ensures Clean(Run(e, cs, b))
    decreases |cs|
  {
    if |cs| > 0 {
      StepKeepsClean(e, cs[0], b);
      RunKeepsClean(Step(e, cs[0], b), cs[1..], b);
    }
  }

  /** Before initialisation no call but `SetValue` reaches the page. */
  lemma {:induction false} NothingSentBeforeInit(e: EditorState, cs: seq<Call>, b: Oracle)
    requires !Ready(e)
    requires forall i :: 0 <= i < |cs| ==> !cs[i].CallSetValue?
    ensures Run(e, cs, b).view.sent == e.view.sent
    decreases |cs|
  {
    if |cs| > 0 {
      NothingSentBeforeInit(Step(e, cs[0], b), cs[1..], b);
    }
  }
}

=== FILE: languages.dfy ===
/**
  The static language table and its lookups (`CodeMirrorLanguageService`):
  by id or alias, by file extension, by file name, feature support and the
  engine mode string.

  The table is a sequence of (key, description) pairs in declaration order,
  which is also the order in which the source's dictionary enumerates them.
 */
module Languages {
  import opened Common

  /** The part of `LanguageSupport` the lookups read. */
  datatype LanguageSupport = LanguageSupport(language: string, features: seq<string>)

  /** The part of `LanguageDescription` the lookups read. */
  datatype LanguageDescription = LanguageDescription(
    name: string,
    alias: seq<string>,
    extensions: seq<string>,
    support: LanguageSupport)

  type Entry = (string, LanguageDescription)

  const Table: seq<Entry> := [
    ("javascript", LanguageDescription("JavaScript", ["js", "jsx"], [".js", ".jsx", ".mjs"],
      LanguageSupport("javascript", ["autocomplete", "lint", "format"]))),
    ("typescript", LanguageDescription("TypeScript", ["ts", "tsx"], [".ts", ".tsx", ".d.ts"],
      LanguageSupport("typescript", ["autocomplete", "lint", "format", "types"]))),
    ("python", LanguageDescription("Python", ["py"], [".py", ".pyw"],
      LanguageSupport("python", ["autocomplete", "lint", "format"]))),
    ("csharp", LanguageDescription("C#", ["cs", "c#"], [".cs"],
      LanguageSupport("csharp", ["autocomplete", "lint", "format"]))),
    ("java", LanguageDescription("Java", ["java"], [".java"],
      LanguageSupport("java", ["autocomplete", "lint", "format"]))),
    ("cpp", LanguageDescription("C++", ["c++", "cc", "cxx"], [".cpp", ".cc", ".cxx", ".hpp", ".h"],
      LanguageSupport("cpp", ["autocomplete", "lint", "format"]))),
    ("html", LanguageDescription("HTML", ["htm"], [".html", ".htm"],
      LanguageSupport("html", ["autocomplete", "format"]))),
    ("css", LanguageDescription("CSS", ["scss", "less"], [".css", ".scss", ".less"],
      LanguageSupport("css", ["autocomplete", "lint", "format"]))),
    ("json", LanguageDescription("JSON", ["json5"], [".json", ".json5"],
      LanguageSupport("json", ["lint", "format"]))),
    ("xml", LanguageDescription("XML", ["xsl", "xsd"], [".xml", ".xsl", ".xsd", ".xaml"],
      LanguageSupport("xml", ["autocomplete", "format"]))),
    ("markdown", LanguageDescription("Markdown", ["md"], [".md", ".markdown"],
      LanguageSupport("markdown", ["format"]))),
    ("sql", LanguageDescription("SQL", ["mysql", "pgsql", "sqlite"], [".sql"],
      LanguageSupport("sql", ["autocomplete", "format"]))),
    ("yaml", LanguageDescription("YAML", ["yml"], [".yaml", ".yml"],
      LanguageSupport("yaml", ["lint", "format"]))),
    ("rust", LanguageDescription("Rust", ["rs"], [".rs"],
      LanguageSupport("rust", ["autocomplete", "lint", "format"]))),
    ("go", LanguageDescription("Go", ["golang"], [".go"],
      LanguageSupport("go", ["autocomplete", "lint", "format"]))),
    ("php", LanguageDescription("PHP", ["php", "php3", "php4", "php5"], [".php", ".php3", ".php4", ".php5", ".phtml"],
      LanguageSupport("php", ["autocomplete", "lint", "format"]))),
    ("ruby", LanguageDescription("Ruby", ["rb"], [".rb"],
      LanguageSupport("ruby", ["autocomplete", "lint", "format"]))),
    ("swift", LanguageDescription("Swift", ["swift"], [".swift"],
      LanguageSupport("swift", ["autocomplete", "lint", "format"]))),
    ("kotlin", LanguageDescription("Kotlin", ["kt"], [".kt", ".kts"],
      LanguageSupport("kotlin", ["autocomplete", "lint", "format"])))
  ]

  /** True when some entry of the table is keyed by `k` (dictionary `ContainsKey`). */
  predicate HasKey(k: string)
  {
    exists i :: 0 <= i < |Table| && Table[i].0 == k
  }

  /* ---------- Invariants of the table as written ---------- */

  /** Keys are pairwise distinct, so the table is a dictionary. */
  lemma KeysDistinct()
    ensures forall i, j :: 0 <= i < j < |Table| ==> Table[i].0 != Table[j].0
  {
  }

  /** Every key is lower-case, so `ToLower` of a key is the key itself. */
  lemma KeysLowerCase()
    ensures forall i :: 0 <= i < |Table| ==> IsLowerCase(Table[i].0)
  {
  }

  /** No key and no alias is empty. */
  lemma KeysNonEmpty()
    ensures forall i :: 0 <= i < |Table| ==> Table[i].0 != "" && "" !in Table[i].1.alias
  {
  }

  /** No alias is listed under two entries. */
  lemma AliasesDisjoint()
    ensures forall i, j, a :: 0 <= i < j < |Table| && a in Table[i].1.alias ==> a !in Table[j].1.alias
  {
    AliasesDisjointRows0To2();
    AliasesDisjointRows3To5();
    AliasesDisjointRows6To9();
    AliasesDisjointRows10To18();
  }

  lemma AliasesDisjointRows0To2()
    ensures forall i, j, a :: 0 <= i < 3 && i < j < |Table| && a in Table[i].1.alias ==> a !in Table[j].1.alias
  {
  }

  lemma AliasesDisjointRows3To5()
    ensures forall i, j, a :: 3 <= i < 6 && i < j < |Table| && a in Table[i].1.alias ==> a !in Table[j].1.alias
  {
  }

  lemma AliasesDisjointRows6To9()
    ensures forall i, j, a :: 6 <= i < 10 && i < j < |Table| && a in Table[i].1.alias ==> a !in Table[j].1.alias
  {
  }

  lemma AliasesDisjointRows10To18()
    ensures forall i, j, a :: 10 <= i < 19 && i < j < |Table| && a in Table[i].1.alias ==> a !in Table[j].1.alias
  {
  }

  /** No extension is listed under two entries. */
  lemma ExtensionsDisjoint()
    ensures forall i, j, e :: 0 <= i < j < |Table| && e in Table[i].1.extensions ==> e !in Table[j].1.extensions
  {
    ExtensionsDisjointRows0To1();
    ExtensionsDisjointRows2To2();
    ExtensionsDisjointRows3To5();
    ExtensionsDisjointRows6To9();
    ExtensionsDisjointRows10To18();
  }

  lemma ExtensionsDisjointRows0To1()
    ensures forall i, j, e :: 0 <= i < 2 && i < j < |Table| && e in Table[i].1.extensions ==> e !in Table[j].1.extensions
  {
  }

  lemma ExtensionsDisjointRows2To2()
    ensures forall j, e :: 2 < j < |Table| && e in Table[2].1.extensions ==> e !in Table[j].1.extensions
  {
  }

  lemma ExtensionsDisjointRows3To5()
    ensures forall i, j, e :: 3 <= i < 6 && i < j < |Table| && e in Table[i].1.extensions ==> e !in Table[j].1.extensions
  {
  }

  lemma ExtensionsDisjointRows6To9()
    ensures forall i, j, e :: 6 <= i < 10 && i < j < |Table| && e in Table[i].1.extensions ==> e !in Table[j].1.extensions
  {
  }

  lemma ExtensionsDisjointRows10To18()
    ensures forall i, j, e :: 10 <= i < 19 && i < j < |Table| && e in Table[i].1.extensions ==> e !in Table[j].1.extensions
  {
  }

  /** An alias that is also a key is the key of its own entry ("java", "php", "swift"). */
  lemma AliasNamesOnlyOwnKey()
    ensures forall i, j :: 0 <= i < |Table| && 0 <= j < |Table| && Table[j].0 in Table[i].1.alias ==> i == j
  {
    AliasNamesOnlyOwnKeyRows0To4();
    AliasNamesOnlyOwnKeyRows5To9();
    AliasNamesOnlyOwnKeyRows10To14();
    AliasNamesOnlyOwnKeyRows15To18();
  }

  lemma AliasNamesOnlyOwnKeyRows0To4()
    ensures forall i, j :: 0 <= i < 5 && 0 <= j < |Table| && Table[j].0 in Table[i].1.alias ==> i == j
  {
  }

  lemma AliasNamesOnlyOwnKeyRows5To9()
    ensures forall i, j :: 5 <= i < 10 && 0 <= j < |Table| && Table[j].0 in Table[i].1.alias ==> i == j
  {
  }

  lemma AliasNamesOnlyOwnKeyRows10To14()
    ensures forall i, j :: 10 <= i < 15 && 0 <= j < |Table| && Table[j].0 in Table[i].1.alias ==> i == j
  {
  }

  lemma AliasNamesOnlyOwnKeyRows15To18()
    ensures forall i, j :: 15 <= i < 19 && 0 <= j < |Table| && Table[j].0 in Table[i].1.alias ==> i == j
  {
  }

  /** Every entry's engine language string equals its key. */
  lemma SupportLanguageIsKey()
    ensures forall i :: 0 <= i < |Table| ==> Table[i].1.support.language == Table[i].0
  {
  }

  /* ---------- First-match searches (`FirstOrDefault` over the table) ---------- */

  /** Index of the entry keyed by `k`. */
  function KeyIndex(t: seq<Entry>, k: string): (r: Option<nat>)
    ensures r.Some? ==> r.value < |t| && t[r.value].0 == k
    ensures r.None? <==> forall i :: 0 <= i < |t| ==> t[i].0 != k
    ensures r.Some? ==> forall j :: 0 <= j < r.value ==> t[j].0 != k
  {
    if |t| == 0 then None
    else if t[0].0 == k then Some(0)
    else match KeyIndex(t[1..], k)
      case None => None
      case Some(i) => Some(i + 1)
  }

  /** Index of the first entry whose alias list contains `a`. */
  function AliasIndex(t: seq<Entry>, a: string): (r: Option<nat>)
    ensures r.Some? ==> r.value < |t| && a in t[r.value].1.alias
    ensures r.None? <==> forall i :: 0 <= i < |t| ==> a !in t[i].1.alias
    ensures r.Some? ==> forall j :: 0 <= j < r.value ==> a !in t[j].1.alias
  {
    if |t| == 0 then None
    else if a in t[0].1.alias then Some(0)
    else match AliasIndex(t[1..], a)
      case None => None
      case Some(i) => Some(i + 1)
  }

  /** Index of the first entry whose extension list contains `e`. */
  function ExtensionIndex(t: seq<Entry>, e: string): (r: Option<nat>)
    ensures r.Some? ==> r.value < |t| && e in t[r.value].1.extensions
    ensures r.None? <==> forall i :: 0 <= i < |t| ==> e !in t[i].1.extensions
    ensures r.Some? ==> forall j :: 0 <= j < r.value ==> e !in t[j].1.extensions
  {
    if |t| == 0 then None
    else if e in t[0].1.extensions then Some(0)
    else match ExtensionIndex(t[1..], e)
      case None => None
      case Some(i) => Some(i + 1)
  }

  function Describe(i: Option<nat>): Option<LanguageDescription>
    requires i.Some? ==> i.value < |Table|
  {
    match i
    case None => None
    case Some(k) => Some(Table[k].1)
  }

  /** `GetAllLanguages`: every description, in table order. */
  function GetAllLanguages(): (r: seq<LanguageDescription>)
    ensures |r| == |Table|
    ensures forall i :: 0 <= i < |r| ==> r[i] == Table[i].1
  {
    seq(|Table|, i requires 0 <= i < |Table| => Table[i].1)
  }

  /* ---------- Lookups ---------- */

  /**
    Index of the entry `GetLanguage` returns: null or empty ids resolve to
    nothing; otherwise the lower-cased id is tried as a key first, then
    against the alias lists in table order.
   */
  function Resolve(id: string): (r: Option<nat>)
    ensures r.Some? ==> r.value < |Table|
    ensures id == "" ==> r == None
    ensures id != "" && HasKey(Lower(id)) ==> r.Some? && Table[r.value].0 == Lower(id)
    ensures id != "" && !HasKey(Lower(id)) ==>
      (r.None? <==> forall i :: 0 <= i < |Table| ==> Lower(id) !in Table[i].1.alias)
    ensures id != "" && !HasKey(Lower(id)) && r.Some? ==> Lower(id) in Table[r.value].1.alias
  {
    if id == "" then None
    else
      var lower := Lower(id);
      match KeyIndex(Table, lower)
      case Some(i) => Some(i)
      case None => AliasIndex(Table, lower)
  }

  /**
    `GetLanguage`: null for a null or empty id; otherwise the entry whose key
    or one of whose aliases is the lower-cased id, or null when no entry has it.
   */
  function GetLanguage(id: string): (r: Option<LanguageDescription>)
    ensures id == "" ==> r.None?
    ensures id != "" ==> forall i :: 0 <= i < |Table| && Named(i, Lower(id)) ==> r == Some(Table[i].1)
    ensures r.None? <==> id == "" || forall i :: 0 <= i < |Table| ==> !Named(i, Lower(id))
  {
    if id != "" then ResolveNamed(id); Describe(Resolve(id))
    else None
  }

  /** Entry `i` answers to `name`, as its key or as one of its aliases. */
  predicate Named(i: nat, name: string)
    requires i < |Table|
  {
    name == Table[i].0 || name in Table[i].1.alias
  }

  /** `Resolve` finds exactly the entry named by the lower-cased id. */
  lemma ResolveNamed(id: string)
    requires id != ""
    ensures forall i :: 0 <= i < |Table| && Named(i, Lower(id)) ==> Resolve(id) == Some(i)
    ensures Resolve(id).None? <==> forall i :: 0 <= i < |Table| ==> !Named(i, Lower(id))
  {
    forall i | 0 <= i < |Table| && Named(i, Lower(id))
      ensures Resolve(id) == Some(i)
    {
      ResolveNamedAt(id, i);
    }
    if Resolve(id).Some? {
      assert Named(Resolve(id).value, Lower(id));
    }
  }

  lemma ResolveNamedAt(id: string, i: nat)
    requires i < |Table| && Named(i, Lower(id))
    ensures Resolve(id) == Some(i)
  {
    if Lower(id) == Table[i].0 {
      ResolveByKey(id, i);
    } else {
      ResolveByAlias(id, i);
    }
  }

  /** Resolving any key (in any letter case) yields that key's entry. */
  lemma ResolveByKey(id: string, i: nat)
    requires i < |Table| && Lower(id) == Table[i].0
    ensures Resolve(id) == Some(i)
  {
    KeysDistinct();
  }

  /** Every listed description is what `GetLanguage` returns for its key. */
  lemma AllLanguagesFoundByKey(i: nat)
    requires i < |GetAllLanguages()|
    ensures GetLanguage(Table[i].0) == Some(GetAllLanguages()[i])
  {
    KeysLowerCase();
    LowerOfLowerCase(Table[i].0);
    KeysNonEmpty();
    assert Named(i, Lower(Table[i].0));
  }

  /**
    Resolving any alias (in any letter case) yields the entry that lists it:
    aliases are disjoint and never name another entry's key, so neither the
    key-first precedence nor the enumeration order can change the answer.
   */
  lemma ResolveByAlias(id: string, i: nat)
    requires i < |Table| && Lower(id) in Table[i].1.alias
    ensures Resolve(id) == Some(i)
  {
    assert id != "";
    var r := Resolve(id);
    if HasKey(Lower(id)) {
      KeyAliasOwner(i, r.value);
    } else {
      AliasOwner(i, r.value, Lower(id));
    }
  }

  lemma AliasOwner(i: nat, j: nat, a: string)
    requires i < |Table| && j < |Table| && a in Table[i].1.alias && a in Table[j].1.alias
    ensures i == j
  {
    AliasesDisjoint();
  }

  lemma KeyAliasOwner(i: nat, j: nat)
    requires i < |Table| && j < |Table| && Table[j].0 in Table[i].1.alias
    ensures i == j
  {
    AliasNamesOnlyOwnKey();
  }

  /** An id whose lower-cased form is neither a key nor an alias resolves to nothing. */
  lemma UnknownId(id: string, lower: string)
    requires id != "" && Lower(id) == lower
    requires !HasKey(lower) && forall i :: 0 <= i < |Table| ==> lower !in Table[i].1.alias
    ensures Resolve(id) == None
    ensures GetLanguage(id) == None
  {
  }

  /**
    The leading '.' is added when missing and the result is lower-cased:
    every character of the input reappears, lower-cased, after the one '.'
    that was added or kept.
   */
  function NormalizeExtension(extension: string): (r: string)
    ensures StartsWith(r, ".")
    ensures IsLowerCase(r)
    ensures var added := if StartsWith(extension, ".") then 0 else 1;
      |r| == |extension| + added &&
      forall j :: 0 <= j < |extension| ==> r[j + added] == LowerChar(extension[j])
  {
    var added := if StartsWith(extension, ".") then 0 else 1;
    var dotted := if added == 0 then extension else "." + extension;
    assert |dotted| == |extension| + added && dotted[0] == '.';
    assert forall j :: 0 <= j < |extension| ==> dotted[j + added] == extension[j];
    var r := Lower(dotted);
    assert r[..1] == [LowerChar(dotted[0])];
    r
  }

  /** Index of the entry `GetLanguageByExtension` returns. */
  function ExtensionResolve(extension: string): (r: Option<nat>)
    ensures r.Some? ==> r.value < |Table|
    ensures extension == "" ==> r == None
    ensures extension != "" ==>
      (r.None? <==> forall i :: 0 <= i < |Table| ==> NormalizeExtension(extension) !in Table[i].1.extensions)
    ensures r.Some? ==> NormalizeExtension(extension) in Table[r.value].1.extensions
  {
    if extension == "" then None
    else ExtensionIndex(Table, NormalizeExtension(extension))
  }

  /**
    `GetLanguageByExtension`: null for a null or empty extension; otherwise
    the entry listing the normalised extension, or null when none lists it.
   */
  function GetLanguageByExtension(extension: string): (r: Option<LanguageDescription>)
    ensures extension == "" ==> r.None?
    ensures extension != "" ==> forall i :: 0 <= i < |Table| && NormalizeExtension(extension) in Table[i].1.extensions ==>
      r == Some(Table[i].1)
    ensures r.None? <==>
      extension == "" || forall i :: 0 <= i < |Table| ==> NormalizeExtension(extension) !in Table[i].1.extensions
  {
    ExtensionsDisjoint();
    Describe(ExtensionResolve(extension))
  }

  /** The extension lookup returns the one entry that lists the normalised extension. */
  lemma GetLanguageByExtensionUnique(extension: string, i: nat)
    requires extension != "" && i < |Table|
    requires NormalizeExtension(extension) in Table[i].1.extensions
    ensures ExtensionResolve(extension) == Some(i)
    ensures GetLanguageByExtension(extension) == Some(Table[i].1)
  {
    ExtensionsDisjoint();
  }

  /** Normalisation ignores letter case. */
  lemma {:induction false} NormalizeCaseInsensitive(e1: string, e2: string)
    requires Lower(e1) == Lower(e2)
    ensures NormalizeExtension(e1) == NormalizeExtension(e2)
  {
    assert |e1| == |e2|;
    assert StartsWith(e1, ".") <==> StartsWith(e2, ".") by {
      if |e1| > 0 {
        assert LowerChar(e1[0]) == Lower(e1)[0] == Lower(e2)[0] == LowerChar(e2[0]);
        assert e1[0] == '.' <==> LowerChar(e1[0]) == '.';
        assert e2[0] == '.' <==> LowerChar(e2[0]) == '.';
        assert StartsWith(e1, ".") <==> e1[0] == '.';
        assert StartsWith(e2, ".") <==> e2[0] == '.';
      }
    }
    if !StartsWith(e1, ".") {
      LowerAppend(".", e1);
      LowerAppend(".", e2);
    }
  }

  /** Extensions are compared without regard to letter case. */
  lemma ExtensionCaseInsensitive(e1: string, e2: string)
    requires Lower(e1) == Lower(e2)
    ensures GetLanguageByExtension(e1) == GetLanguageByExtension(e2)
  {
    NormalizeCaseInsensitive(e1, e2);
  }

  /** The leading '.' is optional. */
  lemma ExtensionDotOptional(e: string)
    requires e != "" && !StartsWith(e, ".")
    ensures GetLanguageByExtension(e) == GetLanguageByExtension("." + e)
  {
    assert StartsWith("." + e, ".");
  }

  lemma DotJsIsJavaScript()
    ensures GetLanguageByExtension(".js") == Some(Table[0].1)
  {
    assert StartsWith(".js", ".");
    LowerOfLowerCase(".js");
    assert NormalizeExtension(".js") == ".js";
    GetLanguageByExtensionUnique(".js", 0);
  }

  lemma JsHasNoDot()
    ensures !StartsWith("js", ".")
    ensures "." + "js" == ".js"
  {
    assert ("js")[0] == 'j';
  }

  lemma UpperDotJsLowers()
    ensures Lower(".JS") == Lower(".js")
  {
    assert Lower(".JS") == ".js";
    LowerOfLowerCase(".js");
  }

  /** "js", ".js" and ".JS" all resolve to the JavaScript entry. */
  lemma JavaScriptExtensionSpellings()
    ensures GetLanguageByExtension("js") == Some(Table[0].1)
    ensures GetLanguageByExtension(".js") == Some(Table[0].1)
    ensures GetLanguageByExtension(".JS") == Some(Table[0].1)
  {
    DotJsIsJavaScript();
    JsHasNoDot();
    ExtensionDotOptional("js");
    UpperDotJsLowers();
    ExtensionCaseInsensitive(".JS", ".js");
  }

  /* ---------- File names ---------- */

  /** Index of the last '.' of `s` that is not followed by a '/', if any. */
  function LastDot(s: string): (r: Option<nat>)
    ensures r.Some? ==> r.value < |s| && s[r.value] == '.'
    ensures r.Some? ==> forall j :: r.value < j < |s| ==> s[j] != '.' && s[j] != '/'
    ensures r.None? ==> forall j :: 0 <= j < |s| && s[j] == '.' ==> exists k :: j < k < |s| && s[k] == '/'
    decreases |s|
  {
    if |s| == 0 then None
    else if s[|s| - 1] == '.' then Some(|s| - 1)
    else if s[|s| - 1] == '/' then None
    else LastDot(s[..|s| - 1])
  }

  /**
    Position `k` of `s` starts an extension: a '.' that is not the last
    character, with no later '.' or '/'.
   */
  predicate ExtensionAt(s: string, k: int)
  {
    0 <= k < |s| - 1 && s[k] == '.' && forall j :: k < j < |s| ==> s[j] != '.' && s[j] != '/'
  }

  /**
    `Path.GetExtension` with '/' as the only separator: the suffix from the
    last '.' of the last path segment, or "" when that segment has no '.' or
    ends with it.
   */
  function GetExtension(fileName: string): (r: string)
    ensures r != "" ==> ExtensionAt(fileName, |fileName| - |r|) && r == fileName[|fileName| - |r|..]
    ensures r == "" <==> forall k :: 0 <= k < |fileName| ==> !ExtensionAt(fileName, k)
    ensures (forall j :: 0 <= j < |fileName| ==> fileName[j] != '.') ==> r == ""
  {
    match LastDot(fileName)
    case None => ""
    case Some(k) => if k == |fileName| - 1 then "" else fileName[k..]
  }

  /** The extension-less names the source special-cases. */
  function SpecialFileLanguage(lowerName: string): (r: Option<string>)
    ensures r.Some? ==> r.value == "makefile" || r.value == "dockerfile" || r.value == "groovy"
  {
    if lowerName == "makefile" || lowerName == "gnumakefile" then Some("makefile")
    else if lowerName == "dockerfile" then Some("dockerfile")
    else if lowerName == "jenkinsfile" then Some("groovy")
    else None
  }

  /** `GetLanguageByFileName`: the extension first, then the special names. */
  function GetLanguageByFileName(fileName: string): (r: Option<LanguageDescription>)
    ensures fileName == "" ==> r.None?
    ensures GetExtension(fileName) != "" && GetLanguageByExtension(GetExtension(fileName)).Some? ==>
      r == GetLanguageByExtension(GetExtension(fileName))
    ensures r.Some? && GetExtension(fileName) == "" ==>
      SpecialFileLanguage(Lower(fileName)).Some? && r == GetLanguage(SpecialFileLanguage(Lower(fileName)).value)
  {
    if fileName == "" then None
    else
      var extension := GetExtension(fileName);
      var byExtension := if extension != "" then GetLanguageByExtension(extension) else None;
      if byExtension.Some? then byExtension
      else match SpecialFileLanguage(Lower(fileName))
        case Some(id) => GetLanguage(id)
        case None => None
  }

  /** An id spelled in lower case that is neither a key nor an alias resolves to nothing. */
  lemma UnknownLowerId(id: string)
    requires id != "" && IsLowerCase(id)
    requires !HasKey(id) && forall i :: 0 <= i < |Table| ==> id !in Table[i].1.alias
    ensures GetLanguage(id) == None
  {
    LowerOfLowerCase(id);
    UnknownId(id, id);
  }

  /** "makefile" is neither a key nor an alias. */
  lemma MakefileIdUnknown()
    ensures GetLanguage("makefile") == None
  {
    assert !HasKey("makefile");
    assert forall i :: 0 <= i < |Table| ==> "makefile" !in Table[i].1.alias;
    UnknownLowerId("makefile");
  }

  /** "dockerfile" is neither a key nor an alias. */
  lemma DockerfileIdUnknown()
    ensures GetLanguage("dockerfile") == None
  {
    assert !HasKey("dockerfile");
    assert forall i :: 0 <= i < |Table| ==> "dockerfile" !in Table[i].1.alias;
    UnknownLowerId("dockerfile");
  }

  /** "groovy" is neither a key nor an alias. */
  lemma GroovyIdUnknown()
    ensures GetLanguage("groovy") == None
  {
    assert !HasKey("groovy");
    assert forall i :: 0 <= i < |Table| ==> "groovy" !in Table[i].1.alias;
    UnknownLowerId("groovy");
  }

  /** The ids the special names route to resolve to nothing. */
  lemma SpecialIdsUnresolved(lowerName: string)
    requires SpecialFileLanguage(lowerName).Some?
    ensures GetLanguage(SpecialFileLanguage(lowerName).value) == None
  {
    var id := SpecialFileLanguage(lowerName).value;
    if id == "makefile" {
      MakefileIdUnknown();
    } else if id == "dockerfile" {
      DockerfileIdUnknown();
    } else {
      GroovyIdUnknown();
    }
  }

  /**
    A file name resolves only through its extension: the special names
    (makefile, gnumakefile, dockerfile, jenkinsfile) never resolve.
   */
  lemma {:induction false} FileNameResolvesOnlyByExtension(fileName: string)
    ensures GetLanguageByFileName(fileName) ==
      if GetExtension(fileName) != "" then GetLanguageByExtension(GetExtension(fileName)) else None
  {
    if fileName != "" && SpecialFileLanguage(Lower(fileName)).Some? {
      SpecialIdsUnresolved(Lower(fileName));
    }
  }

  /** A name without any '.' has no extension. */
  lemma NoDotNoExtension(fileName: string)
    requires forall j :: 0 <= j < |fileName| ==> fileName[j] != '.'
    ensures GetExtension(fileName) == ""
  {
  }

  /** A name whose lower-cased form is special contains no '.'. */
  lemma SpecialNameHasNoDot(fileName: string)
    requires SpecialFileLanguage(Lower(fileName)).Some?
    ensures forall j :: 0 <= j < |fileName| ==> fileName[j] != '.'
  {
    var l := Lower(fileName);
    assert l == "makefile" || l == "gnumakefile" || l == "dockerfile" || l == "jenkinsfile";
    assert forall j :: 0 <= j < |l| ==> l[j] != '.';
    forall j | 0 <= j < |fileName|
      ensures fileName[j] != '.'
    {
      assert l[j] == LowerChar(fileName[j]);
    }
  }

  /** The special names themselves resolve to nothing, in any letter case. */
  lemma SpecialFileNamesUnresolved(fileName: string)
    requires SpecialFileLanguage(Lower(fileName)).Some?
    ensures GetLanguageByFileName(fileName) == None
  {
    SpecialIdsUnresolved(Lower(fileName));
    SpecialNameHasNoDot(fileName);
    NoDotNoExtension(fileName);
  }

  /* ---------- Feature and mode queries ---------- */

  /**
    `SupportsFeature`: false when the language does not resolve; otherwise
    whether it lists the lower-cased feature. `None` stands for a null
    feature and `None` as the result for the exception lower-casing it
    throws, which happens only once the language has resolved.
   */
  function SupportsFeature(id: string, feature: Option<string>): (r: Option<bool>)
    ensures r.None? <==> Resolve(id).Some? && feature.None?
    ensures Resolve(id).None? ==> r == Some(false)
  {
    match Resolve(id)
    case None => Some(false)
    case Some(i) =>
      if feature.None? then None
      else Some(Lower(feature.value) in Table[i].1.support.features)
  }

  /**
    For a language named by its key or an alias, feature support is
    membership of the lower-cased feature in that entry's list, and a null
    feature throws.
   */
  lemma SupportsFeatureOfEntry(id: string, feature: string, i: nat)
    requires i < |Table| && Named(i, Lower(id))
    ensures SupportsFeature(id, Some(feature)) == Some(Lower(feature) in Table[i].1.support.features)
    ensures SupportsFeature(id, None) == None
  {
    KeysNonEmpty();
    assert Lower(id) != "";
    ResolveNamed(id);
  }

  lemma TsIsTypeScriptAlias()
    ensures Resolve("ts") == Some(1)
  {
    LowerOfLowerCase("ts");
    assert "ts" in Table[1].1.alias;
    ResolveByAlias("ts", 1);
  }

  lemma TypesFeatureListed()
    ensures Lower("Types") in Table[1].1.support.features
  {
    assert Lower("Types") == "types";
  }

  /** TypeScript, reached through its alias, supports "types" in any letter case. */
  lemma TypeScriptSupportsTypes()
    ensures SupportsFeature("ts", Some("Types")) == Some(true)
  {
    TsIsTypeScriptAlias();
    TypesFeatureListed();
  }

  /** JavaScript does not list "types". */
  lemma JavaScriptLacksTypes()
    ensures SupportsFeature("javascript", Some("types")) == Some(false)
  {
    LowerOfLowerCase("javascript");
    ResolveByKey("javascript", 0);
    LowerOfLowerCase("types");
    assert "types" !in Table[0].1.support.features;
  }

  /** No key is the fallback mode name. */
  lemma NoTextKey()
    ensures forall i :: 0 <= i < |Table| ==> Table[i].0 != "text"
  {
  }

  /** `GetCodeMirrorMode`: the entry's engine language, or "text" when unresolved. */
  function GetCodeMirrorMode(id: string): (r: string)
    ensures r == "text" <==> Resolve(id).None?
    ensures r != "text" ==> HasKey(r)
    ensures Resolve(id).Some? ==> r == Table[Resolve(id).value].0
  {
    SupportLanguageIsKey();
    NoTextKey();
    match Resolve(id)
    case None => "text"
    case Some(i) => Table[i].1.support.language
  }

  /** Every key is its own mode. */
  lemma ModeOfKey(i: nat)
    requires i < |Table|
    ensures GetCodeMirrorMode(Table[i].0) == Table[i].0
  {
    KeysLowerCase();
    LowerOfLowerCase(Table[i].0);
    ResolveByKey(Table[i].0, i);
    SupportLanguageIsKey();
  }

  /** An alias selects its entry's mode: "ts" is edited in the "typescript" mode. */
  lemma ModeOfAlias()
    ensures GetCodeMirrorMode("ts") == "typescript"
  {
    TsIsTypeScriptAlias();
  }
}

=== FILE: numbers.dfy ===
/**
  `int.TryParse(string, out int)` with the default integer style: optional
  white space (U+0009..U+000D and U+0020) around an optional leading '+' or
  '-' and at least one ASCII digit, the value within the 32-bit range.
 */
module Numbers {
  import opened Common

  const MinInt32: int := -0x8000_0000
  const MaxInt32: int := 0x7FFF_FFFF

  predicate IsInt32(n: int)
  {
    MinInt32 <= n <= MaxInt32
  }

  predicate IsWhite(c: char)
  {
    '\t' <= c <= '\r' || c == ' '
  }

  predicate IsDigit(c: char)
  {
    '0' <= c <= '9'
  }

  predicate AllDigits(s: string)
  {
    forall i :: 0 <= i < |s| ==> IsDigit(s[i])
  }

  /** The value of a string of decimal digits, most significant first. */
  function DigitsValue(s: string): (r: nat)
    requires AllDigits(s)
    decreases |s|
  {
    if |s| == 0 then 0
    else 10 * DigitsValue(s[..|s| - 1]) + (s[|s| - 1] as int - '0' as int)
  }

  /** `s` without its leading white space. */
  function TrimStart(s: string): (r: string)
    ensures |r| <= |s| && r == s[|s| - |r|..]
    ensures |r| > 0 ==> !IsWhite(r[0])
    ensures forall i :: 0 <= i < |s| - |r| ==> IsWhite(s[i])
    decreases |s|
  {
    if |s| > 0 && IsWhite(s[0]) then TrimStart(s[1..]) else s
  }

  /** `s` without its trailing white space. */
  function TrimEnd(s: string): (r: string)
    ensures |r| <= |s| && r == s[..|r|]
    ensures |r| > 0 ==> !IsWhite(r[|r| - 1])
    ensures forall i :: |r| <= i < |s| ==> IsWhite(s[i])
    decreases |s|
  {
    if |s| > 0 && IsWhite(s[|s| - 1]) then TrimEnd(s[..|s| - 1]) else s
  }

  /** The signed value of an optional sign followed by one or more digits. */
  function SignedValue(t: string): (r: Option<int>)
    ensures r.Some? ==> |t| > 0
  {
    if |t| > 0 && (t[0] == '-' || t[0] == '+') then
      var digits := t[1..];
      if |digits| > 0 && AllDigits(digits) then
        var v: int := DigitsValue(digits);
        Some(if t[0] == '-' then -v else v)
      else None
    else if |t| > 0 && AllDigits(t) then Some(DigitsValue(t))
    else None
  }

  /** `int.TryParse`: None for null, malformed text or a value outside the 32-bit range. */
  function ParseInt32(s: Option<string>): (r: Option<int>)
    ensures r.Some? ==> IsInt32(r.value)
    ensures s.None? ==> r.None?
  {
    match s
    case None => None
    case Some(text) =>
      match SignedValue(TrimEnd(TrimStart(text)))
      case None => None
      case Some(n) => if IsInt32(n) then Some(n) else None
  }

  /** The decimal digits of `n` without leading zeros ("0" for zero). */
  function ShowNat(n: nat): (r: string)
    ensures |r| > 0 && AllDigits(r)
    decreases n
  {
    if n < 10 then [('0' as int + n) as char]
    else ShowNat(n / 10) + [('0' as int + n % 10) as char]
  }

  /** `n.ToString()` in the invariant culture. */
  function Show(n: int): (r: string)
    ensures |r| > 0
  {
    if n < 0 then "-" + ShowNat(-n) else ShowNat(n)
  }

  /** Reading back the digits of `n` yields `n`. */
  lemma {:induction false} ShowNatValue(n: nat)
    ensures DigitsValue(ShowNat(n)) == n
    decreases n
  {
    if n >= 10 {
      var s := ShowNat(n);
      assert s[..|s| - 1] == ShowNat(n / 10);
      ShowNatValue(n / 10);
    }
  }

  /** A string without white space at either end is left alone by trimming. */
  lemma TrimNothing(s: string)
    requires |s| > 0 && !IsWhite(s[0]) && !IsWhite(s[|s| - 1])
    ensures TrimEnd(TrimStart(s)) == s
  {
  }

  lemma SignedValueOfNegative(d: string)
    requires |d| > 0 && AllDigits(d)
    ensures SignedValue("-" + d) == Some(0 - DigitsValue(d) as int)
  {
    assert ("-" + d)[0] == '-' && ("-" + d)[1..] == d;
  }

  lemma SignedValueOfDigits(d: string)
    requires |d| > 0 && AllDigits(d)
    ensures SignedValue(d) == Some(DigitsValue(d))
  {
    assert IsDigit(d[0]);
  }

  lemma NoWhiteEnds(n: int)
    ensures !IsWhite(Show(n)[0]) && !IsWhite(Show(n)[|Show(n)| - 1])
  {
    var s := Show(n);
    if n < 0 {
      var d := ShowNat(-n);
      assert s == "-" + d;
      assert s[|s| - 1] == d[|d| - 1];
      assert IsDigit(d[|d| - 1]);
    } else {
      assert IsDigit(s[0]) && IsDigit(s[|s| - 1]);
    }
  }

  /** The printed form of any integer reads back as that integer, range aside. */
  lemma ReadShow(n: int)
    ensures SignedValue(TrimEnd(TrimStart(Show(n)))) == Some(n)
  {
    NoWhiteEnds(n);
    TrimNothing(Show(n));
    if n < 0 {
      ShowNatValue(-n);
      SignedValueOfNegative(ShowNat(-n));
    } else {
      ShowNatValue(n);
      SignedValueOfDigits(ShowNat(n));
    }
  }

  /** Every 32-bit integer survives printing and parsing back. */
  lemma ParseShow(n: int)
    requires IsInt32(n)
    ensures ParseInt32(Some(Show(n))) == Some(n)
  {
    ReadShow(n);
  }

  /** Parsing tolerates white space around the number. */
  lemma ParseIgnoresPadding(pre: string, t: string, post: string)
    requires forall i :: 0 <= i < |pre| ==> IsWhite(pre[i])
    requires forall i :: 0 <= i < |post| ==> IsWhite(post[i])
    requires |t| > 0 && !IsWhite(t[0]) && !IsWhite(t[|t| - 1])
    ensures ParseInt32(Some(pre + t + post)) == ParseInt32(Some(t))
  {
    TrimStartPadding(pre, t + post);
    assert pre + t + post == pre + (t + post);
    TrimEndPadding(t, post);
    TrimNothing(t);
  }

  lemma {:induction false} TrimStartPadding(pre: string, rest: string)
    requires forall i :: 0 <= i < |pre| ==> IsWhite(pre[i])
    requires |rest| > 0 && !IsWhite(rest[0])
    ensures TrimStart(pre + rest) == rest
    decreases |pre|
  {
    if |pre| > 0 {
      assert (pre + rest)[1..] == pre[1..] + rest;
      TrimStartPadding(pre[1..], rest);
    } else {
      assert pre + rest == rest;
    }
  }

  lemma {:induction false} TrimEndPadding(t: string, post: string)
    requires forall i :: 0 <= i < |post| ==> IsWhite(post[i])
    requires |t| > 0 && !IsWhite(t[|t| - 1])
    ensures TrimEnd(t + post) == t
    decreases |post|
  {
    if |post| > 0 {
      assert (t + post)[..|t + post| - 1] == t + post[..|post| - 1];
      TrimEndPadding(t, post[..|post| - 1]);
    } else {
      assert t + post == t;
    }
  }

  /** Text without a single digit never parses. */
  lemma NoDigitsNoNumber(s: string)
    requires forall i :: 0 <= i < |s| ==> !IsDigit(s[i])
    ensures ParseInt32(Some(s)) == None
  {
    var a := TrimStart(s);
    var t := TrimEnd(a);
    assert forall i :: 0 <= i < |t| ==> t[i] == s[|s| - |a| + i];
    if |t| > 0 && (t[0] == '-' || t[0] == '+') && |t| > 1 {
      assert !IsDigit(t[1]);
    } else if |t| > 0 {
      assert !IsDigit(t[0]);
    }
  }

  /** A text that has a signed value is an optional sign followed by digits. */
  lemma SignedShape(t: string)
    requires SignedValue(t).Some?
    ensures (forall i :: 0 < i < |t| ==> IsDigit(t[i]))
    ensures IsDigit(t[0]) || ((t[0] == '-' || t[0] == '+') && |t| > 1)
  {
    if t[0] == '-' || t[0] == '+' {
      var digits := t[1..];
      forall i | 0 < i < |t|
        ensures IsDigit(t[i])
      {
        assert t[i] == digits[i - 1];
      }
    }
  }

  /**
    Only an optional sign followed by digits parses: once the white space at
    both ends is removed, every character after the first is a digit, and the
    first is a digit or a sign with digits after it.
   */
  lemma ParsedShape(s: string)
    requires ParseInt32(Some(s)).Some?
    ensures var t := TrimEnd(TrimStart(s));
      |t| > 0 && (forall i :: 0 < i < |t| ==> IsDigit(t[i])) &&
      (IsDigit(t[0]) || ((t[0] == '-' || t[0] == '+') && |t| > 1))
  {
    SignedShape(TrimEnd(TrimStart(s)));
  }

  /** So a letter after the digits makes the text malformed: "12a" does not parse. */
  lemma TrailingLetterRejected()
    ensures ParseInt32(Some("12a")) == None
  {
    assert TrimStart("12a") == "12a";
    assert TrimEnd("12a") == "12a";
    assert !IsDigit("12a"[2]);
    if ParseInt32(Some("12a")).Some? {
      ParsedShape("12a");
      assert false;
    }
  }

  /** Values beyond the 32-bit range are rejected. */
  lemma ParseRejectsOverflow(n: int)
    requires !IsInt32(n)
    ensures ParseInt32(Some(Show(n))) == None
  {
    ReadShow(n);
  }
}

=== FILE: page.dfy ===
/**
  The script inside the page: an operation queue that defers work until the
  editor signals readiness, and the setters built on it.

  Operations are the closures the page queues, named by what they do. Each
  one first checks that the editor object exists and does nothing otherwise.
  Exceptions raised by an operation are caught and logged by the page; the
  model's operations do not raise.
 */
module Page {
  import opened Common

  /** The editor options the setters touch. */
  datatype Editor = Editor(mode: string, theme: string, value: string, readOnly: bool)

  /** A queued closure. */
  datatype Op =
    | SetMode(mode: string)
    | SetTheme(theme: string)
    | SetValue(text: string)
    | SetReadOnly(on: bool)

  /**
    The page globals: `editorReady`, `isProcessingQueue`, `operationQueue`,
    `editor` (None before it is created), `currentLanguage`, `currentTheme`
    and `pendingValueDirect`.
   */
  datatype PageState = PageState(
    editorReady: bool,
    processing: bool,
    queue: seq<Op>,
    editor: Option<Editor>,
    currentLanguage: string,
    currentTheme: string,
    pendingDirect: Option<string>)

  /** The globals right after the script has created the editor. */
  function Loaded(): (p: PageState)
    ensures !p.editorReady && !p.processing && p.queue == []
    ensures p.editor == Some(Editor("javascript", "dracula", "", false))
  {
    PageState(false, false, [], Some(Editor("javascript", "dracula", "", false)), "javascript", "dracula", None)
  }

  /** Runs one operation now. */
  function Apply(p: PageState, op: Op): (r: PageState)
    ensures r.editorReady == p.editorReady && r.processing == p.processing && r.queue == p.queue
    ensures p.editor.None? ==> r == p
    ensures r.editor.Some? <==> p.editor.Some?
    ensures p.editor.Some? && op.SetMode? ==> r.editor.value.mode == op.mode
    ensures p.editor.Some? && op.SetTheme? ==> r.editor.value.theme == op.theme
    ensures p.editor.Some? && op.SetValue? ==> r.editor.value.value == op.text
    ensures p.editor.Some? && op.SetReadOnly? ==> r.editor.value.readOnly == op.on
    ensures p.editor.Some? ==>
      (op.SetMode? || r.editor.value.mode == p.editor.value.mode) &&
      (op.SetTheme? || r.editor.value.theme == p.editor.value.theme) &&
      (op.SetValue? || r.editor.value.value == p.editor.value.value) &&
      (op.SetReadOnly? || r.editor.value.readOnly == p.editor.value.readOnly)
    ensures r.currentLanguage != p.currentLanguage <==>
      p.editor.Some? && op.SetMode? && p.editor.value.mode != op.mode && p.currentLanguage != op.mode
    ensures r.currentLanguage != p.currentLanguage ==> r.currentLanguage == op.mode
    ensures r.currentTheme != p.currentTheme <==>
      p.editor.Some? && op.SetTheme? && p.editor.value.theme != op.theme && p.currentTheme != op.theme
    ensures r.currentTheme != p.currentTheme ==> r.currentTheme == op.theme
    ensures r.pendingDirect == p.pendingDirect
  {
    match p.editor
    case None => p
    case Some(e) =>
      match op
      case SetMode(m) =>
        if e.mode != m then p.(editor := Some(e.(mode := m)), currentLanguage := m) else p
      case SetTheme(t) =>
        if e.theme != t then p.(editor := Some(e.(theme := t)), currentTheme := t) else p
      case SetValue(text) => p.(editor := Some(e.(value := text)))
      case SetReadOnly(on) => p.(editor := Some(e.(readOnly := on)))
  }

  /** The mode and theme setters change nothing when the option already has the value. */
  lemma SettersSkipEqualValues(p: PageState, op: Op)
    requires p.editor.Some?
    requires (op.SetMode? && p.editor.value.mode == op.mode) || (op.SetTheme? && p.editor.value.theme == op.theme)
    ensures Apply(p, op) == p
  {
  }

  /** Every operation is idempotent: running it twice is running it once. */
  lemma ApplyIdempotent(p: PageState, op: Op)
    ensures Apply(Apply(p, op), op) == Apply(p, op)
  {
  }

  /** Runs `ops` in order, the reference for draining the queue. */
  function RunAll(p: PageState, ops: seq<Op>): (r: PageState)
    ensures r.editorReady == p.editorReady && r.processing == p.processing && r.queue == p.queue
    decreases |ops|
  {
    if |ops| == 0 then p else RunAll(Apply(p, ops[0]), ops[1..])
  }

  lemma {:induction false} RunAllAppend(p: PageState, a: seq<Op>, b: seq<Op>)
    ensures RunAll(p, a + b) == RunAll(RunAll(p, a), b)
    decreases |a|
  {
    if |a| > 0 {
      assert (a + b)[0] == a[0] && (a + b)[1..] == a[1..] + b;
      RunAllAppend(Apply(p, a[0]), a[1..], b);
    } else {
      assert a + b == b;
    }
  }

  /** `queueOrExecute`: run now when the editor is ready, otherwise append to the queue. */
  function QueueOrExecute(p: PageState, op: Op): (r: PageState)
    ensures p.editorReady ==> r == Apply(p, op)
    ensures !p.editorReady ==> r == p.(queue := p.queue + [op])
  {
    if p.editorReady then Apply(p, op) else p.(queue := p.queue + [op])
  }

  /**
    `processQueue`: nothing unless the editor is ready, the queue is not being
    processed and is not empty; otherwise every queued operation runs, oldest
    first, and the queue ends empty.
   */
  method ProcessQueue(p: PageState) returns (r: PageState)
    ensures p.processing || !p.editorReady || p.queue == [] ==> r == p
    ensures !(p.processing || !p.editorReady || p.queue == []) ==>
      r == RunAll(p.(queue := []), p.queue)
    ensures r.queue == [] || r == p
    ensures !r.processing || r == p
  {
    if p.processing || !p.editorReady || |p.queue| == 0 {
      return p;
    }
    r := p.(processing := true);
    ghost var pending := p.queue;
    while |r.queue| > 0
      invariant r.processing && r.editorReady
      invariant RunAll(p.(queue := []), pending) == RunAll(r.(queue := [], processing := false), r.queue)
      decreases |r.queue|
    {
      var op := r.queue[0];
      ghost var before := r;
      r := r.(queue := r.queue[1..]);
      r := Apply(r, op);
      assert Apply(before.(queue := [], processing := false), op) == r.(queue := [], processing := false);
    }
    r := r.(processing := false);
  }

  /** The ready signal: `editorReady` becomes true and the queue is processed. */
  method MarkReady(p: PageState) returns (r: PageState)
    ensures r.editorReady
    ensures !p.processing ==> r.queue == []
    ensures !p.processing ==> r == RunAll(p.(editorReady := true, queue := []), p.queue)
  {
    r := ProcessQueue(p.(editorReady := true));
  }

  /** Sends `ops` through `queueOrExecute` one after another. */
  function SubmitAll(p: PageState, ops: seq<Op>): (r: PageState)
    decreases |ops|
  {
    if |ops| == 0 then p else SubmitAll(QueueOrExecute(p, ops[0]), ops[1..])
  }

  /** Before readiness, submitting only queues, in submission order. */
  lemma {:induction false} SubmitBeforeReady(p: PageState, ops: seq<Op>)
    requires !p.editorReady
    ensures SubmitAll(p, ops) == p.(queue := p.queue + ops)
    decreases |ops|
  {
    if |ops| > 0 {
      SubmitBeforeReady(p.(queue := p.queue + [ops[0]]), ops[1..]);
      assert p.queue + [ops[0]] + ops[1..] == p.queue + ops;
    } else {
      assert p.queue + ops == p.queue;
    }
  }

  /** After readiness, submitting runs each operation at once. */
  lemma {:induction false} SubmitAfterReady(p: PageState, ops: seq<Op>)
    requires p.editorReady
    ensures SubmitAll(p, ops) == RunAll(p, ops)
    decreases |ops|
  {
    if |ops| > 0 {
      SubmitAfterReady(Apply(p, ops[0]), ops[1..]);
    }
  }

  /**
    Deferral is faithful: operations submitted before the ready signal leave
    the editor exactly as if they had been submitted after it.
   */
  method DeferredEqualsImmediate(p: PageState, ops: seq<Op>) returns (deferred: PageState, immediate: PageState)
    requires !p.editorReady && !p.processing && p.queue == []
    ensures deferred == immediate
    ensures deferred.queue == [] && deferred.editorReady
  {
    SubmitBeforeReady(p, ops);
    assert p.queue + ops == ops;
    deferred := MarkReady(SubmitAll(p, ops));
    var ready := MarkReady(p);
    SubmitAfterReady(ready, ops);
    immediate := SubmitAll(ready, ops);
  }

  /* ---------- Value setters ---------- */

  /**
    `setEditorValue` (with the text already decoded): when the editor is ready
    the value is set at once ("success", or "not-ready" without an editor
    object); otherwise the setter is queued and the reply is "queued".
   */
  function SetEditorValue(p: PageState, text: string): (r: (PageState, string))
    ensures p.editorReady && p.editor.Some? ==> r.1 == "success" && r.0.editor.Some? && r.0.editor.value.value == text
    ensures p.editorReady && p.editor.None? ==> r == (p, "not-ready")
    ensures !p.editorReady ==> r == (p.(queue := p.queue + [SetValue(text)]), "queued")
  {
    if p.editorReady then
      (Apply(p, SetValue(text)), if p.editor.Some? then "success" else "not-ready")
    else (QueueOrExecute(p, SetValue(text)), "queued")
  }

  /**
    `setEditorValueDirect`: sets the value whenever the editor object exists,
    ready or not ("success"); otherwise records it as pending ("pending").
   */
  function SetEditorValueDirect(p: PageState, text: string): (r: (PageState, string))
    ensures p.editor.Some? ==> r.1 == "success" && r.0.editor.Some? && r.0.editor.value.value == text
    ensures p.editor.None? ==> r == (p.(pendingDirect := Some(text)), "pending")
    ensures r.0.queue == p.queue && r.0.editorReady == p.editorReady
  {
    if p.editor.None? then (p.(pendingDirect := Some(text)), "pending")
    else (Apply(p, SetValue(text)), "success")
  }

  /** A queued value that is never overwritten is the editor's value once the queue is drained. */
  method QueuedValueLands(p: PageState, text: string) returns (r: PageState)
    requires !p.editorReady && !p.processing && p.queue == [] && p.editor.Some?
    ensures r.editor.Some? && r.editor.value.value == text
  {
    var queued := SetEditorValue(p, text).0;
    r := MarkReady(queued);
    assert queued.queue == [SetValue(text)];
  }
}

=== FILE: sorting.dfy ===
/**
  Stable sorting by a total preorder, the contract of LINQ's
  `OrderBy(...).ThenBy(...)`: the output is a permutation of the input, it is
  ordered, and elements the order cannot tell apart keep their input order.

  The definition is an insertion sort that places each element after every
  element already placed that is not greater than it.
 */
module Sorting {

  /** `leq` is total and transitive (equal keys are allowed). */
  ghost predicate TotalPreorder<T(!new)>(leq: (T, T) -> bool)
  {
    (forall a, b :: leq(a, b) || leq(b, a)) &&
    (forall a, b, c :: leq(a, b) && leq(b, c) ==> leq(a, c))
  }

  predicate Sorted<T>(s: seq<T>, leq: (T, T) -> bool)
  {
    forall i, j :: 0 <= i < j < |s| ==> leq(s[i], s[j])
  }

  /** `a` and `b` have equal keys. */
  predicate Equivalent<T>(leq: (T, T) -> bool, a: T, b: T)
  {
    leq(a, b) && leq(b, a)
  }

  /** The elements of `s` whose key equals that of `k`, in the order of `s`. */
  function Class<T>(s: seq<T>, leq: (T, T) -> bool, k: T): seq<T>
  {
    if |s| == 0 then []
    else (if Equivalent(leq, s[0], k) then [s[0]] else []) + Class(s[1..], leq, k)
  }

  /** Puts `x` in front of the first element of `s` that is strictly greater than it. */
  function Insert<T>(x: T, s: seq<T>, leq: (T, T) -> bool): (r: seq<T>)
    ensures |r| == |s| + 1
    ensures multiset(r) == multiset(s) + multiset{x}
  {
    if |s| == 0 then [x]
    else if leq(s[0], x) then
      assert s == [s[0]] + s[1..];
      [s[0]] + Insert(x, s[1..], leq)
    else [x] + s
  }

  /** Stable insertion sort. */
  function Sort<T>(s: seq<T>, leq: (T, T) -> bool): (r: seq<T>)
    ensures |r| == |s|
  {
    if |s| == 0 then []
    else Insert(s[|s| - 1], Sort(s[..|s| - 1], leq), leq)
  }

  /** Sorting rearranges: the multiset of elements is unchanged. */
  lemma {:induction false} SortPermutes<T>(s: seq<T>, leq: (T, T) -> bool)
    ensures multiset(Sort(s, leq)) == multiset(s)
    decreases |s|
  {
    if |s| > 0 {
      SortPermutes(s[..|s| - 1], leq);
      assert s == s[..|s| - 1] + [s[|s| - 1]];
    }
  }

  /** Inserting into an ordered sequence keeps it ordered. */
  lemma {:induction false} InsertSorted<T(!new)>(x: T, s: seq<T>, leq: (T, T) -> bool)
    requires TotalPreorder(leq) && Sorted(s, leq)
    ensures Sorted(Insert(x, s, leq), leq)
    decreases |s|
  {
    if |s| > 0 {
      if leq(s[0], x) {
        var rest := Insert(x, s[1..], leq);
        InsertSorted(x, s[1..], leq);
        forall e | e in rest
          ensures leq(s[0], e)
        {
          assert e in multiset(rest);
          if e != x {
            assert e in multiset(s[1..]);
            var j :| 0 <= j < |s[1..]| && s[1..][j] == e;
            assert s[j + 1] == e;
          }
        }
        var r := [s[0]] + rest;
        forall i, j | 0 <= i < j < |r|
          ensures leq(r[i], r[j])
        {
          if i == 0 {
            assert r[j] == rest[j - 1];
            assert r[j] in rest;
          } else {
            assert r[i] == rest[i - 1] && r[j] == rest[j - 1];
          }
        }
      } else {
        assert leq(x, s[0]);
        var r := [x] + s;
        forall i, j | 0 <= i < j < |r|
          ensures leq(r[i], r[j])
        {
          if i == 0 {
            assert r[j] == s[j - 1];
            if j > 1 {
              assert leq(s[0], s[j - 1]);
            }
          } else {
            assert r[i] == s[i - 1] && r[j] == s[j - 1];
          }
        }
      }
    }
  }

  /** The result of sorting is ordered. */
  lemma {:induction false} SortSorted<T(!new)>(s: seq<T>, leq: (T, T) -> bool)
    requires TotalPreorder(leq)
    ensures Sorted(Sort(s, leq), leq)
    decreases |s|
  {
    if |s| > 0 {
      SortSorted(s[..|s| - 1], leq);
      InsertSorted(s[|s| - 1], Sort(s[..|s| - 1], leq), leq);
    }
  }

  /** `Class` distributes over concatenation. */
  lemma {:induction false} ClassAppend<T>(a: seq<T>, b: seq<T>, leq: (T, T) -> bool, k: T)
    ensures Class(a + b, leq, k) == Class(a, leq, k) + Class(b, leq, k)
    decreases |a|
  {
    if |a| > 0 {
      assert (a + b)[0] == a[0];
      assert (a + b)[1..] == a[1..] + b;
      ClassAppend(a[1..], b, leq, k);
    } else {
      assert a + b == b;
    }
  }

  /** In an ordered sequence that starts above `x`, nothing has the key of `x`. */
  lemma {:induction false} ClassEmptyAbove<T(!new)>(x: T, s: seq<T>, leq: (T, T) -> bool, k: T)
    requires TotalPreorder(leq) && Sorted(s, leq)
    requires |s| > 0 && !leq(s[0], x) && Equivalent(leq, x, k)
    ensures Class(s, leq, k) == []
  {
    forall i | 0 <= i < |s|
      ensures !Equivalent(leq, s[i], k)
    {
      if i > 0 {
        assert leq(s[0], s[i]);
      }
    }
    ClassNone(s, leq, k);
  }

  /** A sequence with no element of the key of `k` has an empty class. */
  lemma {:induction false} ClassNone<T>(s: seq<T>, leq: (T, T) -> bool, k: T)
    requires forall i :: 0 <= i < |s| ==> !Equivalent(leq, s[i], k)
    ensures Class(s, leq, k) == []
    decreases |s|
  {
    if |s| > 0 {
      ClassNone(s[1..], leq, k);
    }
  }

  /** Inserting `x` adds it at the end of its own class and leaves other classes alone. */
  lemma {:induction false} InsertClass<T(!new)>(x: T, s: seq<T>, leq: (T, T) -> bool, k: T)
    requires TotalPreorder(leq) && Sorted(s, leq)
    ensures Class(Insert(x, s, leq), leq, k) == Class(s, leq, k) + Class([x], leq, k)
    decreases |s|
  {
    if |s| > 0 {
      if leq(s[0], x) {
        var t := s[1..];
        assert Sorted(t, leq) by {
          forall i, j | 0 <= i < j < |t|
            ensures leq(t[i], t[j])
          {
            assert t[i] == s[i + 1] && t[j] == s[j + 1];
          }
        }
        assert Insert(x, s, leq) == [s[0]] + Insert(x, t, leq);
        InsertClass(x, t, leq, k);
        ClassAppend([s[0]], Insert(x, t, leq), leq, k);
        ClassAppend([s[0]], t, leq, k);
        assert [s[0]] + t == s;
      } else {
        assert Insert(x, s, leq) == [x] + s;
        ClassAppend([x], s, leq, k);
        if Equivalent(leq, x, k) {
          ClassEmptyAbove(x, s, leq, k);
        }
      }
    }
  }

  /** Sorting is stable: every class keeps its input order. */
  lemma {:induction false} SortStable<T(!new)>(s: seq<T>, leq: (T, T) -> bool, k: T)
    requires TotalPreorder(leq)
    ensures Class(Sort(s, leq), leq, k) == Class(s, leq, k)
    decreases |s|
  {
    if |s| > 0 {
      var p, x := s[..|s| - 1], s[|s| - 1];
      SortSorted(p, leq);
      calc {
        Class(Sort(s, leq), leq, k);
        Class(Insert(x, Sort(p, leq), leq), leq, k);
        { InsertClass(x, Sort(p, leq), leq, k); }
        Class(Sort(p, leq), leq, k) + Class([x], leq, k);
        { SortStable(p, leq, k); }
        Class(p, leq, k) + Class([x], leq, k);
        { ClassAppend(p, [x], leq, k); assert p + [x] == s; }
        Class(s, leq, k);
      }
    }
  }

  /** An already ordered input is returned unchanged. */
  lemma {:induction false} SortOfSorted<T(!new)>(s: seq<T>, leq: (T, T) -> bool)
    requires TotalPreorder(leq) && Sorted(s, leq)
    ensures Sort(s, leq) == s
    decreases |s|
  {
    if |s| > 0 {
      var p, x := s[..|s| - 1], s[|s| - 1];
      assert Sorted(p, leq);
      SortOfSorted(p, leq);
      AppendLast(x, p, leq);
      assert p + [x] == s;
    }
  }

  /** Inserting an element not below anything already present appends it. */
  lemma {:induction false} AppendLast<T>(x: T, s: seq<T>, leq: (T, T) -> bool)
    requires forall i :: 0 <= i < |s| ==> leq(s[i], x)
    ensures Insert(x, s, leq) == s + [x]
    decreases |s|
  {
    if |s| > 0 {
      AppendLast(x, s[1..], leq);
      assert s == [s[0]] + s[1..];
    }
  }
}

=== FILE: themes.dfy ===
/**
  The theme registry: a fixed table of named themes with a dark/light flag,
  lookups by id, the dark and light selections, and per-language
  recommendations.

  The table's keys are mixed-case ("oneDark", "githubLight", ...) while the
  lookups lower-case their input before an ordinal, case-sensitive key test.
  `GetThemeAsWritten` and `ThemeExistsAsWritten` model that as written;
  `GetTheme` and `ThemeExists` are the case-insensitive lookups the code
  evidently means.
 */
module Themes {
  import opened Common

  /** The fields of a theme the model uses; the style list is left out. */
  datatype ThemeSpec = ThemeSpec(name: string, dark: bool)

  type Entry = (string, ThemeSpec)

  /** The `Themes` dictionary in declaration order. */
  const Table: seq<Entry> := [
    ("oneDark", ThemeSpec("One Dark", true)),
    ("dracula", ThemeSpec("Dracula", true)),
    ("githubDark", ThemeSpec("GitHub Dark", true)),
    ("githubLight", ThemeSpec("GitHub Light", false)),
    ("monokai", ThemeSpec("Monokai", true)),
    ("solarizedDark", ThemeSpec("Solarized Dark", true)),
    ("solarizedLight", ThemeSpec("Solarized Light", false)),
    ("vsCode", ThemeSpec("VS Code Dark", true)),
    ("material", ThemeSpec("Material Theme", true)),
    ("nord", ThemeSpec("Nord", true)),
    ("atomOneDark", ThemeSpec("Atom One Dark", true)),
    ("gruvboxDark", ThemeSpec("Gruvbox Dark", true)),
    ("cobalt", ThemeSpec("Cobalt", true))
  ]

  /** The keys that are already in lower case. */
  const LowerCaseKeys: set<string> := {"dracula", "monokai", "material", "nord", "cobalt"}

  /** Position of key `k` (ordinal comparison), if present. */
  function KeyIndex(k: string): (r: Option<nat>)
    ensures r.Some? ==> r.value < |Table| && Table[r.value].0 == k
    ensures r.None? <==> forall i :: 0 <= i < |Table| ==> Table[i].0 != k
  {
    KeyIndexFrom(k, 0)
  }

  function KeyIndexFrom(k: string, from: nat): (r: Option<nat>)
    requires from <= |Table|
    ensures r.Some? ==> from <= r.value < |Table| && Table[r.value].0 == k
    ensures r.None? <==> forall i :: from <= i < |Table| ==> Table[i].0 != k
    decreases |Table| - from
  {
    if from == |Table| then None
    else if Table[from].0 == k then Some(from)
    else KeyIndexFrom(k, from + 1)
  }

  /** `Themes.ContainsKey(k)`. */
  predicate IsKey(k: string)
  {
    KeyIndex(k).Some?
  }

  /** `Themes[k]`. */
  function Lookup(k: string): ThemeSpec
    requires IsKey(k)
  {
    Table[KeyIndex(k).value].1
  }

  lemma KeysDistinct()
    ensures forall i, j :: 0 <= i < j < |Table| ==> Table[i].0 != Table[j].0
  {
  }

  /** The keys lower-cased, in table order. */
  const LoweredKeys: seq<string> := [
    "onedark", "dracula", "githubdark", "githublight", "monokai", "solarizeddark", "solarizedlight",
    "vscode", "material", "nord", "atomonedark", "gruvboxdark", "cobalt"
  ]

  lemma LowerIs(k: string, l: string)
    requires |k| == |l| && forall n :: 0 <= n < |k| ==> LowerChar(k[n]) == l[n]
    ensures Lower(k) == l
  {
  }

  lemma LoweredKeysCorrect()
    ensures |LoweredKeys| == |Table|
    ensures forall i :: 0 <= i < |Table| ==> Lower(Table[i].0) == LoweredKeys[i]
  {
    LowerIs("oneDark", "onedark");
    LowerIs("dracula", "dracula");
    LowerIs("githubDark", "githubdark");
    LowerIs("githubLight", "githublight");
    LowerIs("monokai", "monokai");
    LowerIs("solarizedDark", "solarizeddark");
    LowerIs("solarizedLight", "solarizedlight");
    LowerIs("vsCode", "vscode");
    LowerIs("material", "material");
    LowerIs("nord", "nord");
    LowerIs("atomOneDark", "atomonedark");
    LowerIs("gruvboxDark", "gruvboxdark");
    LowerIs("cobalt", "cobalt");
  }

  /** No two keys differ only in letter case. */
  lemma KeysDistinctIgnoringCase()
    ensures forall i, j :: 0 <= i < j < |Table| ==> Lower(Table[i].0) != Lower(Table[j].0)
  {
    LoweredKeysCorrect();
    assert forall i, j :: 0 <= i < j < |LoweredKeys| ==> LoweredKeys[i] != LoweredKeys[j];
  }

  /** A lower-cased string is a key exactly when it is one of the five lower-case keys. */
  lemma {:induction false} LowerImageKeys(id: string)
    ensures IsKey(Lower(id)) <==> Lower(id) in LowerCaseKeys
  {
    var l := Lower(id);
    if IsKey(l) {
      var i := KeyIndex(l).value;
      assert Table[i].0 == l && IsLowerCase(l);
      if l !in LowerCaseKeys {
        CamelCaseKeys();
        assert false;
      }
    } else if l in LowerCaseKeys {
      LowerCaseKeysAreKeys();
      assert false;
    }
  }

  /** Every key outside the five lower-case ones has an upper-case letter. */
  lemma CamelCaseKeys()
    ensures forall i :: 0 <= i < |Table| && Table[i].0 !in LowerCaseKeys ==> !IsLowerCase(Table[i].0)
  {
    assert !IsLowerCase("oneDark") by { assert IsUpper(("oneDark")[3]); }
    assert !IsLowerCase("githubDark") by { assert IsUpper(("githubDark")[6]); }
    assert !IsLowerCase("githubLight") by { assert IsUpper(("githubLight")[6]); }
    assert !IsLowerCase("solarizedDark") by { assert IsUpper(("solarizedDark")[9]); }
    assert !IsLowerCase("solarizedLight") by { assert IsUpper(("solarizedLight")[9]); }
    assert !IsLowerCase("vsCode") by { assert IsUpper(("vsCode")[2]); }
    assert !IsLowerCase("atomOneDark") by { assert IsUpper(("atomOneDark")[4]); }
    assert !IsLowerCase("gruvboxDark") by { assert IsUpper(("gruvboxDark")[7]); }
  }

  lemma LowerCaseKeysAreKeys()
    ensures forall k :: k in LowerCaseKeys ==> IsKey(k)
  {
    assert Table[1].0 == "dracula" && Table[4].0 == "monokai" && Table[8].0 == "material";
    assert Table[9].0 == "nord" && Table[12].0 == "cobalt";
  }

  /* ---------- GetTheme as written ---------- */

  /**
    `GetTheme` as written, run with `fuel` nested calls: an empty id, or an id
    whose lower-cased form is not a key, re-enters with "oneDark". None means
    the fuel ran out, i.e. the recursion has not ended.
   */
  function GetThemeAsWritten(themeId: string, fuel: nat): (r: Option<ThemeSpec>)
    ensures r.Some? ==> themeId != "" && IsKey(Lower(themeId)) && r.value == Lookup(Lower(themeId))
    decreases fuel
  {
    OneDarkNotAKeyOnceLowered();
    if fuel == 0 then None
    else if themeId == "" then GetThemeAsWritten("oneDark", fuel - 1)
    else if IsKey(Lower(themeId)) then Some(Lookup(Lower(themeId)))
    else GetThemeAsWritten("oneDark", fuel - 1)
  }

  /** The default id itself lower-cases to "onedark", which is not a key. */
  lemma OneDarkNotAKeyOnceLowered()
    ensures !IsKey(Lower("oneDark"))
  {
    LowerImageKeys("oneDark");
    assert Lower("oneDark") == "onedark";
  }

  /**
    With any amount of fuel, `GetThemeAsWritten` returns nothing for the
    empty id and for any id that is not one of the five lower-case keys up to
    letter case: the call recurses forever.
   */
  lemma {:induction false} GetThemeAsWrittenDiverges(themeId: string, fuel: nat)
    requires themeId == "" || Lower(themeId) !in LowerCaseKeys
    ensures GetThemeAsWritten(themeId, fuel) == None
    decreases fuel
  {
    if fuel > 0 {
      if themeId != "" {
        LowerImageKeys(themeId);
      }
      OneDarkNotAKeyOnceLowered();
      LowerImageKeys("oneDark");
      GetThemeAsWrittenDiverges("oneDark", fuel - 1);
    }
  }

  /** The five lower-case keys, in any letter case, are found on the first call. */
  lemma GetThemeAsWrittenFinds(themeId: string, fuel: nat)
    requires fuel > 0 && themeId != "" && Lower(themeId) in LowerCaseKeys
    ensures GetThemeAsWritten(themeId, fuel) == Some(Lookup(Lower(themeId)))
  {
    LowerImageKeys(themeId);
  }

  /** In particular the documented default, `GetTheme("oneDark")`, never returns. */
  lemma DefaultThemeDiverges(fuel: nat)
    ensures GetThemeAsWritten("oneDark", fuel) == None
  {
    assert Lower("oneDark") == "onedark";
    GetThemeAsWrittenDiverges("oneDark", fuel);
  }

  /* ---------- Case-insensitive lookup ---------- */

  /** Position of the key equal to `id` up to letter case, if any. */
  function KeyIndexIgnoringCase(id: string): (r: Option<nat>)
    ensures r.Some? ==> r.value < |Table| && Lower(Table[r.value].0) == Lower(id)
    ensures r.None? <==> forall i :: 0 <= i < |Table| ==> Lower(Table[i].0) != Lower(id)
  {
    KeyIndexIgnoringCaseFrom(id, 0)
  }

  function KeyIndexIgnoringCaseFrom(id: string, from: nat): (r: Option<nat>)
    requires from <= |Table|
    ensures r.Some? ==> from <= r.value < |Table| && Lower(Table[r.value].0) == Lower(id)
    ensures r.None? <==> forall i :: from <= i < |Table| ==> Lower(Table[i].0) != Lower(id)
    decreases |Table| - from
  {
    if from == |Table| then None
    else if Lower(Table[from].0) == Lower(id) then Some(from)
    else KeyIndexIgnoringCaseFrom(id, from + 1)
  }

  /** The theme used when an id is empty or unknown. */
  const DefaultTheme: ThemeSpec := Table[0].1

  /** `GetTheme` as intended: the theme whose key matches ignoring case, or One Dark. */
  function GetTheme(themeId: string): (r: ThemeSpec)
    ensures themeId == "" ==> r == DefaultTheme
    ensures themeId != "" && KeyIndexIgnoringCase(themeId).Some? ==> r == Table[KeyIndexIgnoringCase(themeId).value].1
    ensures KeyIndexIgnoringCase(themeId).None? ==> r == DefaultTheme
    ensures exists i :: 0 <= i < |Table| && r == Table[i].1
  {
    if themeId == "" then DefaultTheme
    else match KeyIndexIgnoringCase(themeId)
      case Some(i) => Table[i].1
      case None => DefaultTheme
  }

  /** Every key, spelled as declared or in any other letter case, finds its own theme. */
  lemma GetThemeOfKey(themeId: string, i: nat)
    requires i < |Table| && Lower(themeId) == Lower(Table[i].0)
    ensures GetTheme(themeId) == Table[i].1
  {
    KeysDistinctIgnoringCase();
    assert themeId != "" by {
      assert |Lower(Table[i].0)| == |Table[i].0| > 0;
    }
  }

  /**
    `ThemeExists` as written: the lower-cased id must be a key, which misses
    camelCase ids; it never reports a theme the intended check would not.
   */
  function ThemeExistsAsWritten(themeId: string): (r: bool)
    ensures r ==> ThemeExists(themeId)
  {
    LowerIdempotent(themeId);
    themeId != "" && IsKey(Lower(themeId))
  }

  lemma LowerIdempotent(s: string)
    ensures Lower(Lower(s)) == Lower(s)
  {
    LowerOfLowerCase(Lower(s));
  }

  /** `ThemeExists` as intended: some key matches ignoring case. */
  function ThemeExists(themeId: string): (r: bool)
    ensures r <==> themeId != "" && exists i :: 0 <= i < |Table| && Lower(Table[i].0) == Lower(themeId)
  {
    themeId != "" && KeyIndexIgnoringCase(themeId).Some?
  }

  /** As written, `ThemeExists` answers true only for the five lower-case keys. */
  lemma ThemeExistsAsWrittenOnlyLowerCase(themeId: string)
    ensures ThemeExistsAsWritten(themeId) <==> themeId != "" && Lower(themeId) in LowerCaseKeys
  {
    LowerImageKeys(themeId);
  }

  /** So a theme id taken straight from the table can be reported missing. */
  lemma OneDarkReportedMissing()
    ensures IsKey("oneDark") && !ThemeExistsAsWritten("oneDark")
  {
    OneDarkNotAKeyOnceLowered();
  }

  /** As intended, every key exists, in any letter case. */
  lemma ThemeExistsForKeys(themeId: string, i: nat)
    requires i < |Table| && Lower(themeId) == Lower(Table[i].0)
    ensures ThemeExists(themeId)
  {
    assert |Lower(Table[i].0)| == |Table[i].0| > 0;
  }

  /* ---------- Dark and light selections ---------- */

  /** `Themes.Values`, in table order. */
  function AllThemes(): (r: seq<ThemeSpec>)
    ensures |r| == |Table| && forall i :: 0 <= i < |Table| ==> r[i] == Table[i].1
  {
    seq(|Table|, i requires 0 <= i < |Table| => Table[i].1)
  }

  /** `GetThemeNames`: the keys in table order. */
  function GetThemeNames(): (r: seq<string>)
    ensures |r| == |Table|
    ensures forall i :: 0 <= i < |r| ==> r[i] == Table[i].0
  {
    seq(|Table|, i requires 0 <= i < |Table| => Table[i].0)
  }

  /** `GetThemeDisplayNames`: every key mapped to its theme's display name. */
  function GetThemeDisplayNames(): (r: map<string, string>)
    ensures forall k :: k in r <==> IsKey(k)
    ensures forall k :: k in r ==> r[k] == Lookup(k).name
  {
    map k | k in GetThemeNames() :: Lookup(k).name
  }

  /** Each listed name looks up its own entry, and the display-name map gives that entry's name. */
  lemma NameLooksUpItsTheme(i: nat)
    requires i < |Table|
    ensures KeyIndex(GetThemeNames()[i]) == Some(i)
    ensures GetThemeDisplayNames()[GetThemeNames()[i]] == AllThemes()[i].name
  {
    KeysDistinct();
  }

  /** The display-name map has exactly one entry per theme. */
  lemma DisplayNamesCount()
    ensures |GetThemeDisplayNames()| == |Table|
  {
    var names := GetThemeNames();
    KeysDistinct();
    assert GetThemeDisplayNames().Keys == set i | 0 <= i < |names| :: names[i];
    DistinctCard(names);
  }

  lemma {:induction false} DistinctCard(s: seq<string>)
    requires forall i, j :: 0 <= i < j < |s| ==> s[i] != s[j]
    ensures |set i | 0 <= i < |s| :: s[i]| == |s|
    decreases |s|
  {
    if |s| > 0 {
      var t := s[..|s| - 1];
      DistinctCard(t);
      assert (set i | 0 <= i < |s| :: s[i]) == (set i | 0 <= i < |t| :: t[i]) + {s[|s| - 1]};
    }
  }

  /** The entries of `s` whose dark flag is `dark`, in order. */
  function WithDark(s: seq<ThemeSpec>, dark: bool): (r: seq<ThemeSpec>)
    ensures forall i :: 0 <= i < |r| ==> r[i].dark == dark
    ensures forall t :: multiset(r)[t] == if t.dark == dark then multiset(s)[t] else 0
    decreases |s|
  {
    if |s| == 0 then []
    else
      assert s == [s[0]] + s[1..];
      (if s[0].dark == dark then [s[0]] else []) + WithDark(s[1..], dark)
  }

  /** `GetDarkThemes`: the dark themes, each as often as the table holds it. */
  function GetDarkThemes(): (r: seq<ThemeSpec>)
    ensures forall i :: 0 <= i < |r| ==> r[i].dark
  {
    WithDark(AllThemes(), true)
  }

  /** `GetLightThemes`: the light themes, each as often as the table holds it. */
  function GetLightThemes(): (r: seq<ThemeSpec>)
    ensures forall i :: 0 <= i < |r| ==> !r[i].dark
  {
    WithDark(AllThemes(), false)
  }

  /** `a` is `b` with some entries removed, the rest in their original order. */
  predicate SubsequenceOf(a: seq<ThemeSpec>, b: seq<ThemeSpec>)
    decreases |b|
  {
    if |a| == 0 then true
    else if |b| == 0 then false
    else (a[0] == b[0] && SubsequenceOf(a[1..], b[1..])) || SubsequenceOf(a, b[1..])
  }

  lemma {:induction false} WithDarkSubsequence(s: seq<ThemeSpec>, dark: bool)
    ensures SubsequenceOf(WithDark(s, dark), s)
    decreases |s|
  {
    if |s| > 0 {
      WithDarkSubsequence(s[1..], dark);
      var r := WithDark(s, dark);
      if s[0].dark == dark {
        assert r[0] == s[0] && r[1..] == WithDark(s[1..], dark);
      } else {
        assert r == WithDark(s[1..], dark);
      }
    }
  }

  /** Selecting by each flag splits any list into two parts that together hold every entry. */
  lemma WithDarkPartition(s: seq<ThemeSpec>)
    ensures multiset(WithDark(s, true)) + multiset(WithDark(s, false)) == multiset(s)
    ensures forall t :: !(t in WithDark(s, true) && t in WithDark(s, false))
  {
    var d, l := WithDark(s, true), WithDark(s, false);
    forall t
      ensures (multiset(d) + multiset(l))[t] == multiset(s)[t]
    {
    }
    assert multiset(d) + multiset(l) == multiset(s);
  }

  /**
    The dark and light selections partition all themes: no theme is in both,
    together they hold every theme exactly as often, and each keeps table order.
   */
  lemma DarkLightPartition()
    ensures multiset(GetDarkThemes()) + multiset(GetLightThemes()) == multiset(AllThemes())
    ensures forall t :: !(t in GetDarkThemes() && t in GetLightThemes())
    ensures SubsequenceOf(GetDarkThemes(), AllThemes()) && SubsequenceOf(GetLightThemes(), AllThemes())
  {
    WithDarkPartition(AllThemes());
    WithDarkSubsequence(AllThemes(), true);
    WithDarkSubsequence(AllThemes(), false);
  }

  /** GitHub Light and Solarized Light are the only light themes. */
  lemma LightKeys()
    ensures forall i :: 0 <= i < |Table| ==> (!Table[i].1.dark <==> Table[i].0 in {"githubLight", "solarizedLight"})
  {
  }

  /* ---------- Recommendations ---------- */

  /** The per-language recommendation lists, keyed by lower-case language id. */
  const Recommendations: seq<(string, seq<string>)> := [
    ("javascript", ["vsCode", "oneDark", "monokai"]),
    ("typescript", ["vsCode", "oneDark", "githubDark"]),
    ("python", ["monokai", "dracula", "oneDark"]),
    ("csharp", ["vsCode", "oneDark", "githubDark"]),
    ("java", ["vsCode", "material", "oneDark"]),
    ("html", ["githubLight", "atomOneDark", "material"]),
    ("css", ["material", "oneDark", "githubDark"]),
    ("markdown", ["githubLight", "solarizedLight", "githubDark"])
  ]

  /** The recommendation list for a lower-cased language id. */
  function RecommendationsFor(lower: string): (r: Option<seq<string>>)
    ensures r.Some? <==> exists i :: 0 <= i < |Recommendations| && Recommendations[i].0 == lower
    ensures r.Some? ==> exists i :: 0 <= i < |Recommendations| && Recommendations[i] == (lower, r.value)
  {
    RecommendationsFrom(lower, 0)
  }

  function RecommendationsFrom(lower: string, from: nat): (r: Option<seq<string>>)
    requires from <= |Recommendations|
    ensures r.Some? <==> exists i :: from <= i < |Recommendations| && Recommendations[i].0 == lower
    ensures r.Some? ==> exists i :: from <= i < |Recommendations| && Recommendations[i] == (lower, r.value)
    decreases |Recommendations| - from
  {
    if from == |Recommendations| then None
    else if Recommendations[from].0 == lower then Some(Recommendations[from].1)
    else RecommendationsFrom(lower, from + 1)
  }

  /** `t` exists and its dark flag equals the preference. */
  predicate Fits(t: string, preferDark: bool)
  {
    IsKey(t) && Lookup(t).dark == preferDark
  }

  /** `Fits` for a fixed preference, as a predicate value. */
  function FitsPreference(preferDark: bool): string -> bool
  {
    t => Fits(t, preferDark)
  }

  /** Position of the first entry of `candidates` at or after `from` that satisfies `fits`. */
  function FirstFitting(candidates: seq<string>, fits: string -> bool, from: nat): (r: Option<nat>)
    requires from <= |candidates|
    ensures r.Some? ==> from <= r.value < |candidates| && fits(candidates[r.value])
    ensures r.Some? ==> forall j :: from <= j < r.value ==> !fits(candidates[j])
    ensures r.None? <==> forall j :: from <= j < |candidates| ==> !fits(candidates[j])
    decreases |candidates| - from
  {
    if from == |candidates| then None
    else if fits(candidates[from]) then Some(from)
    else FirstFitting(candidates, fits, from + 1)
  }

  /** The fallback when nothing recommended fits. */
  function DefaultThemeId(preferDark: bool): string
  {
    if preferDark then "oneDark" else "githubLight"
  }

  lemma DefaultFits(preferDark: bool)
    ensures Fits(DefaultThemeId(preferDark), preferDark)
  {
    assert KeyIndex("oneDark") == Some(0);
    assert KeyIndex("githubLight") == Some(3);
  }

  /**
    `GetRecommendedTheme`: the first recommended theme for the lower-cased
    language that exists and matches the preference, else the default.
   */
  function GetRecommendedTheme(languageId: Option<string>, preferDark: bool): (r: string)
    ensures Fits(r, preferDark)
    ensures var recs := RecommendationsFor(Lower(languageId.GetOr("")));
      if recs.Some? && FirstFitting(recs.value, FitsPreference(preferDark), 0).Some?
      then r == recs.value[FirstFitting(recs.value, FitsPreference(preferDark), 0).value]
      else r == DefaultThemeId(preferDark)
  {
    DefaultFits(preferDark);
    match RecommendationsFor(Lower(languageId.GetOr("")))
    case None => DefaultThemeId(preferDark)
    case Some(recs) =>
      match FirstFitting(recs, FitsPreference(preferDark), 0)
      case Some(k) => recs[k]
      case None => DefaultThemeId(preferDark)
  }

  /** Every recommended id is a key of the table. */
  lemma RecommendationsAreKeys()
    ensures forall i, j :: 0 <= i < |Recommendations| && 0 <= j < |Recommendations[i].1| ==>
      IsKey(Recommendations[i].1[j])
  {
  }

  /** A null or unknown language gets the default. */
  lemma UnknownLanguageDefault(languageId: Option<string>, preferDark: bool)
    requires forall i :: 0 <= i < |Recommendations| ==> Recommendations[i].0 != Lower(languageId.GetOr(""))
    ensures GetRecommendedTheme(languageId, preferDark) == DefaultThemeId(preferDark)
  {
  }
}

=== FILE: view.dfy ===
/**
  The native editor view: it loads the page, polls until the page reports
  the editor ready, then pushes its properties. Property changes that arrive
  before navigation are cached and applied once the editor is ready.

  The view is an immutable record; each operation returns the next record.
  Every script evaluated is appended to `sent`, every delay to `sleeps`, and
  the n-th script's reply is the oracle's `reply(n)`.
 */
module View {
  import opened Common
  import opened Bridge

  /* ---------- Mode and theme mapping ---------- */

  /** The language names (lower case) `GetCodeMirrorMode` recognises. */
  const KnownLanguages: set<string> := {
    "javascript", "js", "typescript", "ts", "csharp", "cs", "python", "py", "html", "css", "xml",
    "json", "sql", "markdown", "md", "yaml", "yml"
  }

  const ModeNames: set<string> := {
    "javascript", "text/typescript", "text/x-csharp", "python", "htmlmixed", "css", "xml",
    "application/json", "text/x-sql", "markdown", "yaml", "text/plain"
  }

  /** The full language name a short name stands for; other names are left alone. */
  function FullName(k: string): string
  {
    if k == "js" then "javascript"
    else if k == "ts" then "typescript"
    else if k == "cs" then "csharp"
    else if k == "py" then "python"
    else if k == "md" then "markdown"
    else if k == "yml" then "yaml"
    else k
  }

  /** The mode for a full lower-cased language name. */
  function ModeOfFullName(k: string): string
  {
    if k == "javascript" then "javascript"
    else if k == "typescript" then "text/typescript"
    else if k == "csharp" then "text/x-csharp"
    else if k == "python" then "python"
    else if k == "html" then "htmlmixed"
    else if k == "css" then "css"
    else if k == "xml" then "xml"
    else if k == "json" then "application/json"
    else if k == "sql" then "text/x-sql"
    else if k == "markdown" then "markdown"
    else if k == "yaml" then "yaml"
    else "text/plain"
  }

  /**
    The mode for a lower-cased language name: each `"full" or "short"` arm of
    the switch is the short name read as the full one.
   */
  function ModeOfLower(k: string): (r: string)
    ensures r in ModeNames
    ensures r == "text/plain" <==> k !in KnownLanguages
  {
    ModeOfFullName(FullName(k))
  }

  /** `GetCodeMirrorMode`: total, case-insensitive, "text/plain" for null or unknown names. */
  function ModeFor(language: Option<string>): (r: string)
    ensures r in ModeNames
    ensures r == "text/plain" <==> language.None? || Lower(language.value) !in KnownLanguages
  {
    match language
    case None => "text/plain"
    case Some(l) => ModeOfLower(Lower(l))
  }

  /** Each short name maps like its full name. */
  lemma ShortNamesMapLikeFullNames()
    ensures ModeOfLower("js") == ModeOfLower("javascript")
    ensures ModeOfLower("ts") == ModeOfLower("typescript")
    ensures ModeOfLower("cs") == ModeOfLower("csharp")
    ensures ModeOfLower("py") == ModeOfLower("python")
    ensures ModeOfLower("md") == ModeOfLower("markdown")
    ensures ModeOfLower("yml") == ModeOfLower("yaml")
  {
  }

  /** The language a mode is for, the inverse of the mapping on full names. */
  function LanguageOfMode(m: string): string
  {
    if m == "text/typescript" then "typescript"
    else if m == "text/x-csharp" then "csharp"
    else if m == "htmlmixed" then "html"
    else if m == "application/json" then "json"
    else if m == "text/x-sql" then "sql"
    else m
  }

  /**
    The mapping loses nothing but the short forms: from the mode of a known
    name its full name is recovered, so two known names share a mode only
    when they name the same language.
   */
  lemma ModeDeterminesLanguage(k: string)
    requires k in KnownLanguages
    ensures LanguageOfMode(ModeOfLower(k)) == FullName(k)
  {
  }

  /** The mode ignores letter case. */
  lemma ModeIgnoresCase(a: string, b: string)
    requires Lower(a) == Lower(b)
    ensures ModeFor(Some(a)) == ModeFor(Some(b))
  {
  }

  const ThemeNames: set<string> := {"default", "dracula", "monokai", "material-darker"}

  /** `GetCodeMirrorTheme`: total, case-insensitive, "dracula" for null or unknown names. */
  function ThemeFor(theme: Option<string>): (r: string)
    ensures r in ThemeNames
    ensures r == "default" <==> theme.Some? && Lower(theme.value) == "light"
    ensures r == "monokai" <==> theme.Some? && Lower(theme.value) == "monokai"
    ensures r == "material-darker" <==> theme.Some? && Lower(theme.value) == "material"
  {
    match theme
    case None => "dracula"
    case Some(t) =>
      var k := Lower(t);
      if k == "light" then "default"
      else if k == "dark" || k == "dracula" then "dracula"
      else if k == "monokai" then "monokai"
      else if k == "material" then "material-darker"
      else "dracula"
  }

  /* ---------- View state ---------- */

  /** The loading overlay. */
  datatype Overlay = Loading | Hidden | Failed

  /**
    The bindable properties (`code`, `language`, `theme`, `readOnly`), the
    three caches ("" stands for null), `_isInitialized`, and what has been
    observed so far: scripts sent, delays slept, the overlay.
   */
  datatype ViewState = ViewState(
    code: string,
    language: Option<string>,
    theme: Option<string>,
    readOnly: bool,
    cachedCode: string,
    cachedLanguage: string,
    cachedTheme: string,
    initialized: bool,
    sent: seq<Script>,
    sleeps: seq<nat>,
    overlay: Overlay)

  /** A freshly constructed view: the property defaults, nothing cached or sent. */
  function NewView(): (v: ViewState)
    ensures !v.initialized && v.sent == [] && v.sleeps == []
    ensures v.cachedCode == v.cachedLanguage == v.cachedTheme == ""
    ensures v.code == "" && v.language == Some("javascript") && v.theme == Some("dracula") && !v.readOnly
  {
    ViewState("", Some("javascript"), Some("dracula"), false, "", "", "", false, [], [], Loading)
  }

  /** Evaluates one script. */
  function Send(v: ViewState, s: Script): ViewState
  {
    v.(sent := v.sent + [s])
  }

  /* ---------- SetValueSafely ---------- */

  /** The scripts `SetValueSafely` may send, in order. */
  function AttemptScripts(clean: string): seq<Script>
  {
    [SetEditorValue(clean), SetEditorValueDirect(clean), DebugLog]
  }

  /** Whether `SetValueSafely`, sending its first script as number `n`, reports success. */
  predicate ValueAccepted(b: Oracle, n: nat)
  {
    !b.throws(n) &&
    (ReportsSuccess(b.reply(n)) || (!b.throws(n + 1) && ReportsSuccess(b.reply(n + 1))))
  }

  /**
    How many scripts `SetValueSafely` sends when its first script has number
    `n`: it stops after the first evaluation that throws or reports success,
    and after the third script in any case.
   */
  function ScriptsSent(b: Oracle, n: nat): nat
  {
    if b.throws(n) || ReportsSuccess(b.reply(n)) then 1
    else if b.throws(n + 1) || ReportsSuccess(b.reply(n + 1)) then 2
    else 3
  }

  /**
    `SetValueSafely`: waits 1000 ms when called before initialisation, cleans
    the code, then tries the base64 setter and the direct setter, succeeding
    on the first reply that contains "success". When both fail it assigns the
    cleaned code to `Code`, fetches the debug log and reports failure. An
    exception from any evaluation ends the call with failure.

    Assigning `Code` runs its change handler when the value differs; before
    initialisation the handler caches the code (see `SetCode`).
   */
  function SetValueSafely(v: ViewState, code: string, b: Oracle): (r: (ViewState, bool))
    ensures r.0.sleeps == (if v.initialized then v.sleeps else v.sleeps + [1000])
    ensures var k := |r.0.sent| - |v.sent|;
      1 <= k <= 3 && r.0.sent == v.sent + AttemptScripts(b.clean(code))[..k]
    ensures |r.0.sent| - |v.sent| == ScriptsSent(b, |v.sent|)
    ensures ScriptsSent(b, |v.sent|) < 3 ==> r.0.code == v.code && r.0.cachedCode == v.cachedCode
    ensures r.1 <==> ValueAccepted(b, |v.sent|)
    ensures r.1 || b.throws(|v.sent|) || b.throws(|v.sent| + 1) || r.0.code == b.clean(code)
    ensures r.1 ==> r.0.code == v.code
    ensures !v.initialized && r.0.code != v.code ==> r.0.cachedCode == r.0.code
    ensures r.0.cachedCode != v.cachedCode ==> !v.initialized && r.0.code != v.code
    ensures r.0 == v.(sent := r.0.sent, sleeps := r.0.sleeps, code := r.0.code, cachedCode := r.0.cachedCode)
  {
    var v1 := if !v.initialized then v.(sleeps := v.sleeps + [1000]) else v;
    var clean := b.clean(code);
    var n := |v.sent|;
    var v2 := Send(v1, SetEditorValue(clean));
    if b.throws(n) then (v2, false)
    else if ReportsSuccess(b.reply(n)) then (v2, true)
    else
      var v3 := Send(v2, SetEditorValueDirect(clean));
      assert ScriptsSent(b, n) >= 2;
      if b.throws(n + 1) then (v3, false)
      else if ReportsSuccess(b.reply(n + 1)) then (v3, true)
      else
        assert ScriptsSent(b, n) == 3;
        var v4 := Send(AssignCode(v3, clean), DebugLog);
        assert AttemptScripts(clean)[..3] == AttemptScripts(clean);
        (v4, false)
  }

  /**
    `Code = value` inside `SetValueSafely`: the change handler runs only for a
    new value and, before initialisation, caches it. After initialisation the
    handler would call `SetValueSafely` again, which is not modelled.
   */
  function AssignCode(v: ViewState, value: string): ViewState
  {
    if value == v.code then v
    else if v.initialized then v.(code := value)
    else v.(code := value, cachedCode := value)
  }

  /** A page that accepts the base64 setter is sent nothing else. */
  lemma FirstAttemptSuffices(v: ViewState, code: string, b: Oracle)
    requires !b.throws(|v.sent|) && ReportsSuccess(b.reply(|v.sent|))
    ensures SetValueSafely(v, code, b).1
    ensures SetValueSafely(v, code, b).0.sent == v.sent + [SetEditorValue(b.clean(code))]
  {
  }

  /**
    When neither setter succeeds the cleaned code ends up in `Code`, after
    three scripts; before initialisation a changed value is also cached, so
    `ApplyCachedContent` sends it again later.
   */
  lemma FallbackStoresCode(v: ViewState, code: string, b: Oracle)
    requires !b.throws(|v.sent|) && !b.throws(|v.sent| + 1)
    requires !ReportsSuccess(b.reply(|v.sent|)) && !ReportsSuccess(b.reply(|v.sent| + 1))
    ensures !SetValueSafely(v, code, b).1
    ensures SetValueSafely(v, code, b).0.code == b.clean(code)
    ensures SetValueSafely(v, code, b).0.sent == v.sent + AttemptScripts(b.clean(code))
    ensures !v.initialized && b.clean(code) != v.code ==> SetValueSafely(v, code, b).0.cachedCode == b.clean(code)
  {
  }

  /* ---------- Property-changed handlers ---------- */

  /**
    Setting `Code`. The change handler runs only when the value differs; it
    sends the code when initialised and caches it otherwise.
   */
  function SetCode(v: ViewState, value: string, b: Oracle): (r: ViewState)
    ensures value == v.code ==> r == v
    ensures value != v.code && !v.initialized ==> r == v.(code := value, cachedCode := value)
    ensures value != v.code && v.initialized ==>
      r.cachedCode == v.cachedCode && |r.sent| > |v.sent| && r.sent[|v.sent|] == SetEditorValue(b.clean(value))
    ensures r.initialized == v.initialized && r.cachedLanguage == v.cachedLanguage && r.cachedTheme == v.cachedTheme
  {
    if value == v.code then v
    else
      var v1 := v.(code := value);
      if v1.initialized then SetValueSafely(v1, value, b).0 else v1.(cachedCode := value)
  }

  /**
    Setting `Language`. A null value is stored but otherwise ignored; else the
    mode is sent when initialised and the name cached otherwise.
   */
  function SetLanguage(v: ViewState, value: Option<string>): (r: ViewState)
    ensures r.language == value
    ensures value == v.language || value.None? ==> r == v.(language := value)
    ensures value != v.language && value.Some? && !v.initialized ==>
      r == v.(language := value, cachedLanguage := value.value)
    ensures value != v.language && value.Some? && v.initialized ==>
      r == v.(language := value, sent := v.sent + [SetEditorMode(ModeFor(value))])
  {
    if value == v.language then v
    else
      var v1 := v.(language := value);
      if value.None? then v1
      else if v1.initialized then Send(v1, SetEditorMode(ModeFor(value)))
      else v1.(cachedLanguage := value.value)
  }

  /** Setting `Theme`, handled like `Language`. */
  function SetTheme(v: ViewState, value: Option<string>): (r: ViewState)
    ensures r.theme == value
    ensures value == v.theme || value.None? ==> r == v.(theme := value)
    ensures value != v.theme && value.Some? && !v.initialized ==>
      r == v.(theme := value, cachedTheme := value.value)
    ensures value != v.theme && value.Some? && v.initialized ==>
      r == v.(theme := value, sent := v.sent + [SetEditorTheme(ThemeFor(value))])
  {
    if value == v.theme then v
    else
      var v1 := v.(theme := value);
      if value.None? then v1
      else if v1.initialized then Send(v1, SetEditorTheme(ThemeFor(value)))
      else v1.(cachedTheme := value.value)
  }

  /** Setting `ReadOnly`: forwarded when initialised, otherwise not remembered anywhere but the property. */
  function SetReadOnly(v: ViewState, value: bool): (r: ViewState)
    ensures value == v.readOnly || !v.initialized ==> r == v.(readOnly := value)
    ensures value != v.readOnly && v.initialized ==>
      r == v.(readOnly := value, sent := v.sent + [Script.SetReadOnly(value)])
  {
    if value == v.readOnly then v
    else
      var v1 := v.(readOnly := value);
      if v1.initialized then Send(v1, Script.SetReadOnly(value)) else v1
  }

  /** Once initialised, language and theme changes never touch the caches. */
  lemma InitializedBypassesCache(v: ViewState, l: Option<string>, t: Option<string>)
    requires v.initialized
    ensures SetLanguage(v, l).cachedLanguage == v.cachedLanguage
    ensures SetTheme(v, t).cachedTheme == v.cachedTheme
  {
  }

  /** Before initialisation, nothing is sent for any property change. */
  lemma NothingSentBeforeInit(v: ViewState, c: string, l: Option<string>, t: Option<string>, ro: bool, b: Oracle)
    requires !v.initialized
    ensures SetCode(v, c, b).sent == v.sent
    ensures SetLanguage(v, l).sent == v.sent
    ensures SetTheme(v, t).sent == v.sent
    ensures SetReadOnly(v, ro).sent == v.sent
  {
  }

  /** `GetEditorValue`: the page's value when initialised (null read as ""), else the `Code` property. */
  function GetEditorValue(v: ViewState, b: Oracle): (r: (ViewState, string))
    ensures !v.initialized ==> r == (v, v.code)
    ensures v.initialized ==> r == (Send(v, Script.GetEditorValue), b.reply(|v.sent|).GetOr(""))
  {
    if v.initialized then (Send(v, Script.GetEditorValue), b.reply(|v.sent|).GetOr(""))
    else (v, v.code)
  }

  /* ---------- Initialisation ---------- */

  /** The scripts `InitializeEditor` sends before the code, in order. */
  function InitScripts(v: ViewState): seq<Script>
  {
    [SetEditorTheme(ThemeFor(v.theme)), SetEditorMode(ModeFor(v.language))] +
    (if v.readOnly then [QueueReadOnly] else [])
  }

  /**
    `InitializeEditor` of the view: theme, then mode, then the read-only
    option when set, then the code through `SetValueSafely` when not empty.
   */
  function InitializeEditor(v: ViewState, b: Oracle): (r: ViewState)
    ensures |r.sent| >= |v.sent| + |InitScripts(v)| && r.sent[..|v.sent| + |InitScripts(v)|] == v.sent + InitScripts(v)
    ensures v.code == "" ==> r == v.(sent := v.sent + InitScripts(v))
    ensures v.code != "" ==>
      |r.sent| > |v.sent| + |InitScripts(v)| &&
      r.sent[|v.sent| + |InitScripts(v)|] == SetEditorValue(b.clean(v.code))
    ensures v.code != "" ==> r == SetValueSafely(v.(sent := v.sent + InitScripts(v)), v.code, b).0
    ensures r.theme == v.theme && r.language == v.language && r.readOnly == v.readOnly && r.overlay == v.overlay
    ensures v.initialized ==> r.cachedCode == v.cachedCode
    ensures r.cachedLanguage == v.cachedLanguage && r.cachedTheme == v.cachedTheme
    ensures r.initialized == v.initialized
  {
    var head := v.(sent := v.sent + InitScripts(v));
    if v.code != "" then
      ValueSentFirst(head, v.code, b);
      SetValueSafely(head, v.code, b).0
    else head
  }

  /** The scripts `ApplyCachedContent` sends before the code, in order. */
  function CachedSettingScripts(v: ViewState): seq<Script>
  {
    (if v.cachedTheme != "" then [SetEditorTheme(ThemeFor(Some(v.cachedTheme)))] else []) +
    (if v.cachedLanguage != "" then [SetEditorMode(ModeFor(Some(v.cachedLanguage)))] else [])
  }

  /**
    `ApplyCachedContent`: the cached theme, then the cached language, then the
    cached code, each only when not empty. Only the code cache is cleared.
   */
  function ApplyCachedContent(v: ViewState, b: Oracle): (r: ViewState)
    ensures var head := CachedSettingScripts(v);
      |r.sent| >= |v.sent| + |head| && r.sent[..|v.sent| + |head|] == v.sent + head
    ensures v.cachedCode == "" ==> r.sent == v.sent + CachedSettingScripts(v)
    ensures v.cachedCode != "" ==>
      |r.sent| > |v.sent| + |CachedSettingScripts(v)| &&
      r.sent[|v.sent| + |CachedSettingScripts(v)|] == SetEditorValue(b.clean(v.cachedCode))
    ensures r.cachedCode == "" && r.cachedLanguage == v.cachedLanguage && r.cachedTheme == v.cachedTheme
    ensures r.initialized == v.initialized
  {
    var v2 := SendCachedSettings(v);
    if v.cachedCode != "" then
      ValueSentFirst(v2, v.cachedCode, b);
      SetValueSafely(v2, v.cachedCode, b).0.(cachedCode := "")
    else v2
  }

  function SendCachedSettings(v: ViewState): (r: ViewState)
    ensures r == v.(sent := v.sent + CachedSettingScripts(v))
  {
    var v1 := if v.cachedTheme != "" then Send(v, SetEditorTheme(ThemeFor(Some(v.cachedTheme)))) else v;
    if v.cachedLanguage != "" then Send(v1, SetEditorMode(ModeFor(Some(v.cachedLanguage)))) else v1
  }

  /** `SetValueSafely` keeps what was sent before and sends the base64 setter first. */
  lemma ValueSentFirst(v: ViewState, code: string, b: Oracle)
    ensures var s := SetValueSafely(v, code, b).0.sent;
      |s| > |v.sent| && s[..|v.sent|] == v.sent && s[|v.sent|] == SetEditorValue(b.clean(code))
  {
    var s := SetValueSafely(v, code, b).0.sent;
    assert s[|v.sent|] == AttemptScripts(b.clean(code))[0];
  }

  /* ---------- Readiness polling ---------- */

  const MaxProbes: nat := 15
  const FirstDelay: nat := 100
  const MaxDelay: nat := 2000

  function Pow2(i: nat): (r: nat)
    ensures r >= 1
  {
    if i == 0 then 1 else 2 * Pow2(i - 1)
  }

  function Min(a: int, b: int): int
  {
    if a <= b then a else b
  }

  /** The sleep after the i-th failed probe (counting from 0). */
  function Delay(i: nat): nat
  {
    Min(FirstDelay * Pow2(i), MaxDelay)
  }

  /** Doubling the current delay and capping it yields the next delay. */
  lemma DelayStep(i: nat)
    ensures Min(Delay(i) * 2, MaxDelay) == Delay(i + 1)
  {
  }

  /** Delays start at 100 ms, never decrease and never exceed 2000 ms. */
  lemma DelayBounds(i: nat)
    ensures Delay(0) == FirstDelay
    ensures FirstDelay <= Delay(i) <= MaxDelay
    ensures Delay(i) <= Delay(i + 1)
  {
  }

  /** The first `k` delays. */
  function Delays(k: nat): (r: seq<nat>)
    ensures |r| == k && forall i :: 0 <= i < k ==> r[i] == Delay(i)
  {
    seq(k, i requires 0 <= i => Delay(i))
  }

  function Sum(s: seq<nat>): nat
  {
    if |s| == 0 then 0 else Sum(s[..|s| - 1]) + s[|s| - 1]
  }

  /** `k` copies of the readiness probe. */
  function Probes(k: nat): (r: seq<Script>)
    ensures |r| == k && forall i :: 0 <= i < k ==> r[i] == ProbeReady
  {
    seq(k, i requires 0 <= i => ProbeReady)
  }

  /** `ready?.ToString()?.ToLower() == "true"` for the n-th reply. */
  predicate ProbeSucceeds(b: Oracle, n: nat)
  {
    b.reply(n).Some? && Lower(b.reply(n).value) == "true"
  }

  /**
    The polling loop: up to 15 probes; the first reply reading "true" in any
    letter case ends it; after each other reply the view sleeps, starting at
    100 ms and doubling up to 2000 ms.
   */
  method PollReadiness(v: ViewState, b: Oracle) returns (r: ViewState, ready: bool)
    ensures ready <==> exists n :: |v.sent| <= n < |v.sent| + MaxProbes && ProbeSucceeds(b, n)
    ensures var k := |r.sent| - |v.sent|;
      1 <= k <= MaxProbes && r.sent == v.sent + Probes(k) &&
      (forall n :: |v.sent| <= n < |v.sent| + k - 1 ==> !ProbeSucceeds(b, n)) &&
      (ready ==> ProbeSucceeds(b, |v.sent| + k - 1) && r.sleeps == v.sleeps + Delays(k - 1)) &&
      (!ready ==> k == MaxProbes && r.sleeps == v.sleeps + Delays(k))
    ensures r == v.(sent := r.sent, sleeps := r.sleeps)
  {
    var delay := FirstDelay;
    ready := false;
    r := v;
    var i := 0;
    while i < MaxProbes
      invariant 0 <= i <= MaxProbes
      invariant delay == Delay(i)
      invariant r.sent == v.sent + Probes(i)
      invariant r.sleeps == v.sleeps + Delays(i)
      invariant forall n :: |v.sent| <= n < |v.sent| + i ==> !ProbeSucceeds(b, n)
      invariant r == v.(sent := r.sent, sleeps := r.sleeps)
      decreases MaxProbes - i
    {
      var succeeded := ProbeSucceeds(b, |r.sent|);
      r := Send(r, ProbeReady);
      if succeeded {
        ready := true;
        assert r.sent == v.sent + Probes(i + 1);
        return;
      }
      r := r.(sleeps := r.sleeps + [delay]);
      DelayStep(i);
      delay := Min(delay * 2, MaxDelay);
      i := i + 1;
      assert r.sent == v.sent + Probes(i);
      assert r.sleeps == v.sleeps + Delays(i);
    }
  }

  /** A page that never reports ready costs 23.1 s of polling sleeps. */
  lemma PollingBudget()
    ensures Sum(Delays(MaxProbes)) == 23100
  {
    var d := Delays(MaxProbes);
    assert Pow2(1) == 2 && Pow2(2) == 4 && Pow2(3) == 8 && Pow2(4) == 16 && Pow2(5) == 32;
    assert d[..1][..0] == d[..0];
    assert Sum(d[..1]) == 100;
    assert d[..2][..1] == d[..1];
    assert Sum(d[..2]) == 300;
    assert d[..3][..2] == d[..2];
    assert Sum(d[..3]) == 700;
    assert d[..4][..3] == d[..3];
    assert Sum(d[..4]) == 1500;
    assert d[..5][..4] == d[..4];
    assert Sum(d[..5]) == 3100;
    forall i | 5 <= i < MaxProbes
      ensures d[i] == MaxDelay
    {
      PowMonotone(5, i);
    }
    SumFlat(d, 5);
  }

  lemma {:induction false} PowMonotone(i: nat, j: nat)
    requires i <= j
    ensures Pow2(i) <= Pow2(j)
    decreases j
  {
    if i < j {
      PowMonotone(i, j - 1);
    }
  }

  /** The sum of a sequence whose tail from `k` on is all 2000. */
  lemma {:induction false} SumFlat(d: seq<nat>, k: nat)
    requires k <= |d| && forall i :: k <= i < |d| ==> d[i] == MaxDelay
    ensures Sum(d) == Sum(d[..k]) + MaxDelay * (|d| - k)
    decreases |d|
  {
    if |d| > k {
      assert d[..|d| - 1][..k] == d[..k];
      SumFlat(d[..|d| - 1], k);
    } else {
      assert d[..k] == d;
    }
  }

  /* ---------- Navigation ---------- */

  /**
    `OnNavigated`: on the first successful navigation, marks the view
    initialised, waits 500 ms, polls; when the page is ready, initialises the
    editor and applies the caches; finally fetches the debug log. Any later
    navigation, or a failed one, does nothing.
   */
  method OnNavigated(v: ViewState, success: bool, b: Oracle) returns (r: ViewState, ready: bool)
    ensures !success || v.initialized ==> r == v && !ready
    ensures success && !v.initialized ==> r.initialized
    ensures success && !v.initialized ==>
      (ready <==> exists n :: |v.sent| <= n < |v.sent| + MaxProbes && ProbeSucceeds(b, n))
    ensures success && !v.initialized ==> r.overlay == (if ready then Hidden else Failed)
    ensures success && !v.initialized && !ready ==>
      r.sent == v.sent + Probes(MaxProbes) + [DebugLog] &&
      r.sleeps == v.sleeps + [500] + Delays(MaxProbes) &&
      r.cachedCode == v.cachedCode
    ensures success && !v.initialized && ready ==>
      exists failed: nat :: failed < MaxProbes && ProbeSucceeds(b, |v.sent| + failed) &&
        (forall n :: |v.sent| <= n < |v.sent| + failed ==> !ProbeSucceeds(b, n)) &&
        r == ReadyPath(v, failed, b)
    ensures success && !v.initialized && ready ==> r.cachedCode == "" && r.sent[|r.sent| - 1] == DebugLog
  {
    if !success || v.initialized {
      return v, false;
    }
    var v1 := v.(initialized := true, sleeps := v.sleeps + [500]);
    var polled;
    polled, ready := PollReadiness(v1, b);
    if ready {
      r := FinishReady(v, v1, polled, b);
    } else {
      r := Send(polled.(overlay := Failed), DebugLog);
      FailedState(v, polled, r);
    }
  }

  /** The ready branch of `OnNavigated`, from the state a successful `PollReadiness` leaves. */
  method FinishReady(v: ViewState, v1: ViewState, polled: ViewState, b: Oracle) returns (r: ViewState)
    requires v1 == v.(initialized := true, sleeps := v.sleeps + [500])
    requires var k := |polled.sent| - |v1.sent|;
      1 <= k <= MaxProbes && polled.sent == v1.sent + Probes(k) &&
      (forall n :: |v1.sent| <= n < |v1.sent| + k - 1 ==> !ProbeSucceeds(b, n)) &&
      ProbeSucceeds(b, |v1.sent| + k - 1) && polled.sleeps == v1.sleeps + Delays(k - 1)
    requires polled == v1.(sent := polled.sent, sleeps := polled.sleeps)
    ensures exists failed: nat ::
      failed < MaxProbes && ProbeSucceeds(b, |v.sent| + failed) &&
      (forall n :: |v.sent| <= n < |v.sent| + failed ==> !ProbeSucceeds(b, n)) &&
      r == ReadyPath(v, failed, b)
    ensures r.initialized && r.overlay == Hidden && r.cachedCode == ""
    ensures |r.sent| > 0 && r.sent[|r.sent| - 1] == DebugLog
  {
    var failed := PolledState(v, v1, polled, b);
    r := ReadyPath(v, failed, b);
  }

  /** What a successful `PollReadiness` leaves, as the number of probes that failed first. */
  function PolledState(v: ViewState, v1: ViewState, polled: ViewState, b: Oracle): (failed: nat)
    requires v1 == v.(initialized := true, sleeps := v.sleeps + [500])
    requires var k := |polled.sent| - |v1.sent|;
      1 <= k <= MaxProbes && polled.sent == v1.sent + Probes(k) &&
      (forall n :: |v1.sent| <= n < |v1.sent| + k - 1 ==> !ProbeSucceeds(b, n)) &&
      ProbeSucceeds(b, |v1.sent| + k - 1) && polled.sleeps == v1.sleeps + Delays(k - 1)
    requires polled == v1.(sent := polled.sent, sleeps := polled.sleeps)
    ensures failed < MaxProbes && ProbeSucceeds(b, |v.sent| + failed)
    ensures forall n :: |v.sent| <= n < |v.sent| + failed ==> !ProbeSucceeds(b, n)
    ensures polled == AfterPolling(v, failed)
  {
    |polled.sent| - |v.sent| - 1
  }

  lemma FailedState(v: ViewState, polled: ViewState, r: ViewState)
    requires polled == v.(initialized := true, sleeps := polled.sleeps, sent := polled.sent)
    requires polled.sleeps == (v.sleeps + [500]) + Delays(MaxProbes)
    requires polled.sent == v.sent + Probes(MaxProbes)
    requires r == Send(polled.(overlay := Failed), DebugLog)
    ensures r.sent == v.sent + Probes(MaxProbes) + [DebugLog]
    ensures r.sleeps == v.sleeps + [500] + Delays(MaxProbes)
    ensures r.cachedCode == v.cachedCode && r.initialized && r.overlay == Failed
  {
  }

  /**
    The ready path after polling: the view's `InitializeEditor` scripts, then
    `ApplyCachedContent`'s, the overlay hidden, then the debug-log fetch.
   */
  function ReadyPath(v: ViewState, failed: nat, b: Oracle): (r: ViewState)
    ensures r.initialized && r.overlay == Hidden && r.cachedCode == ""
    ensures |r.sent| > 0 && r.sent[|r.sent| - 1] == DebugLog
  {
    Send(ApplyCachedContent(InitializeEditor(AfterPolling(v, failed), b), b).(overlay := Hidden), DebugLog)
  }

  /**
    The view once the navigation handler has marked it initialised, waited
    500 ms and polled: `failed` probes that did not report ready, each
    followed by its backoff sleep, then the probe that did.
   */
  function AfterPolling(v: ViewState, failed: nat): ViewState
  {
    v.(initialized := true, sleeps := v.sleeps + [500] + Delays(failed), sent := v.sent + Probes(failed + 1))
  }

  /** Navigation is handled at most once: a second call changes nothing. */
  method NavigateTwice(v: ViewState, b: Oracle) returns (first: ViewState, second: ViewState)
    ensures first.initialized && second == first
  {
    if v.initialized {
      first := v;
    } else {
      var ready;
      first, ready := OnNavigated(v, true, b);
    }
    var again;
    second, again := OnNavigated(first, true, b);
  }
}
